=== FILE: README.md ===
# A model of the creator-dashboard backend and its helpers

The application is a Next.js dashboard for YouTube creators. It keeps its data in Convex. This project models three parts of it in Dafny:

- **The Convex functions.** These cover users and the premium flag, connected channels and their videos, generated content ideas, trending topics, tracked competitors, the rule-based AI insights, the dashboard overviews, and seeding and clearing sample data.
- **The browser-side helpers.** These are micro-app detection, links and breadcrumbs, error classification, the app mode and its feature table, and mock-mode detection.
- **The decision logic inside three dashboard components.** These are the content-ideas filter, category list and Generate guard, the trending-topics filter, and the order and loading view of the insights panel.

The database is one value, `Schema.Db`, with one `Tables.Table` per collection:

- A table is its rows in creation order plus the next id to hand out.
- `ValidDb` says the ids along every table strictly increase and stay below that counter.

Each query, mutation and action is a pure function of the database and its arguments:

- It returns an `Outcome` (the value and the new database) or a `Result` whose error is the one the handler throws.
- Things a handler reads from outside become parameters. `Date.now()` is a `now: int`. `Math.random()` is a stream of draws `rng: nat -> nat`, consumed in the order the code calls it.
- An action that calls several mutations is the composition of those mutations.

The browser helpers read an `Environment.Env`: whether a window exists, whether the window is its own parent, and the environment variables.

Modules follow the source files:

| module | models |
|---|---|
| `Users` | `convex/users.ts` |
| `YouTube` | `convex/youtubeApi.ts` |
| `ContentIdeas` | `convex/contentIdeas.ts` |
| `TrendingTopics` | `convex/trendingTopics.ts` |
| `Competitors` | `convex/competitors.ts` |
| `Dashboard` | `convex/dashboardOverview.ts` |
| `Seed` | `convex/seedData.ts` |
| `MicroApp` | `lib/micro-app-utils.ts` |
| `AppMode` | `lib/app-mode.ts` |
| `IframeDetection` | `lib/iframe-detection.ts` |
| `ContentIdeasPage` | the content-ideas page |
| `TrendingTopicsPage` | the trending-topics page |
| `InsightsPanel` | the insights panel |

These modules rest on shared infrastructure:

- `Schema` holds the documents and the database. Only the insights, projects, customers and campaigns tables are declared in `convex/schema.ts`. The shapes of users, channels, videos, content ideas, trending topics and competitors are inferred from what the handlers insert and patch.
- `Tables` holds the database primitives: insert, get, patch, delete, filtered scans, and newest-first `take`.
- `Seqs` holds the array methods: filter, map, find, reverse, distinct, sums and counts.
- `Strings` holds the string helpers: last path segment, ASCII case mapping, `includes` and number rendering.
- `Common` holds `Option`, `Result`, the error values and random draws.

## Model

| member | source | states |
|---|---|---|
| Users.GetUserById | convex/users.ts:43-53 | Null exactly when no user row has that external id; otherwise the document of the first such row in creation order. |
| Users.CreateOrUpdateUser | convex/users.ts:6-40 | An unknown user gets exactly one new row, appended after the old ones, not premium unless told so, with `createdAt` and `lastLoginAt` both `now`. A known user gets no new row: only the supplied name, email and flag change, `lastLoginAt` is refreshed, `createdAt` is kept, every row other than the one the lookup found is untouched, and nothing is returned. Only the users table changes. |
| Users.UpdatePremiumStatus | convex/users.ts:56-77 | Fails with "User not found" exactly when the user is missing, and then changes nothing. Otherwise returns true, and the user's document differs only in `isPremium`. Every row other than the one the lookup found, and every other table, is unchanged. |
| Users.PatchedUser | convex/users.ts:15-27 | Patching the row the index lookup finds keeps the table valid and as long. The lookup then returns the patched document, and no row other than the found one changes. |
| Users.InsertedUser | convex/users.ts:29-37 | Inserting a first document for a user appends exactly one row, and the lookup then finds it. |
| Users.SignInTwiceKeepsOneRow | convex/users.ts:15-37 | A first sign-in followed by a second one leaves one row for the user. That row keeps the first `createdAt` and the second `lastLoginAt`. |
| Users.PremiumGateReadsUpdate | convex/users.ts:71-75 | After a successful update, the premium gate (`user?.isPremium \|\| false`) reads back the flag that was set. |
| YouTube.ChannelIdFromUrl | convex/youtubeApi.ts:16 | The text after the URL's last '/', or "demo-channel-id" when that is empty. The result is never empty. |
| YouTube.SampleChannel | convex/youtubeApi.ts:19-27 | The synthesised channel carries the extracted id and the given URL. Its counts are below 100000, 500 and 10000000. |
| YouTube.SampleVideos | convex/youtubeApi.ts:36-46 | Exactly five videos, with ids `video-<i>-<channel>`, published `now - i` days with `publishedAt` strictly decreasing. Counts are below 50000, 5000 and 500, and the ids are pairwise distinct. |
| YouTube.StoreChannelData | convex/youtubeApi.ts:59-103 | Upserts on the external channel id across all users. If some row has that id, only its counts and `lastSyncedAt` change, even when another user owns it, and nothing is returned. Otherwise one row owned by the caller is appended with `isAnalyzed` false and its id is returned. Only the channels table changes. |
| YouTube.PatchVideoAt | convex/youtubeApi.ts:137-143 | Patching a video's counts keeps every row's id and every other field. |
| YouTube.UpsertVideo | convex/youtubeApi.ts:130-161 | One loop step. When a row has the video id, the first such row becomes that row with the batch video's view, like and comment counts. No other row changes, including later rows with the same video id. Otherwise exactly one row is appended: the video under the channel's external id, which the lookup then finds. |
| YouTube.UpsertVideoKeepsOthers | convex/youtubeApi.ts:130-161 | One loop step leaves the `by_video_id` lookup of every other video id where it was. |
| YouTube.UpsertVideos | convex/youtubeApi.ts:130-161 | The whole loop: rows already present keep their ids and change only in their counts. Rows whose video id is not in the batch are untouched. Every new row is some batch video stored under that channel, up to its counts. No appended row repeats the video id of any row before it, so an id is inserted at most once and only when the table lacked it. |
| YouTube.UpsertVideosKeepsOthers | convex/youtubeApi.ts:130-161 | The whole loop leaves the lookup of every video id outside the batch where it was. |
| YouTube.UpsertVideosStores | convex/youtubeApi.ts:130-161 | After the loop every video of the batch has a row. |
| YouTube.UpsertVideosCounts | convex/youtubeApi.ts:130-161 | After the loop, the first row with a batch video's id holds the view, like and comment counts of the last batch element with that id. |
| YouTube.UpsertVideosStoresBatch | convex/youtubeApi.ts:130-161 | The loop keeps all of `YouTube.BatchStored`: every batch video has a row, and the first row under each id holds the counts of the last batch element with that id. Existing rows change only in their counts, and rows outside the batch not at all. Every appended row is a batch video under the channel's external id. Its video id was not in the table, and no other appended row has it. |
| YouTube.FreshAppendsMeans | convex/youtubeApi.ts:130-161 | When the ids of the old rows are kept, fresh appends are new to the table and pairwise distinct: an upsert on the video id never leaves two rows for an id it inserted. |
| YouTube.StoreVideos | convex/youtubeApi.ts:106-163 | Fails with "Channel not found" exactly when the channel row id has no document, and then stores nothing. Otherwise it returns the batch length and every video of the batch has a row. The first row with each batch video's id holds the counts of the last batch element with that id. Existing rows keep their ids and change only in view, like and comment counts; rows not in the batch are untouched. Every new row is a batch video stored under the channel's external id, under a video id the table did not hold and no other new row has. Only the videos table changes. These facts are bundled as `YouTube.BatchStored`. |
| YouTube.GetUserChannels | convex/youtubeApi.ts:166-176 | Exactly the channel rows whose owner is the user. |
| YouTube.UserChannelsInOrder | convex/youtubeApi.ts:171-174 | The listing keeps creation order: it is a subsequence of the table. |
| YouTube.GetChannelVideos | convex/youtubeApi.ts:179-190 | Exactly the video rows with that external channel id, newest first. |
| YouTube.DeleteChannel | convex/youtubeApi.ts:193-218 | A missing channel fails with "Channel not found" and changes nothing. Otherwise the channel row and every video with its external id are removed. Every other channel and every other video stays, and the result is true. |
| YouTube.DeletedChannelHasNoVideos | convex/youtubeApi.ts:203-216 | After the cascade, asking for that channel's videos returns nothing. |
| YouTube.ConnectYouTubeChannelAsWritten | convex/youtubeApi.ts:9-56 | The action as written succeeds for a channel id seen for the first time. For a channel id that is already stored it fails on an invalid argument, and the database is the one `storeChannelData` committed: the channel is resynced and nothing else has changed. |
| YouTube.FreshConnectAsIntended | convex/youtubeApi.ts:9-56 | For a channel id not yet stored, the action as written returns the same row id and leaves the same database as the intended one. |
| YouTube.ReconnectFailsAsWritten | convex/youtubeApi.ts:30-52 | Reconnecting an already stored channel fails, and no video is refreshed. |
| YouTube.StoredChannelRow | convex/youtubeApi.ts:59-103 | After `storeChannelData`, the channel id has a row. Bundled as `YouTube.ChannelConnected`: if a row already had that id, the first such row is the one found, holding the old document resynced with the new counts and time. Otherwise the found row is new and holds a fresh channel document owned by the caller. |
| YouTube.SampleBatchStored | convex/youtubeApi.ts:106-163 | Storing the five sample videos leaves each sample's id with a row whose first occurrence holds that sample's counts. Bundled as `YouTube.SamplesStored`. |
| YouTube.ConnectYouTubeChannel | convex/youtubeApi.ts:9-56 | The intended action returns a stored channel row whose external id is the one the URL names. That row holds the sampled channel data as `YouTube.ChannelConnected` states: the existing row resynced at `now`, or a new row owned by the caller. Afterwards each of the five sample videos has a row, and the first row with its id holds that sample's view, like and comment counts, so a reconnect refreshes them. Only the channels and videos tables change. |
| ContentIdeas.IdeaCount | convex/contentIdeas.ts:35-37 | The number of loop iterations: zero for a count that is not positive, otherwise the count rounded up for a premium user. A free user gets the same up to three and exactly three for any count of three or more. |
| ContentIdeas.Pick | convex/contentIdeas.ts:153-155 | A random element is one of the given choices. |
| ContentIdeas.GeneratedIdea | convex/contentIdeas.ts:38-52 | Idea i belongs to the caller, is generated, is stamped `now`, cites the given sources, and is premium exactly when i >= 3. Its category is one of the six categories and its viewership one of the three levels. |
| ContentIdeas.GeneratedIdeas | convex/contentIdeas.ts:37-55 | The batch has the requested length, and idea i is premium exactly when i >= 3. Every idea belongs to the caller, is generated and cites the sources. |
| ContentIdeas.BatchAppended | convex/contentIdeas.ts:57-62 | Appending such a batch adds one row per idea, in order, and returns their ids in order. |
| ContentIdeas.StoreGenerated | convex/contentIdeas.ts:57-64 | The storing loop appends the batch in order and returns the new ids in order. The old rows are kept. The i-th new row holds the i-th generated idea, for the caller's sources, `now` and random draws (`ContentIdeas.StoresIdeas`). |
| ContentIdeas.OwnedChannel | convex/contentIdeas.ts:18-19 | Finds a channel exactly when the user owns one with that external id. |
| ContentIdeas.GenerateContentIdeas | convex/contentIdeas.ts:6-65 | Fails with "Channel not found" exactly when the user owns no channel with that id, and then stores nothing. Otherwise it appends `IdeaCount(isPremium, count)` ideas, where a missing user counts as not premium, and returns their ids one-to-one and in order. Each idea belongs to the caller and is generated; the first three are free and the rest premium. The i-th new row holds exactly the i-th idea generated from the channel's video titles, the time `now` and the random draws (`ContentIdeas.StoresIdeas`). Only the ideas table changes. |
| ContentIdeas.InspirationSources | convex/contentIdeas.ts:26-47 | The ids of the first two videos of the channel's newest-first listing, or of all of them when it has fewer. Each is a stored video of that channel. |
| ContentIdeas.GeneratedSourcesAreChannelVideos | convex/contentIdeas.ts:26-47 | When the user owns the channel, every stored generated idea cites the ids of the channel's two newest videos, newest first, or all of them when it has fewer. |
| ContentIdeas.StoreContentIdea | convex/contentIdeas.ts:69-88 | Appends exactly the given idea and returns its fresh id. |
| ContentIdeas.GetUserContentIdeas | convex/contentIdeas.ts:91-116 | Only the user's ideas, and every free one of them. The premium ones appear only when the user is premium and asked for them, and then all of them do. |
| ContentIdeas.UserIdeasInOrder | convex/contentIdeas.ts:96-114 | The listing is a subsequence of the table. |
| ContentIdeas.ListAfterBatch | convex/contentIdeas.ts:91-116 | After a batch is appended, the listing is the old listing followed by the batch. This holds when the listing shows premium ideas or the batch has none. |
| ContentIdeas.GenerateThenList | convex/contentIdeas.ts:6-116 | For a free user, and for a premium user who lists premium ideas, listing after generating shows the old ideas followed by the new ones, in order. |
| ContentIdeas.CreateManualContentIdea | convex/contentIdeas.ts:119-139 | Appends one row and returns its id. The row is an idea of the user with the given title, description and category, created `now`. It is neither premium nor generated, has tags defaulting to [], and has no inspiration sources, keywords or viewership estimate. |
| ContentIdeas.ManualIdeaIsListed | convex/contentIdeas.ts:119-139 | A manual idea shows in its author's listing even without premium. |
| ContentIdeas.DeleteContentIdea | convex/contentIdeas.ts:142-150 | Removes exactly that row, keeps every other row and adds none, and returns true. An id with no document fails and changes nothing. |
| TrendingTopics.TopicsFor | convex/trendingTopics.ts:20-79 | Three templates for a free user and seven for a premium one, the basic three first. A template is premium exactly when it is past the third, and every relevance score lies in [75, 95]. |
| TrendingTopics.StoreTrendingTopic | convex/trendingTopics.ts:99-122 | Appends one row whose fields are the given topic data plus the user id. Returns its id. |
| TrendingTopics.StoreTopics | convex/trendingTopics.ts:82-92 | One insert per template, in order: old rows are kept and the new rows carry the templates stamped `now`. |
| TrendingTopics.GenerateTrendingTopics | convex/trendingTopics.ts:6-96 | Appends 3 topics for a free or unknown user and 7 for a premium one, and returns their ids in order. Earlier topics are untouched and only the topics table changes. |
| TrendingTopics.GeneratedTopicsShape | convex/trendingTopics.ts:13-79 | Every topic a call stores belongs to the caller, is stamped `now` and scores 75 to 95. For a free or unknown user none is premium. |
| TrendingTopics.GetUserTrendingTopics | convex/trendingTopics.ts:125-150 | Only the user's topics, in creation order, and every free one of them. Premium topics appear only when the user is premium and asked for them, and then all of them do. |
| TrendingTopics.FreeUserGainsBasicTopics | convex/trendingTopics.ts:6-150 | After a free user generates, their listing is the old one followed by exactly the three basic topics. |
| Competitors.CompetitorIdFromUrl | convex/competitors.ts:21 | The text after the URL's last '/', or "demo-competitor-id" when that is empty. |
| Competitors.SampleCompetitor | convex/competitors.ts:21-31 | The synthesised competitor has the extracted id, the name "Competitor <id>" and the given URL. Its counts are below 500000, 1000 and 50000000. |
| Competitors.ResyncKeepsIdentity | convex/competitors.ts:64-70 | A re-sync keeps every row's id, owner and competitor channel id. |
| Competitors.StoreCompetitorData | convex/competitors.ts:44-89 | Upserts on the competitor channel id across all users. For an existing row, only the counts and `lastSyncedAt` change, whoever owns it, and name, URL, notes and owner stay. Otherwise one row owned by the caller is inserted, with empty notes and `isPremium` true. |
| Competitors.AddCompetitor | convex/competitors.ts:6-41 | A user who is not premium, or is unknown, gets the premium error and nothing is stored. Otherwise the synthesised competitor is appended for the user with its id returned, Or, when some row already tracks that channel id, no row is added. That first row gets the synthesised counts and `now` as its sync time, every other row is untouched, and every row keeps its identity. |
| Competitors.GetUserCompetitors | convex/competitors.ts:92-115 | Empty for a user who is not premium or is unknown. Otherwise exactly the user's competitor rows, in creation order. |
| Competitors.SharedCompetitorNotListed | convex/competitors.ts:58-72 | When another user already tracks the channel id, adding it leaves the caller's listing without that channel. |
| Competitors.UpdateCompetitorNotes | convex/competitors.ts:118-129 | Changes only the notes of that row and returns true. A missing id fails. |
| Competitors.DeleteCompetitor | convex/competitors.ts:132-140 | Removes that row, keeps every other competitor row unchanged and adds none, and returns true. A missing id fails. Only the competitors table changes. |
| Competitors.FloorDiv | convex/competitors.ts:167 | `Math.floor(a / b)`: the greatest integer whose product with b does not pass a, for either sign of b. |
| Competitors.Divisor | convex/competitors.ts:167 | `videoCount \|\| 1` is never zero, and it equals the count when that is not zero. |
| Competitors.GenerateCompetitorInsightsAsWritten | convex/competitors.ts:143-177 | A user who is not premium gets the premium error. A premium user reaches the `ctx.db` read and fails there. |
| Competitors.InsightsNeverReturnedAsWritten | convex/competitors.ts:157 | The action as written never returns insights. |
| Competitors.GenerateCompetitorInsights | convex/competitors.ts:143-177 | The intended action fails for a user who is not premium, then fails for a missing competitor; it succeeds exactly otherwise. Then it returns the fixed content types, the fixed upload frequency "2 videos per week" and the three fixed strategies, in order. The average views are views per video rounded down, or the views themselves for a competitor with no videos. |
| Dashboard.Round | convex/dashboardOverview.ts:53 | `Math.round`: the integer within half a unit below or strictly under half above. |
| Dashboard.AverageProgressBounds | convex/dashboardOverview.ts:49 | Progress values within [0, 1] average within [0, 1]. |
| Dashboard.PerformanceKinds | convex/dashboardOverview.ts:48-71 | With projects, the strong-progress insight fires iff the average progress is above 0.7, and the needs-attention one iff it is below 0.3. Neither fires without projects. |
| Dashboard.OpportunityKinds | convex/dashboardOverview.ts:74-102 | Lead Conversion fires iff there are customers and leads > 2 x opportunities. Lead Generation fires iff there are customers, at least one of them paying, and no leads. |
| Dashboard.SuggestionKinds | convex/dashboardOverview.ts:105-127 | The campaign suggestion fires iff there are no campaigns and more than five customers. The completion focus fires iff there are more than three projects and none past 80%. |
| Dashboard.TrendKinds | convex/dashboardOverview.ts:130-155 | Balanced Growth fires iff there are projects and campaigns. Customer Growth fires iff more than 30% of over ten customers are recent. |
| Dashboard.StarterKinds | convex/dashboardOverview.ts:158-168 | Getting Started fires iff there are no projects, customers or campaigns. |
| Dashboard.Kinds | convex/dashboardOverview.ts:44-168 | The generator yields exactly the insights whose rule fires, each once, in the order of the rules. |
| Dashboard.Render | convex/dashboardOverview.ts:50-168 | Every produced insight has its rule's title, category and priority, and is owned by the user and stamped `now`. |
| Dashboard.RenderAll | convex/dashboardOverview.ts:48-168 | One insight per decision, in order, each owned by the user with its rule's category and priority. |
| Dashboard.InsightsFor | convex/dashboardOverview.ts:48-168 | The generated documents correspond one-to-one with the fired rules. |
| Dashboard.InsightsRendered | convex/dashboardOverview.ts:48-168 | The i-th generated document is the rendering of the i-th fired rule. |
| Dashboard.GetAIInsights | convex/dashboardOverview.ts:4-13 | At most ten rows, all the user's, newest first. A row of the user's that is left out is older than every one shown, and rows are left out only when ten are shown. |
| Dashboard.GenerateAIInsights | convex/dashboardOverview.ts:15-177 | Afterwards the user's insights are exactly the generated ones, in order. Every other user's insight is kept, only the insights table changes, and the count returned is the number of insights produced. |
| Dashboard.ReplaceInsights | convex/dashboardOverview.ts:19-175 | Deleting the user's insights and inserting new ones leaves exactly the new ones as the user's. Other users' rows are kept and the count is returned. |
| Dashboard.KindsShape | convex/dashboardOverview.ts:44-168 | At most five insights. Getting Started is produced iff the user has no data, and then alone. |
| Dashboard.ExclusiveInsights | convex/dashboardOverview.ts:48-140 | These pairs never both fire: Lead Conversion and Lead Generation, the campaign suggestion and Balanced Growth, and the two progress insights. |
| Dashboard.NewUserGetsStarted | convex/dashboardOverview.ts:158-175 | A user with no projects, customers or campaigns ends up with exactly one insight: Getting Started, category suggestion, priority 9. The result is 1. |
| Dashboard.NoDataGetsStarted | convex/dashboardOverview.ts:158-168 | Without data the generator renders Getting Started alone. |
| Dashboard.RegenerateIsStable | convex/dashboardOverview.ts:15-177 | Generating twice at the same time leaves the same insights as generating once. |
| Dashboard.SameDataSameStats | convex/dashboardOverview.ts:29-46 | The generator's figures depend only on the projects, customers and campaigns. |
| Dashboard.CompletedProjectBlocksFocus | convex/dashboardOverview.ts:117-191 | A user with a completed project is never told to focus on completing projects. |
| Dashboard.NearlyDoneBlocksFocus | convex/dashboardOverview.ts:117 | A project past 80% blocks the completion-focus rule. |
| Dashboard.GetProjectsOverview | convex/dashboardOverview.ts:180-194 | The total is the user's project count and the completed count is at most it. The average is the mean: times the project count it gives the sum of the progresses, with missing progress counted as 0. It is 0 without projects and lies within [0, 1] when every progress does. |
| Dashboard.GetCustomersOverview | convex/dashboardOverview.ts:196-211 | The total is the user's customer count. Each status count is the number of the user's customers with that status, and leads + opportunities + customers never exceed the total. |
| Dashboard.GetCampaignsOverview | convex/dashboardOverview.ts:213-228 | The total is the user's campaign count, and the active count is the number of its active campaigns, at most the total. The budget and spending totals are the sums of the real-valued amounts over the user's campaigns, with missing values counted as 0. When no campaign spent more than its budget, neither did the totals. |
| Seed.SeedProjects | convex/seedData.ts:37-75 | Four sample projects, all the user's, updated `now`. |
| Seed.SeedCustomers | convex/seedData.ts:77-142 | Seven sample customers, all the user's, updated `now`. |
| Seed.SeedCampaigns | convex/seedData.ts:144-175 | Three sample campaigns, all the user's, updated `now`. |
| Seed.SeedUserData | convex/seedData.ts:4-196 | Afterwards the user's projects, customers and campaigns are exactly the samples, whatever they were before. It returns {4, 7, 3}, which equal the user's row counts. Other users' rows are kept, and the insights and every other table are untouched. |
| Seed.ClearWhere | convex/seedData.ts:223-234 | One deletion loop removes exactly the matching rows and keeps the others. |
| Seed.ClearUserData | convex/seedData.ts:198-245 | Afterwards the user has no projects, customers, campaigns or insights, and every other row is kept. The counts reported are the user's counts before the call. |
| Seed.SampleProjectFigures | convex/seedData.ts:37-75 | One sample project is past 80%, and the progresses sum to 2.35. |
| Seed.SampleLeads | convex/seedData.ts:77-142 | The samples hold three leads. |
| Seed.SampleOpportunities | convex/seedData.ts:77-142 | The samples hold two opportunities. |
| Seed.SamplePaying | convex/seedData.ts:77-142 | The samples hold two paying customers. |
| Seed.SeededUserGetsBalancedGrowth | convex/seedData.ts:4-196 | Generating insights right after seeding yields Balanced Growth alone. |
| Seed.SampleKinds | convex/dashboardOverview.ts:48-168 | On the sample figures, only the Balanced Growth rule fires. |
| Seed.ClearedUserGetsStarted | convex/seedData.ts:198-245 | After clearing, the generator greets the user with Getting Started alone. |
| Seed.ClearAfterSeed | convex/seedData.ts:4-245 | Clearing right after seeding reports 4, 7 and 3 rows, plus the insights the user already had. |
| IframeDetection.IsInIframe | lib/iframe-detection.ts:6-9 | Never framed on the server. In a browser, framed exactly when the window is not its own parent. |
| IframeDetection.ShouldUseMockMode | lib/iframe-detection.ts:14-24 | Always false on the server. In a browser it is true with the mock-auth flag on, and otherwise exactly when the page is framed. |
| IframeDetection.MockModeFromIframe | lib/iframe-detection.ts:6-24 | Being framed is enough for mock mode, and mock mode needs a browser and either a frame or the flag. |
| AppMode.GetAppMode | lib/app-mode.ts:14-30 | Demo whenever the demo flag is "true". The mode is authenticated exactly when the flag is off and both Clerk keys are non-empty. |
| AppMode.ModeOfEnvironment | lib/app-mode.ts:14-47 | `isDemo` holds exactly when the demo flag is on or a Clerk key is missing, and `isAuthenticated` exactly otherwise. |
| AppMode.ModesComplement | lib/app-mode.ts:38-47 | `isDemo` and `isAuthenticated` are complements, and without both keys the app is a demo. |
| AppMode.ModeFeatures | lib/app-mode.ts:52-73 | Only `persistenceType` is a text, "ephemeral" in a demo and "persistent" otherwise. Every flag is on except `requiresAuth` and `requiresBackend` in a demo. |
| AppMode.GetFeatureFlags | lib/app-mode.ts:78-80 | In the current mode's row the four capability flags are on, `requiresAuth` and `requiresBackend` are on exactly when authenticated, and `persistenceType` is "ephemeral" exactly in a demo. |
| AppMode.IsFeatureAvailable | lib/app-mode.ts:52-89 | `requiresAuth` and `requiresBackend` hold exactly in authenticated mode, and the four capability flags hold in both modes. `persistenceType` is "ephemeral" in a demo and "persistent" otherwise. |
| AppMode.ModesDiffer | lib/app-mode.ts:52-73 | The two modes' rows differ exactly in persistence, `requiresAuth` and `requiresBackend`. |
| AppMode.GetModeMessage | lib/app-mode.ts:94-112 | Every message is non-empty. That each key's message differs between the two modes is `AppMode.MessagesDistinguishModes`. |
| AppMode.MessagesDistinguishModes | lib/app-mode.ts:94-105 | Every message key reads differently in the two modes. |
| MicroApp.IsMicroAppContext | lib/micro-app-utils.ts:14-24 | False without a window. Otherwise the page is framed, or `NEXT_PUBLIC_MICRO_APP` is "true". |
| MicroApp.BaseUrl | lib/micro-app-utils.ts:51-53 | The configured base when set and non-empty, else "/apps". |
| MicroApp.UrlExtends | lib/micro-app-utils.ts:51-54 | `getMicroAppUrl(app, route)` is the app's own link followed by the route, and extending the route extends the link. |
| MicroApp.CreateBreadcrumbs | lib/micro-app-utils.ts:104-128 | The loop builds the breadcrumbs: Home, the app, then one crumb per segment but the last. |
| MicroApp.Breadcrumbs | lib/micro-app-utils.ts:104-128 | 2 crumbs for an empty path, otherwise one more than the path's length. |
| MicroApp.CrumbsAt | lib/micro-app-utils.ts:108-125 | The first crumb is Home at "/", and the second is the capitalised app name linking to the app. The crumb after them for segment k is the capitalised segment, linking to the app URL of "/" + path[0] + ... + "/" + path[k]. |
| MicroApp.CrumbsDescend | lib/micro-app-utils.ts:116-125 | Each segment's crumb links one segment deeper than the crumb before it. |
| MicroApp.LastSegmentHasNoCrumb | lib/micro-app-utils.ts:119-124 | The deepest crumb links to the path without its last segment. |
| MicroApp.HandleMicroAppError | lib/micro-app-utils.ts:134-169 | An auth keyword in any case gives an auth error, which alone redirects. Otherwise a not-found keyword gives the fixed data message. Otherwise the original, not lower-cased, message is passed on as unknown. |
| MicroApp.ClassificationIgnoresCase | lib/micro-app-utils.ts:139-151 | Lower-casing the message first does not change its type or redirect. |
| MicroApp.AuthWins | lib/micro-app-utils.ts:141-151 | A message containing "forbidden", in any case, is an auth error whatever else it says. |
| ContentIdeasPage.FilteredIdeas | app/dashboard/content-ideas/page.tsx:40-57 | An idea is shown iff its category matches a chosen non-empty category, it is premium when premium-only is on, and it is free when the user is not premium. Shown ideas come from the list. |
| ContentIdeasPage.FilteredIdeasInOrder | app/dashboard/content-ideas/page.tsx:40-57 | The filter keeps list order. |
| ContentIdeasPage.NoFilterShowsAll | app/dashboard/content-ideas/page.tsx:40-57 | With no category and premium-only off, a premium user sees the whole list. |
| ContentIdeasPage.SetCategories | app/dashboard/content-ideas/page.tsx:60 | The non-empty categories of the ideas, each of which comes from some idea. |
| ContentIdeasPage.Categories | app/dashboard/content-ideas/page.tsx:60 | Each non-empty category in use appears exactly once, and nothing else appears. The categories come in the order of their first use in the list, which is the `Set`'s insertion order. |
| ContentIdeasPage.FirstUseOrder | app/dashboard/content-ideas/page.tsx:60 | A category met earlier in the named list was first used by an earlier idea. |
| Seqs.DistinctFirstOrder | app/dashboard/content-ideas/page.tsx:60 | `Array.from(new Set(s))` lists the elements in the order of their first occurrence in `s`. |
| ContentIdeasPage.HandleGenerateIdeas | app/dashboard/content-ideas/page.tsx:62-81 | No call unless signed in with a user and at least one channel. The call asks for ten ideas for the first channel. |
| ContentIdeasPage.GenerateFindsChannel | app/dashboard/content-ideas/page.tsx:62-81 | A call built from the user's own channel list never meets "Channel not found". |
| TrendingTopicsPage.FilteredTopics | app/dashboard/trending-topics/page.tsx:32-44 | A topic is shown iff it is premium when premium-only is on, and free when the user is not premium. |
| TrendingTopicsPage.FilteredTopicsInOrder | app/dashboard/trending-topics/page.tsx:32-44 | The filter keeps list order. |
| TrendingTopicsPage.PremiumOnlyHidesAllFromFreeUser | app/dashboard/trending-topics/page.tsx:32-44 | A user who is not premium sees nothing with premium-only on. |
| TrendingTopicsPage.PageShowsWhatServerSends | app/dashboard/trending-topics/page.tsx:20-44 | With the toggle off, the client filter removes nothing the server sent for `includePremium: true`. |
| TrendingTopicsPage.HandleGenerateTopics | app/dashboard/trending-topics/page.tsx:46-63 | Generation is requested for the signed-in user, and only when there is one. |
| InsightsPanel.Compare | app/dashboard/components/ai-insights.tsx:118-123 | Negative exactly when a has the higher priority, or the same priority and a later creation time. Zero exactly when both keys are equal. |
| InsightsPanel.CompareIsOrder | app/dashboard/components/ai-insights.tsx:118-123 | The comparator puts a first iff a has higher priority, or equal priority and a creation time no earlier. It is antisymmetric, total and transitive. |
| InsightsPanel.Insert | app/dashboard/components/ai-insights.tsx:118-123 | Inserting into a sorted list keeps it sorted and adds exactly that insight. |
| InsightsPanel.SortInsights | app/dashboard/components/ai-insights.tsx:118-123 | The result is sorted by the comparator and is a permutation of the insights. |
| InsightsPanel.View | app/dashboard/components/ai-insights.tsx:46-123 | Loading placeholders exactly while the query is pending. No card for a null answer. Otherwise a sorted permutation of what was fetched. |
| InsightsPanel.FirstIsMostUrgent | app/dashboard/components/ai-insights.tsx:118-123 | The first card has the highest priority and, among those, the latest creation time. |
| Tables.SelectNewest | convex/dashboardOverview.ts:7-11 | `.order("desc").take(n)` over a filter: at most n matches, newest first. Every match left out is older than all of them, and only when n are shown. |
| Strings.LowerChar | lib/micro-app-utils.ts:139 | A capital ASCII letter becomes the small letter 32 code points above it, and every other character stays. |
| Strings.UpperChar | lib/micro-app-utils.ts:111-121 | A small ASCII letter becomes the capital letter 32 code points below it, and every other character stays. |
| Strings.SegmentOr | convex/youtubeApi.ts:16 | Either the fallback or a non-empty, '/'-free suffix of the URL. It is the fallback exactly when the URL ends in '/' or its last segment is the fallback. |

## Left out

- I/O, the network, Clerk authentication, the Convex runtime's scheduling, and rendering are not modelled. The time and the random draws are parameters. A handler reads one `now` for its whole run, where the source calls `Date.now()` afresh at each use.
- Floating point: progress values, averages, customer values, budgets and amounts spent are exact reals, and `Math.round` is `floor(x + 0.5)`. Competitor engagement and growth rates are random text that is not modelled; `GenerateCompetitorInsights` models every other field.
- The handlers query `users`, `youtubeChannels`, `videos`, `contentIdeas`, `trendingTopics` and `competitors` through `by_user_id`, `by_channel_id`, `by_video_id` and `by_competitor_id` indexes. No schema declares these tables or indexes, so the running app would reject those queries. The model assumes the indexes exist and gives the equality scans their meaning.
- `ContentIdeas.GenerateContentIdeas`: `count` is a real number. A NaN count, which runs the loop zero times, and an infinite count, which never ends the loop for a premium user, are not modelled.
- Fractional numbers in the stored counts are not modelled. View, like, comment, subscriber and video counts, `publishedAt`, `relevanceScore` and `priority` are integers here, where the schema accepts any number. A fractional value passed to `storeChannelData`, `storeVideos`, `storeCompetitorData` or `storeTrendingTopic`, or as the `createdAt` of `createContentIdea` has no counterpart in the model. Every value the handlers themselves compute is an integer.
- `generateTrendingTopics` accepts a `niche` argument that the source never reads; the model takes it and ignores it.
- Case conversion covers ASCII letters only.
- The breadcrumb field `label` is called `text`, because `label` is a reserved word.
- `MicroApp.GetMicroAppUrl`: its contract is stated through `MicroApp.UrlExtends` and `MicroApp.BaseUrl`, not on the function itself.
- `AppMode.IsFeatureAvailable`: the source's `?? false` fallback never applies because every key is present. For `persistenceType` it returns the text, as the source does.
- `InsightsPanel.SortInsights`: the result is proved sorted and a permutation; stability, which the engine's sort gives, is not proved.
- `Dashboard.Render`: the contract fixes title, category, priority, owner and time stamps, but not the description's wording.
- Out of scope: `useMicroAppContext`, `navigateToApp`, `createMicroAppProviders`, `getUserIdentityForConvex`, `MicroAppLoader` and `trackMicroAppEvent` in `lib/micro-app-utils.ts`. These are React hooks, navigation, provider wiring and logging.
- Out of scope: the insights panel's refresh handler, icons and colours.

## Findings

| source | as written | input that shows it | evidently intended | confidence | as-written member | corrected member |
|---|---|---|---|---|---|---|
| convex/youtubeApi.ts:30-52 | The result of `storeChannelData` is used as the channel row id for `storeVideos`. When the channel id is already stored, `storeChannelData` only patches and returns null. | Connect the same channel URL twice. On the second call, `storeVideos` gets a null channel id and fails after the channel patch was committed, so no video is refreshed. | Use the id of the existing row when the channel is already stored, and refresh its videos. | not executed | YouTube.ConnectYouTubeChannelAsWritten, YouTube.ReconnectFailsAsWritten | YouTube.ConnectYouTubeChannel |
| convex/competitors.ts:157 | The action reads the competitor through `ctx.db.get`. An action's context has no `db`. | Any premium user with any existing competitor id: the read fails, and no insights are ever returned. | Read the competitor through a query (`ctx.runQuery`) and compute the insights from it. | not executed | Competitors.GenerateCompetitorInsightsAsWritten, Competitors.InsightsNeverReturnedAsWritten | Competitors.GenerateCompetitorInsights |

=== FILE: appMode.dfy ===
/** The app's mode — a demo without sign-in, or the authenticated production app — chosen
    once from the environment, with the features and messages of each mode. */
module AppMode {
  import opened Environment

  datatype Mode = Demo | Authenticated

  /** `getAppMode`: demo when the demo flag is on; otherwise authenticated when both Clerk keys
      are set; otherwise demo. */
  function GetAppMode(env: Env): (r: Mode)
    ensures FlagOn(env, DemoModeFlag) ==> r == Demo
    ensures r == Authenticated <==>
              !FlagOn(env, DemoModeFlag) && VarSet(env, ClerkPublishableKey) && VarSet(env, ClerkSecretKey)
  {
    if FlagOn(env, DemoModeFlag) then Demo
    else if VarSet(env, ClerkPublishableKey) && VarSet(env, ClerkSecretKey) then Authenticated
    else Demo
  }

  /** `isDemo`, for the mode computed once at load. */
  predicate IsDemo(mode: Mode) {
    mode == Demo
  }

  /** `isAuthenticated`, for the mode computed once at load. */
  predicate IsAuthenticated(mode: Mode) {
    mode == Authenticated
  }

  /** What `isDemo` and `isAuthenticated` read from the environment: a demo exactly when the
      demo flag is on or a Clerk key is missing. */
  lemma ModeOfEnvironment(env: Env)
    ensures IsDemo(GetAppMode(env)) <==>
              FlagOn(env, DemoModeFlag) || !VarSet(env, ClerkPublishableKey) || !VarSet(env, ClerkSecretKey)
    ensures IsAuthenticated(GetAppMode(env)) <==>
              !FlagOn(env, DemoModeFlag) && VarSet(env, ClerkPublishableKey) && VarSet(env, ClerkSecretKey)
  {
  }

  /** Exactly one of `isDemo` and `isAuthenticated` holds; without both Clerk keys the app is
      a demo whatever the flag says. */
  lemma ModesComplement(env: Env)
    ensures IsDemo(GetAppMode(env)) <==> !IsAuthenticated(GetAppMode(env))
    ensures !(VarSet(env, ClerkPublishableKey) && VarSet(env, ClerkSecretKey)) ==> IsDemo(GetAppMode(env))
  {
  }

  /** A value of the feature table: a flag, or the persistence kind. */
  datatype Value = Flag(on: bool) | Text(text: string)

  /** The keys of the feature table. */
  datatype Feature =
    | CanPreview | CanSeeAllFeatures | CanModifyData | CanDeleteData
    | PersistenceType | RequiresAuth | RequiresBackend

  /** `modeFeatures`: what each mode offers. Only `persistenceType` is a text; every flag is on
      except, in a demo, the need for sign-in and for a backend. */
  function ModeFeatures(mode: Mode, f: Feature): (r: Value)
    ensures r.Text? <==> f == PersistenceType
    ensures r == Flag(false) <==> mode == Demo && f in {RequiresAuth, RequiresBackend}
    ensures r.Text? ==> r.text == (if mode == Demo then "ephemeral" else "persistent")
  {
    match f
    case CanPreview => Flag(true)
    case CanSeeAllFeatures => Flag(true)
    case CanModifyData => Flag(true)
    case CanDeleteData => Flag(true)
    case PersistenceType => if mode == Demo then Text("ephemeral") else Text("persistent")
    case RequiresAuth => Flag(mode == Authenticated)
    case RequiresBackend => Flag(mode == Authenticated)
  }

  /** `getFeatureFlags`: the whole row of the current mode. The four capabilities are on in
      both modes, sign-in and a backend are needed exactly when authenticated, and the data
      persists only then. */
  function GetFeatureFlags(mode: Mode): (r: Feature -> Value)
    ensures forall f :: f != PersistenceType ==> r(f).Flag?
    ensures r(CanPreview) == Flag(true) && r(CanSeeAllFeatures) == Flag(true)
    ensures r(CanModifyData) == Flag(true) && r(CanDeleteData) == Flag(true)
    ensures r(RequiresAuth) == Flag(IsAuthenticated(mode)) && r(RequiresBackend) == Flag(IsAuthenticated(mode))
    ensures r(PersistenceType) == Text(if IsDemo(mode) then "ephemeral" else "persistent")
  {
    f => ModeFeatures(mode, f)
  }

  /** `isFeatureAvailable`: the table's entry for the current mode. Every key is present, so the
      `?? false` fallback never applies; for `persistenceType` the entry is the kind's name. */
  function IsFeatureAvailable(mode: Mode, f: Feature): (r: Value)
    ensures f != PersistenceType ==> r.Flag?
    ensures f in {RequiresAuth, RequiresBackend} ==> (r.on <==> mode == Authenticated)
    ensures f in {CanPreview, CanSeeAllFeatures, CanModifyData, CanDeleteData} ==> r == Flag(true)
    ensures f == PersistenceType ==> r == Text(if mode == Demo then "ephemeral" else "persistent")
  {
    ModeFeatures(mode, f)
  }

  /** The two modes differ exactly in persistence and in needing sign-in and a backend. */
  lemma ModesDiffer(f: Feature)
    ensures ModeFeatures(Demo, f) != ModeFeatures(Authenticated, f) <==>
              f in {PersistenceType, RequiresAuth, RequiresBackend}
  {
  }

  /** The keys of the message table. */
  datatype MessageKey = Banner | Subtitle | ActionPrompt

  /** `getModeMessage`: the text the current mode shows for a key. */
  function GetModeMessage(mode: Mode, key: MessageKey): (r: string)
    ensures r != ""
  {
    match mode
    case Demo =>
      (match key
       case Banner => "🎨 Demo Mode - Preview all features"
       case Subtitle => "Changes are not saved. Deploy to save your work."
       case ActionPrompt => "Ready to deploy? Export your app.")
    case Authenticated =>
      (match key
       case Banner => "🚀 Production Mode - Your data is saved"
       case Subtitle => "All changes persist to your database."
       case ActionPrompt => "Sign in to access your data.")
  }

  /** Every message tells the two modes apart. */
  lemma MessagesDistinguishModes(key: MessageKey)
    ensures GetModeMessage(Demo, key) != GetModeMessage(Authenticated, key)
  {
    var demo, auth := GetModeMessage(Demo, key), GetModeMessage(Authenticated, key);
    match key
    case Banner =>
      assert |demo| == 34 && |auth| == 38;
    case Subtitle =>
      assert |demo| == 48 && |auth| == 37;
    case ActionPrompt =>
      assert |demo| == 33 && |auth| == 28;
  }
}

=== FILE: common.dfy ===
/** Option and Result wrappers, and the errors the backend handlers raise. */
module Common {

  /** A value that may be absent: a JavaScript `undefined`/`null` or an optional field. */
  datatype Option<+T> = None | Some(value: T) {

    /** The `??` operator: the value when present, otherwise the default. */
    function GetOr(default: T): T {
      match this
      case Some(v) => v
      case None => default
    }

    /** `??` between two optional values: this one when present, otherwise the other. */
    function Or(other: Option<T>): Option<T> {
      if Some? then this else other
    }
  }

  /** The errors a handler throws. */
  datatype Error =
    /** "User not found" */
    | UserNotFound
    /** "Channel not found" */
    | ChannelNotFound
    /** "Competitor not found" */
    | CompetitorNotFound
    /** "Competitor analysis is a premium feature" */
    | CompetitorAnalysisIsPremium
    /** "Competitor insights is a premium feature" */
    | CompetitorInsightsIsPremium
    /** raised by the backend runtime: `db.patch` or `db.delete` of an id whose document does not exist */
    | MissingDocument
    /** raised by the backend runtime: an argument that does not match the handler's validator */
    | InvalidArgument
    /** raised by the JavaScript engine: a property read on `undefined` */
    | UndefinedProperty

  /** `Math.floor(Math.random() * n)` at the `k`-th call of `Math.random` in one handler run,
      with the random source given as the stream of draws `rng`. */
  function Draw(rng: nat -> nat, k: nat, n: nat): (r: nat)
    requires n > 0
    ensures r < n
  {
    rng(k) % n
  }

  /** The result of a handler: a value, or the error it throws. */
  datatype Result<+T> = Ok(value: T) | Err(error: Error) {
    predicate IsFailure() {
      Err?
    }

    function PropagateFailure<U>(): Result<U>
      requires Err?
    {
      Err(error)
    }

    function Extract(): T
      requires Ok?
    {
      value
    }
  }
}

=== FILE: competitors.dfy ===
/** Competitors: the premium-only add action (with synthesised data), the upsert it calls,
    the premium-gated listing, notes, delete, and the insights action. The upsert looks the
    competitor's channel id up over all users' competitors. */
module Competitors {
  import opened Common
  import opened Seqs
  import opened Strings
  import opened Tables
  import opened Schema
  import opened Users

  /** What `storeCompetitorData` receives about a competitor. */
  datatype CompetitorData = CompetitorData(
    competitorChannelId: string,
    competitorName: string,
    competitorUrl: string,
    subscriberCount: int,
    videoCount: int,
    viewCount: int)

  /** The `by_competitor_id` index equality. */
  function CompetitorIdIs(competitorChannelId: string): Competitor -> bool {
    (c: Competitor) => c.competitorChannelId == competitorChannelId
  }

  function CompetitorOwnerIs(userId: string): Competitor -> bool {
    (c: Competitor) => c.userId == userId
  }

  /** The first competitor row, of any user, with that channel id. */
  function FindCompetitor(db: Db, competitorChannelId: string): Option<Row<Competitor>> {
    First(db.competitors, CompetitorIdIs(competitorChannelId))
  }

  /** The channel id a competitor URL names: its last path segment, or "demo-competitor-id". */
  function CompetitorIdFromUrl(url: string): (r: string)
    ensures r != []
    ensures LastSegment(url) != [] ==> r == LastSegment(url)
    ensures LastSegment(url) == [] ==> r == "demo-competitor-id"
  {
    SegmentOr(url, "demo-competitor-id")
  }

  /** The data `addCompetitor` synthesises; random draws 0, 1 and 2. */
  function SampleCompetitor(url: string, rng: nat -> nat): (r: CompetitorData)
    ensures r.competitorChannelId == CompetitorIdFromUrl(url) && r.competitorUrl == url
    ensures r.competitorName == "Competitor " + r.competitorChannelId
    ensures 0 <= r.subscriberCount < 500000 && 0 <= r.videoCount < 1000 && 0 <= r.viewCount < 50000000
  {
    var id := CompetitorIdFromUrl(url);
    CompetitorData(id, "Competitor " + id, url,
                   Draw(rng, 0, 500000), Draw(rng, 1, 1000), Draw(rng, 2, 50000000))
  }

  /** The fields a re-sync of a competitor changes. */
  function CompetitorResync(c: Competitor, data: CompetitorData, now: int): Competitor {
    c.(subscriberCount := data.subscriberCount, videoCount := data.videoCount,
       viewCount := data.viewCount, lastSyncedAt := now)
  }

  function NewCompetitor(userId: string, data: CompetitorData, now: int): Competitor {
    Competitor(userId, data.competitorChannelId, data.competitorName, data.competitorUrl,
               data.subscriberCount, data.videoCount, data.viewCount, now, "", true)
  }

  /** `b` is the row `a` under the same id, owner and competitor channel id. */
  predicate SameIdentity(a: Row<Competitor>, b: Row<Competitor>) {
    a.id == b.id && a.doc.userId == b.doc.userId && a.doc.competitorChannelId == b.doc.competitorChannelId
  }

  /** Patching a row with a document of the same owner and channel id keeps every row's identity. */
  lemma ResyncKeepsIdentity(t: Table<Competitor>, k: int, doc: Competitor)
    requires Valid(t) && 0 <= k < |t.rows|
    requires doc.userId == t.rows[k].doc.userId && doc.competitorChannelId == t.rows[k].doc.competitorChannelId
    ensures var r := Replace(t, t.rows[k].id, doc);
            && r.Ok? && |r.value.rows| == |t.rows|
            && forall i :: 0 <= i < |t.rows| ==> SameIdentity(t.rows[i], r.value.rows[i])
  {
    ReplaceAt(t, k, doc);
  }

  /** `storeCompetitorData`: upserts on the competitor's channel id over all users' competitors.
      An existing row gets new counts and sync time (and nothing is returned), whoever owns it;
      otherwise a premium row with empty notes, owned by `userId`, is inserted and its id returned. */
  function StoreCompetitorData(db: Db, userId: string, data: CompetitorData, now: int): (r: Outcome<Option<nat>>)
    requires ValidDb(db)
    ensures ValidDb(r.db) && r.db == db.(competitors := r.db.competitors)
    ensures FindCompetitor(db, data.competitorChannelId).Some? ==>
              var row := FindCompetitor(db, data.competitorChannelId).value;
              && r.value.None?
              && |r.db.competitors.rows| == |db.competitors.rows|
              && FindCompetitor(r.db, data.competitorChannelId)
                   == Some(Row(row.id, CompetitorResync(row.doc, data, now)))
              && forall i :: 0 <= i < |db.competitors.rows| && db.competitors.rows[i] != row ==>
                   r.db.competitors.rows[i] == db.competitors.rows[i]
    ensures FindCompetitor(db, data.competitorChannelId).None? ==>
              && r.value.Some?
              && r.db.competitors.rows == db.competitors.rows + [Row(r.value.value, NewCompetitor(userId, data, now))]
              && !HasId(db.competitors, r.value.value)
    // no existing competitor changes owner or channel id
    ensures |db.competitors.rows| <= |r.db.competitors.rows|
    ensures forall i :: 0 <= i < |db.competitors.rows| ==>
              SameIdentity(db.competitors.rows[i], r.db.competitors.rows[i])
  {
    match FindCompetitor(db, data.competitorChannelId)
    case Some(row) =>
      var doc := CompetitorResync(row.doc, data, now);
      ReplaceFirst(db.competitors, CompetitorIdIs(data.competitorChannelId), doc);
      var k :| 0 <= k < |db.competitors.rows| && db.competitors.rows[k] == row;
      ResyncKeepsIdentity(db.competitors, k, doc);
      Outcome(None, db.(competitors := Replace(db.competitors, row.id, doc).value))
    case None =>
      var (id, competitors) := Insert(db.competitors, NewCompetitor(userId, data, now));
      assert forall i :: 0 <= i < |db.competitors.rows| ==> competitors.rows[i] == db.competitors.rows[i];
      Outcome(Some(id), db.(competitors := competitors))
  }

  /** `addCompetitor`: refused for a user who is not premium; otherwise stores the synthesised
      competitor for the user (or refreshes the row that already tracks that channel id). */
  function AddCompetitor(db: Db, userId: string, competitorUrl: string, now: int, rng: nat -> nat)
    : (r: Result<Outcome<Option<nat>>>)
    requires ValidDb(db)
    ensures r.Err? <==> !IsPremium(db, userId)
    ensures r.Err? ==> r.error == CompetitorAnalysisIsPremium
    ensures r.Ok? ==> ValidDb(r.value.db) && r.value.db == db.(competitors := r.value.db.competitors)
    ensures r.Ok? && FindCompetitor(db, CompetitorIdFromUrl(competitorUrl)).None? ==>
              && r.value.value.Some?
              && r.value.db.competitors.rows
                   == db.competitors.rows + [Row(r.value.value.value,
                                                 NewCompetitor(userId, SampleCompetitor(competitorUrl, rng), now))]
    ensures r.Ok? && FindCompetitor(db, CompetitorIdFromUrl(competitorUrl)).Some? ==>
              var row := FindCompetitor(db, CompetitorIdFromUrl(competitorUrl)).value;
              && r.value.value.None? && |r.value.db.competitors.rows| == |db.competitors.rows|
              && FindCompetitor(r.value.db, CompetitorIdFromUrl(competitorUrl))
                   == Some(Row(row.id, CompetitorResync(row.doc, SampleCompetitor(competitorUrl, rng), now)))
              && (forall i :: 0 <= i < |db.competitors.rows| && db.competitors.rows[i] != row ==>
                    r.value.db.competitors.rows[i] == db.competitors.rows[i])
              && forall i :: 0 <= i < |db.competitors.rows| ==>
                   SameIdentity(db.competitors.rows[i], r.value.db.competitors.rows[i])
  {
    if !IsPremium(db, userId) then Err(CompetitorAnalysisIsPremium)
    else Ok(StoreCompetitorData(db, userId, SampleCompetitor(competitorUrl, rng), now))
  }

  /** `getUserCompetitors`: nothing for a user who is not premium; otherwise exactly the user's
      competitors, in creation order. */
  function GetUserCompetitors(db: Db, userId: string): (r: seq<Row<Competitor>>)
    ensures !IsPremium(db, userId) ==> r == []
    ensures forall i :: 0 <= i < |r| ==> r[i] in db.competitors.rows && r[i].doc.userId == userId
    ensures IsPremium(db, userId) ==>
              forall i :: 0 <= i < |db.competitors.rows| && db.competitors.rows[i].doc.userId == userId ==>
                db.competitors.rows[i] in r
    ensures IsSubsequence(r, db.competitors.rows)
  {
    if !IsPremium(db, userId) then []
    else
      FilterIsSubsequence(db.competitors.rows, DocHolds(CompetitorOwnerIs(userId)));
      Select(db.competitors, CompetitorOwnerIs(userId))
  }

  /** When another user already tracks a channel id, adding it does not give the caller a row
      for it: the caller's listing still has no competitor with that id. */
  lemma {:induction false} SharedCompetitorNotListed(db: Db, userId: string, competitorUrl: string, now: int,
                                                     rng: nat -> nat)
    requires ValidDb(db)
    requires IsPremium(db, userId)
    requires FindCompetitor(db, CompetitorIdFromUrl(competitorUrl)).Some?
    requires FindCompetitor(db, CompetitorIdFromUrl(competitorUrl)).value.doc.userId != userId
    requires forall i :: 0 <= i < |db.competitors.rows| && db.competitors.rows[i].doc.userId == userId ==>
               db.competitors.rows[i].doc.competitorChannelId != CompetitorIdFromUrl(competitorUrl)
    ensures AddCompetitor(db, userId, competitorUrl, now, rng).Ok?
    ensures var d := AddCompetitor(db, userId, competitorUrl, now, rng).value.db;
            forall i :: 0 <= i < |GetUserCompetitors(d, userId)| ==>
              GetUserCompetitors(d, userId)[i].doc.competitorChannelId != CompetitorIdFromUrl(competitorUrl)
  {
    var id := CompetitorIdFromUrl(competitorUrl);
    var d := AddCompetitor(db, userId, competitorUrl, now, rng).value.db;
    assert IsPremium(d, userId) by {
      assert d.users == db.users;
    }
    forall i | 0 <= i < |d.competitors.rows| && d.competitors.rows[i].doc.userId == userId
      ensures d.competitors.rows[i].doc.competitorChannelId != id
    {
      assert SameIdentity(db.competitors.rows[i], d.competitors.rows[i]);
    }
    var listed := GetUserCompetitors(d, userId);
    forall i | 0 <= i < |listed|
      ensures listed[i].doc.competitorChannelId != id
    {
      var k :| 0 <= k < |d.competitors.rows| && d.competitors.rows[k] == listed[i];
    }
  }

  /** `updateCompetitorNotes`: replaces the notes of an existing competitor and returns true. */
  function UpdateCompetitorNotes(db: Db, competitorId: nat, notes: string): (r: Result<Outcome<bool>>)
    requires ValidDb(db)
    ensures r.Err? <==> !HasId(db.competitors, competitorId)
    ensures r.Err? ==> r.error == MissingDocument
    ensures r.Ok? ==>
              && r.value.value && ValidDb(r.value.db)
              && r.value.db == db.(competitors := r.value.db.competitors)
              && |r.value.db.competitors.rows| == |db.competitors.rows|
              && Get(r.value.db.competitors, competitorId)
                   == Some(Get(db.competitors, competitorId).value.(notes := notes))
              && forall i :: 0 <= i < |db.competitors.rows| && db.competitors.rows[i].id != competitorId ==>
                   r.value.db.competitors.rows[i] == db.competitors.rows[i]
  {
    match Get(db.competitors, competitorId)
    case None => Err(MissingDocument)
    case Some(c) =>
      var t := Replace(db.competitors, competitorId, c.(notes := notes)).value;
      var k :| 0 <= k < |t.rows| && t.rows[k].id == competitorId;
      GetRow(t, k);
      Ok(Outcome(true, db.(competitors := t)))
  }

  /** `deleteCompetitor`: removes the competitor, keeps every other row and returns true. */
  function DeleteCompetitor(db: Db, competitorId: nat): (r: Result<Outcome<bool>>)
    requires ValidDb(db)
    ensures r.Err? <==> !HasId(db.competitors, competitorId)
    ensures r.Err? ==> r.error == MissingDocument
    ensures r.Ok? ==> && r.value.value && ValidDb(r.value.db)
                      && r.value.db == db.(competitors := r.value.db.competitors)
                      && !HasId(r.value.db.competitors, competitorId)
                      && |r.value.db.competitors.rows| == |db.competitors.rows| - 1
                      && (forall row :: row in db.competitors.rows && row.id != competitorId ==>
                            row in r.value.db.competitors.rows)
                      && (forall row :: row in r.value.db.competitors.rows ==> row in db.competitors.rows)
  {
    var competitors :- Delete(db.competitors, competitorId);
    Ok(Outcome(true, db.(competitors := competitors)))
  }

  /** The insights the action returns. The engagement and growth rates, random numbers
      printed with two decimals, are not modelled. */
  datatype CompetitorInsights = CompetitorInsights(
    topPerformingContentTypes: seq<string>,
    uploadFrequency: string,
    averageViewCount: int,
    recommendedStrategies: seq<string>)

  const TopContentTypes: seq<string> := ["Tutorials", "Reviews", "Interviews"]
  const UploadFrequency: string := "2 videos per week"
  const StrategyTutorials: string := "Focus on tutorial content similar to competitor's top videos"
  const StrategyCadence: string := "Upload more frequently to match competitor's cadence"
  const StrategyComments: string := "Engage more with comments to boost engagement rate"
  const RecommendedStrategies: seq<string> := [StrategyTutorials, StrategyCadence, StrategyComments]

  /** `Math.floor(a / b)` for a non-zero divisor of either sign. */
  function FloorDiv(a: int, b: int): (r: int)
    requires b != 0
    ensures b > 0 ==> r * b <= a < r * b + b
    ensures b < 0 ==> r * b + b < a <= r * b
  {
    if b > 0 then a / b else (-a) / (-b)
  }

  /** `competitor.videoCount || 1`: a count of zero divides as one. */
  function Divisor(videoCount: int): (r: int)
    ensures r != 0
    ensures videoCount != 0 ==> r == videoCount
  {
    if videoCount != 0 then videoCount else 1
  }

  /** `generateCompetitorInsights` as written: an action reads the database through
      `ctx.db`, which an action's context does not have, so for a premium caller the read
      throws before anything is computed. */
  function GenerateCompetitorInsightsAsWritten(db: Db, userId: string, competitorId: nat)
    : (r: Result<CompetitorInsights>)
    ensures !IsPremium(db, userId) ==> r == Err(CompetitorInsightsIsPremium)
    ensures IsPremium(db, userId) ==> r == Err(UndefinedProperty)
  {
    if !IsPremium(db, userId) then Err(CompetitorInsightsIsPremium)
    else Err(UndefinedProperty)
  }

  /** No caller ever receives insights from the action as written, whatever the state. */
  lemma InsightsNeverReturnedAsWritten(db: Db, userId: string, competitorId: nat)
    ensures GenerateCompetitorInsightsAsWritten(db, userId, competitorId).Err?
  {
  }

  /** `generateCompetitorInsights` as intended: refused for a user who is not premium; fails
      when the competitor does not exist; otherwise returns the fixed insights with the
      competitor's views per video, rounded down. */
  function GenerateCompetitorInsights(db: Db, userId: string, competitorId: nat): (r: Result<CompetitorInsights>)
    ensures !IsPremium(db, userId) ==> r == Err(CompetitorInsightsIsPremium)
    ensures IsPremium(db, userId) && !HasId(db.competitors, competitorId) ==> r == Err(CompetitorNotFound)
    ensures r.Ok? <==> IsPremium(db, userId) && HasId(db.competitors, competitorId)
    ensures r.Ok? ==>
              var c := Get(db.competitors, competitorId).value;
              && Row(competitorId, c) in db.competitors.rows
              && r.value.topPerformingContentTypes == TopContentTypes
              && r.value.uploadFrequency == UploadFrequency
              && r.value.recommendedStrategies == RecommendedStrategies
              && (c.videoCount > 0 ==>
                    r.value.averageViewCount * c.videoCount <= c.viewCount
                    < (r.value.averageViewCount + 1) * c.videoCount)
              && (c.videoCount == 0 ==> r.value.averageViewCount == c.viewCount)
  {
    if !IsPremium(db, userId) then Err(CompetitorInsightsIsPremium)
    else
      match Get(db.competitors, competitorId)
      case None => Err(CompetitorNotFound)
      case Some(c) =>
        Ok(CompetitorInsights(TopContentTypes, UploadFrequency,
                              FloorDiv(c.viewCount, Divisor(c.videoCount)),
                              RecommendedStrategies))
  }
}

=== FILE: contentIdeas.dfy ===
/** Content ideas: the generating action, the store, the premium-gated listing, the manual
    create and the delete. */
module ContentIdeas {
  import opened Common
  import opened Seqs
  import opened Strings
  import opened Tables
  import opened Schema
  import opened Users
  import opened YouTube

  /** The six formats a generated idea is drawn from. */
  const IdeaCategories: seq<string> := ["Tutorial", "Review", "Vlog", "Commentary", "Interview", "Reaction"]

  /** The three viewership estimates a generated idea is drawn from. */
  const Viewerships: seq<string> := ["high", "medium", "low"]

  /** Ideas, of any user, whose position in a batch makes them premium: all but the first three. */
  const FreeIdeasPerBatch: nat := 3

  /** How many ideas one call generates: `for (i = 0; i < ideaCount; i++)` with `ideaCount`
      the count asked for by a premium user and `Math.min(count, 3)` otherwise, so a
      fractional count runs up to its ceiling and a count of zero or below runs no iteration. */
  function IdeaCount(isPremium: bool, count: real): (r: nat)
    ensures count <= 0.0 ==> r == 0
    ensures isPremium && count > 0.0 ==> (r - 1) as real < count <= r as real
    ensures !isPremium ==> r <= FreeIdeasPerBatch
    ensures !isPremium && 0.0 < count <= FreeIdeasPerBatch as real ==> (r - 1) as real < count <= r as real
    ensures !isPremium && count >= FreeIdeasPerBatch as real ==> r == FreeIdeasPerBatch
  {
    var n := if isPremium then count else if count < 3.0 then count else 3.0;
    if n <= 0.0 then 0
    else if n.Floor as real == n then n.Floor
    else n.Floor + 1
  }

  /** `getRandomElement(array)` at draw `k`. */
  function Pick(rng: nat -> nat, k: nat, choices: seq<string>): (r: string)
    requires |choices| > 0
    ensures r in choices
  {
    choices[Draw(rng, k, |choices|)]
  }

  /** The video ids of some video rows, in order. */
  function RowVideoIds(rows: seq<Row<Video>>): (r: seq<string>)
    ensures |r| == |rows|
    ensures forall i :: 0 <= i < |rows| ==> r[i] == rows[i].doc.videoId
  {
    if rows == [] then [] else [rows[0].doc.videoId] + RowVideoIds(rows[1..])
  }

  function IdeaTitle(i: nat, category: string): string {
    "Content Idea " + NatToString(i + 1) + ": " + category
  }

  const IdeaDescriptionTail: string :=
    " content idea generated based on your channel analytics. It's designed to engage your audience and grow your channel."

  function IdeaDescription(premium: bool): string {
    "This is a " + (if premium then "premium" else "free") + IdeaDescriptionTail
  }

  function IdeaTags(category: string): seq<string> {
    ["youtube", "content", Lower(category)]
  }

  function IdeaKeywords(category: string): seq<string> {
    ["youtube", "creator", "content", Lower(category)]
  }

  /** Idea `i` of a generated batch; it takes the five random draws 5i .. 5i+4. */
  function GeneratedIdea(userId: string, i: nat, sources: seq<string>, now: int, rng: nat -> nat): (r: ContentIdea)
    ensures r.userId == userId && r.isGenerated && r.createdAt == now
    ensures r.isPremium <==> i >= FreeIdeasPerBatch
    ensures r.inspirationSources == Some(sources)
    ensures r.category.Some? && r.category.value in IdeaCategories
    ensures r.estimatedViewership.Some? && r.estimatedViewership.value in Viewerships
  {
    var premium := i >= FreeIdeasPerBatch;
    var category := Pick(rng, 5 * i + 2, IdeaCategories);
    var viewership := Pick(rng, 5 * i + 4, Viewerships);
    ContentIdea(
      userId,
      IdeaTitle(i, Pick(rng, 5 * i, IdeaCategories)),
      IdeaDescription(premium),
      Some(IdeaTags(Pick(rng, 5 * i + 1, IdeaCategories))),
      now,
      true,
      Some(sources),
      premium,
      Some(category),
      Some(IdeaKeywords(Pick(rng, 5 * i + 3, IdeaCategories))),
      Some(viewership))
  }

  /** The batch the action builds before storing it: the user's ideas, generated, citing the
      sources, the first three free and the rest premium. */
  function GeneratedIdeas(userId: string, n: nat, sources: seq<string>, now: int, rng: nat -> nat): (r: seq<ContentIdea>)
    ensures |r| == n
    ensures forall i :: 0 <= i < n ==> r[i] == GeneratedIdea(userId, i, sources, now, rng)
    ensures forall i :: 0 <= i < n ==>
              && r[i].userId == userId && r[i].isGenerated && r[i].inspirationSources == Some(sources)
              && (r[i].isPremium <==> i >= FreeIdeasPerBatch)
  {
    seq(n, i requires 0 <= i => GeneratedIdea(userId, i, sources, now, rng))
  }

  /** `r` is `t` with `n` generated ideas of `userId` appended under the ids `ids`, in order:
      the first three free, the rest premium. */
  predicate AppendedIdeas(t: Table<ContentIdea>, r: Table<ContentIdea>, ids: seq<nat>, userId: string, n: nat) {
    && |ids| == n
    && |r.rows| == |t.rows| + n && r.rows[..|t.rows|] == t.rows
    && (forall i :: |t.rows| <= i < |r.rows| ==>
          && r.rows[i].id == ids[i - |t.rows|]
          && r.rows[i].doc.userId == userId
          && r.rows[i].doc.isGenerated
          && (r.rows[i].doc.isPremium <==> i - |t.rows| >= FreeIdeasPerBatch))
    && (forall i, j :: 0 <= i < j < n ==> ids[i] < ids[j])
  }

  /** Appending a batch of the user's generated ideas, in order, gives `AppendedIdeas`. */
  lemma BatchAppended(t: Table<ContentIdea>, r: Table<ContentIdea>, ids: seq<nat>, userId: string,
                      batch: seq<ContentIdea>, sources: seq<string>)
    requires |ids| == |batch| && |r.rows| == |t.rows| + |batch| && r.rows[..|t.rows|] == t.rows
    requires forall i :: 0 <= i < |batch| ==> r.rows[|t.rows| + i] == Row(ids[i], batch[i])
    requires forall i, j :: 0 <= i < j < |batch| ==> ids[i] < ids[j]
    requires forall i :: 0 <= i < |batch| ==>
               && batch[i].userId == userId && batch[i].isGenerated && batch[i].inspirationSources == Some(sources)
               && (batch[i].isPremium <==> i >= FreeIdeasPerBatch)
    ensures AppendedIdeas(t, r, ids, userId, |batch|)
    ensures forall i :: |t.rows| <= i < |r.rows| ==> r.rows[i].doc.inspirationSources == Some(sources)
  {
    forall i | |t.rows| <= i < |r.rows|
      ensures r.rows[i] == Row(ids[i - |t.rows|], batch[i - |t.rows|])
    {
      assert r.rows[|t.rows| + (i - |t.rows|)] == Row(ids[i - |t.rows|], batch[i - |t.rows|]);
    }
  }

  /** The storing loop: appends a batch of `n` generated ideas, returning their ids in order.
      The new rows belong to the user, are generated, and are premium from the fourth on. */
  function StoreGenerated(t: Table<ContentIdea>, userId: string, n: nat, sources: seq<string>, now: int,
                          rng: nat -> nat): (r: (seq<nat>, Table<ContentIdea>))
    requires Valid(t)
    ensures Valid(r.1) && AppendedIdeas(t, r.1, r.0, userId, n)
    ensures forall i :: |t.rows| <= i < |r.1.rows| ==> r.1.rows[i].doc.inspirationSources == Some(sources)
    ensures StoresIdeas(t, r.1, userId, n, sources, now, rng)
  {
    var batch := GeneratedIdeas(userId, n, sources, now, rng);
    var ins := InsertAll(t, batch);
    BatchAppended(t, ins.1, ins.0, userId, batch, sources);
    ins
  }

  /** The `n` rows appended to `t` in `r` hold, in order, the generated ideas 0 .. n-1 of the
      user, citing `sources`, stamped `now` and drawn from `rng`. */
  predicate StoresIdeas(t: Table<ContentIdea>, r: Table<ContentIdea>, userId: string, n: nat,
                        sources: seq<string>, now: int, rng: nat -> nat) {
    |r.rows| == |t.rows| + n
    && forall i :: 0 <= i < n ==> r.rows[|t.rows| + i].doc == GeneratedIdea(userId, i, sources, now, rng)
  }

  /** The user's channel with that external id, as `getUserChannels(..).find(..)` picks it. */
  function OwnedChannel(db: Db, userId: string, channelId: string): (r: Option<Row<Channel>>)
    ensures r.None? <==> forall i :: 0 <= i < |db.channels.rows| ==>
              !(db.channels.rows[i].doc.userId == userId && db.channels.rows[i].doc.channelId == channelId)
    ensures r.Some? ==> r.value in db.channels.rows && r.value.doc.userId == userId
                        && r.value.doc.channelId == channelId
  {
    Find(GetUserChannels(db, userId), (row: Row<Channel>) => row.doc.channelId == channelId)
  }

  /** `generateContentIdeas`: fails unless the user owns a channel with that id; otherwise
      appends `IdeaCount` generated ideas for the user, in order, and returns their ids. The
      first three of a batch are free and the rest premium; every idea cites (at most) the
      two newest videos of the channel. */
  function GenerateContentIdeas(db: Db, userId: string, channelId: string, count: real, now: int,
                                rng: nat -> nat): (r: Result<Outcome<seq<nat>>>)
    requires ValidDb(db)
    ensures r.Err? <==> OwnedChannel(db, userId, channelId).None?
    ensures r.Err? ==> r.error == ChannelNotFound
    ensures r.Ok? ==>
              && ValidDb(r.value.db) && r.value.db == db.(ideas := r.value.db.ideas)
              && AppendedIdeas(db.ideas, r.value.db.ideas, r.value.value, userId,
                               IdeaCount(IsPremium(db, userId), count))
              && (forall i :: |db.ideas.rows| <= i < |r.value.db.ideas.rows| ==>
                    r.value.db.ideas.rows[i].doc.inspirationSources == Some(InspirationSources(db, channelId)))
              && StoresIdeas(db.ideas, r.value.db.ideas, userId, IdeaCount(IsPremium(db, userId), count),
                             InspirationSources(db, channelId), now, rng)
  {
    match OwnedChannel(db, userId, channelId)
    case None => Err(ChannelNotFound)
    case Some(_) =>
      var n := IdeaCount(IsPremium(db, userId), count);
      var sources := InspirationSources(db, channelId);
      var ins := StoreGenerated(db.ideas, userId, n, sources, now, rng);
      Ok(Outcome(ins.0, db.(ideas := ins.1)))
  }

  /** Some stored video of that channel has that id. */
  ghost predicate IsChannelVideo(db: Db, channelId: string, videoId: string) {
    exists k :: 0 <= k < |db.videos.rows| && db.videos.rows[k].doc.channelId == channelId
                && db.videos.rows[k].doc.videoId == videoId
  }

  /** `videos.slice(0, 2).map(v => v.videoId)` over the channel's newest-first listing: the
      ids of its (at most) two newest videos, newest first. */
  function InspirationSources(db: Db, channelId: string): (r: seq<string>)
    ensures var videos := GetChannelVideos(db, channelId);
            && |r| == (if |videos| < 2 then |videos| else 2)
            && forall j :: 0 <= j < |r| ==> r[j] == videos[j].doc.videoId
    ensures forall j :: 0 <= j < |r| ==>
              IsChannelVideo(db, channelId, r[j])
  {
    var videos := GetChannelVideos(db, channelId);
    var r := Take(RowVideoIds(videos), 2);
    forall j | 0 <= j < |r|
      ensures IsChannelVideo(db, channelId, r[j])
    {
      assert r[j] == videos[j].doc.videoId;
      var k :| 0 <= k < |db.videos.rows| && db.videos.rows[k] == videos[j];
    }
    r
  }

  /** Every generated idea cites the ids of the channel's two newest videos (fewer when the
      channel has fewer), each a stored video of that channel. */
  lemma GeneratedSourcesAreChannelVideos(db: Db, userId: string, channelId: string, count: real, now: int,
                                         rng: nat -> nat)
    requires ValidDb(db)
    requires OwnedChannel(db, userId, channelId).Some?
    ensures var o := GenerateContentIdeas(db, userId, channelId, count, now, rng);
            var videos := GetChannelVideos(db, channelId);
            && o.Ok?
            && forall i :: |db.ideas.rows| <= i < |o.value.db.ideas.rows| ==>
                 var src := o.value.db.ideas.rows[i].doc.inspirationSources;
                 && src.Some? && |src.value| == (if |videos| < 2 then |videos| else 2)
                 && (forall j :: 0 <= j < |src.value| ==> src.value[j] == videos[j].doc.videoId)
                 && forall j :: 0 <= j < |src.value| ==> IsChannelVideo(db, channelId, src.value[j])
  {
    var o := GenerateContentIdeas(db, userId, channelId, count, now, rng).value;
    var src := InspirationSources(db, channelId);
    forall i | |db.ideas.rows| <= i < |o.db.ideas.rows|
      ensures o.db.ideas.rows[i].doc.inspirationSources == Some(src)
    {
    }
  }

  /** `storeContentIdea`: inserts the idea as given and returns its id. */
  function StoreContentIdea(db: Db, idea: ContentIdea): (r: Outcome<nat>)
    requires ValidDb(db)
    ensures ValidDb(r.db) && r.db == db.(ideas := r.db.ideas)
    ensures r.db.ideas.rows == db.ideas.rows + [Row(r.value, idea)]
    ensures !HasId(db.ideas, r.value) && Get(r.db.ideas, r.value) == Some(idea)
  {
    var (id, ideas) := Insert(db.ideas, idea);
    GetRow(ideas, |db.ideas.rows|);
    Outcome(id, db.(ideas := ideas))
  }

  /** The ideas of `userId` a listing shows: premium ones only when `withPremium`. */
  function IdeaVisible(userId: string, withPremium: bool): ContentIdea -> bool {
    (c: ContentIdea) => c.userId == userId && (withPremium || !c.isPremium)
  }

  /** `getUserContentIdeas`: the user's ideas in creation order; premium ideas only for a
      premium user who asks for them. */
  function GetUserContentIdeas(db: Db, userId: string, includePremium: bool): (r: seq<Row<ContentIdea>>)
    ensures forall i :: 0 <= i < |r| ==> r[i] in db.ideas.rows && r[i].doc.userId == userId
    ensures !(IsPremium(db, userId) && includePremium) ==> forall i :: 0 <= i < |r| ==> !r[i].doc.isPremium
    ensures forall i :: 0 <= i < |db.ideas.rows| ==>
              (db.ideas.rows[i].doc.userId == userId
               && (!db.ideas.rows[i].doc.isPremium || (IsPremium(db, userId) && includePremium)) ==>
               db.ideas.rows[i] in r)
  {
    Select(db.ideas, IdeaVisible(userId, IsPremium(db, userId) && includePremium))
  }

  /** A listing keeps the ideas in creation order. */
  lemma UserIdeasInOrder(db: Db, userId: string, includePremium: bool)
    ensures IsSubsequence(GetUserContentIdeas(db, userId, includePremium), db.ideas.rows)
  {
    FilterIsSubsequence(db.ideas.rows, DocHolds(IdeaVisible(userId, IsPremium(db, userId) && includePremium)));
  }

  /** A scan after a batch was appended sees the earlier matches, then the whole batch when
      every new row matches. */
  lemma {:induction false} SelectAfterAppend(t: Table<ContentIdea>, r: Table<ContentIdea>, ids: seq<nat>,
                                             userId: string, n: nat, p: ContentIdea -> bool)
    requires AppendedIdeas(t, r, ids, userId, n)
    requires forall i :: |t.rows| <= i < |r.rows| ==> p(r.rows[i].doc)
    ensures Select(r, p) == Select(t, p) + r.rows[|t.rows|..]
  {
    var added := r.rows[|t.rows|..];
    assert r.rows == t.rows + added;
    FilterAppend(t.rows, added, DocHolds(p));
    forall i | 0 <= i < |added|
      ensures DocHolds(p)(added[i])
    {
      assert added[i] == r.rows[|t.rows| + i];
    }
    FilterKeepsAll(added, DocHolds(p));
  }

  /** A listing after a batch was appended, with the users unchanged, shows what it showed
      before followed by the batch, when it shows premium ideas or the batch holds none. */
  lemma ListAfterBatch(db: Db, d: Db, ids: seq<nat>, userId: string, n: nat, includePremium: bool)
    requires d.users == db.users
    requires AppendedIdeas(db.ideas, d.ideas, ids, userId, n)
    requires !(IsPremium(db, userId) && includePremium) ==> n <= FreeIdeasPerBatch
    ensures GetUserContentIdeas(d, userId, includePremium)
              == GetUserContentIdeas(db, userId, includePremium) + d.ideas.rows[|db.ideas.rows|..]
  {
    var p := IdeaVisible(userId, IsPremium(db, userId) && includePremium);
    forall i | |db.ideas.rows| <= i < |d.ideas.rows|
      ensures p(d.ideas.rows[i].doc)
    {
    }
    SelectAfterAppend(db.ideas, d.ideas, ids, userId, n, p);
  }

  /** After generating, a listing that would show the whole batch shows what it showed before
      followed by the new ideas, in order: always for a free user (whose batch holds no premium
      idea), and for a premium user who asks for premium ideas. */
  lemma GenerateThenList(db: Db, userId: string, channelId: string, count: real, now: int,
                         rng: nat -> nat, includePremium: bool)
    requires ValidDb(db)
    requires GenerateContentIdeas(db, userId, channelId, count, now, rng).Ok?
    requires !IsPremium(db, userId) || includePremium
    ensures var d := GenerateContentIdeas(db, userId, channelId, count, now, rng).value.db;
            GetUserContentIdeas(d, userId, includePremium)
              == GetUserContentIdeas(db, userId, includePremium) + d.ideas.rows[|db.ideas.rows|..]
  {
    var o := GenerateContentIdeas(db, userId, channelId, count, now, rng).value;
    ListAfterBatch(db, o.db, o.value, userId, IdeaCount(IsPremium(db, userId), count), includePremium);
  }

  /** `createManualContentIdea`: inserts a free, not generated idea; absent tags become an empty list. */
  function CreateManualContentIdea(db: Db, userId: string, title: string, description: string,
                                   tags: Option<seq<string>>, category: Option<string>, now: int): (r: Outcome<nat>)
    requires ValidDb(db)
    ensures ValidDb(r.db) && r.db == db.(ideas := r.db.ideas)
    ensures |r.db.ideas.rows| == |db.ideas.rows| + 1 && r.db.ideas.rows[..|db.ideas.rows|] == db.ideas.rows
    ensures r.db.ideas.rows[|db.ideas.rows|].id == r.value
    ensures var c := Get(r.db.ideas, r.value);
            && c.Some? && c.value.userId == userId && c.value.title == title
            && c.value.description == description && c.value.createdAt == now
            && c.value.potentialKeywords.None? && c.value.estimatedViewership.None?
            && !c.value.isPremium && !c.value.isGenerated && c.value.tags.Some?
            && (tags.Some? ==> c.value.tags == tags)
            && (tags.None? ==> c.value.tags == Some([]))
            && c.value.category == category && c.value.inspirationSources.None?
  {
    StoreContentIdea(db, ContentIdea(userId, title, description, Some(tags.GetOr([])), now, false,
                                     None, false, category, None, None))
  }

  /** A manual idea shows in its author's free listing. */
  lemma ManualIdeaIsListed(db: Db, userId: string, title: string, description: string,
                           tags: Option<seq<string>>, category: Option<string>, now: int, includePremium: bool)
    requires ValidDb(db)
    ensures var o := CreateManualContentIdea(db, userId, title, description, tags, category, now);
            Row(o.value, Get(o.db.ideas, o.value).value) in GetUserContentIdeas(o.db, userId, includePremium)
  {
    var o := CreateManualContentIdea(db, userId, title, description, tags, category, now);
    assert o.db.ideas.rows[|db.ideas.rows|] == Row(o.value, Get(o.db.ideas, o.value).value);
  }

  /** `deleteContentIdea`: removes the idea and returns true; deleting an id with no document fails. */
  function DeleteContentIdea(db: Db, ideaId: nat): (r: Result<Outcome<bool>>)
    requires ValidDb(db)
    ensures r.Err? <==> !HasId(db.ideas, ideaId)
    ensures r.Err? ==> r.error == MissingDocument
    ensures r.Ok? ==> && r.value.value && ValidDb(r.value.db) && r.value.db == db.(ideas := r.value.db.ideas)
                      && !HasId(r.value.db.ideas, ideaId)
                      && |r.value.db.ideas.rows| == |db.ideas.rows| - 1
                      && (forall row :: row in db.ideas.rows && row.id != ideaId ==> row in r.value.db.ideas.rows)
                      && (forall row :: row in r.value.db.ideas.rows ==> row in db.ideas.rows)
  {
    var ideas :- Delete(db.ideas, ideaId);
    Ok(Outcome(true, db.(ideas := ideas)))
  }
}

=== FILE: contentIdeasPage.dfy ===
/** The content ideas page's logic: which ideas the list shows, the category choices, and
    when the Generate button calls the backend. */
module ContentIdeasPage {
  import opened Common
  import opened Seqs
  import opened Tables
  import opened Schema
  import Users
  import YouTube
  import ContentIdeas

  /** The page's filter controls: the selected category (none for "All Categories") and the
      premium-only toggle. */
  datatype IdeaFilter = IdeaFilter(selectedCategory: Option<string>, showPremiumOnly: bool)

  /** The category condition: a selected, non-empty category must equal the idea's. */
  predicate CategoryMatches(f: IdeaFilter, idea: ContentIdea) {
    !(f.selectedCategory.Some? && f.selectedCategory.value != "" && idea.category != f.selectedCategory)
  }

  /** The page's filter callback: the category must match, premium-only hides free ideas, and
      premium ideas are hidden from a user who is not premium. */
  predicate Shown(f: IdeaFilter, userData: Option<User>, idea: ContentIdea) {
    && CategoryMatches(f, idea)
    && !(f.showPremiumOnly && !idea.isPremium)
    && !(idea.isPremium && !Users.PremiumUser(userData))
  }

  function ShownRow(f: IdeaFilter, userData: Option<User>): Row<ContentIdea> -> bool {
    (row: Row<ContentIdea>) => Shown(f, userData, row.doc)
  }

  /** `filteredIdeas`: the fetched ideas the controls let through, in their order. */
  function FilteredIdeas(ideas: seq<Row<ContentIdea>>, f: IdeaFilter, userData: Option<User>)
    : (r: seq<Row<ContentIdea>>)
    ensures forall i :: 0 <= i < |r| ==> r[i] in ideas
    ensures forall i :: 0 <= i < |ideas| ==> (ideas[i] in r <==> Shown(f, userData, ideas[i].doc))
    ensures forall i :: 0 <= i < |r| ==>
              && (f.selectedCategory.Some? && f.selectedCategory.value != "" ==> r[i].doc.category == f.selectedCategory)
              && (f.showPremiumOnly ==> r[i].doc.isPremium)
              && (!Users.PremiumUser(userData) ==> !r[i].doc.isPremium)
  {
    Filter(ideas, ShownRow(f, userData))
  }

  /** The filter keeps the list's order. */
  lemma FilteredIdeasInOrder(ideas: seq<Row<ContentIdea>>, f: IdeaFilter, userData: Option<User>)
    ensures IsSubsequence(FilteredIdeas(ideas, f, userData), ideas)
  {
    FilterIsSubsequence(ideas, ShownRow(f, userData));
  }

  /** With every control off, a premium user sees the whole list. */
  lemma NoFilterShowsAll(ideas: seq<Row<ContentIdea>>, category: Option<string>, userData: Option<User>)
    requires category.None? || category == Some("")
    requires Users.PremiumUser(userData)
    ensures FilteredIdeas(ideas, IdeaFilter(category, false), userData) == ideas
  {
    FilterKeepsAll(ideas, ShownRow(IdeaFilter(category, false), userData));
  }

  /** Some idea has category `c`. */
  ghost predicate UsesCategory(ideas: seq<Row<ContentIdea>>, c: string) {
    exists j :: 0 <= j < |ideas| && ideas[j].doc.category == Some(c)
  }

  /** The position of the first idea with category `c`; the list's length when there is none. */
  function FirstUse(ideas: seq<Row<ContentIdea>>, c: string): (r: nat)
    ensures r <= |ideas|
    ensures r < |ideas| <==> UsesCategory(ideas, c)
    ensures r < |ideas| ==> ideas[r].doc.category == Some(c)
    ensures forall j :: 0 <= j < r ==> ideas[j].doc.category != Some(c)
  {
    if ideas == [] then 0
    else if ideas[0].doc.category == Some(c) then 0
    else
      assert forall k :: 1 <= k < |ideas| ==> ideas[k] == ideas[1..][k - 1];
      1 + FirstUse(ideas[1..], c)
  }

  /** `categories`: the ideas' set, non-empty categories, each once, in order of first use,
      which is the insertion order of the `Set` and so the order of the dropdown. */
  function Categories(ideas: seq<Row<ContentIdea>>): (r: seq<string>)
    ensures NoDuplicates(r)
    ensures forall i :: 0 <= i < |r| ==> r[i] != "" && UsesCategory(ideas, r[i])
    ensures forall j :: 0 <= j < |ideas| && ideas[j].doc.category.Some? && ideas[j].doc.category.value != "" ==>
              ideas[j].doc.category.value in r
    ensures forall i, j :: 0 <= i < j < |r| ==> FirstUse(ideas, r[i]) < FirstUse(ideas, r[j])
  {
    var r := Distinct(SetCategories(ideas));
    DistinctCategories(ideas, r);
    r
  }

  /** Each distinct named category is used by some idea, and they come in order of first use. */
  lemma DistinctCategories(ideas: seq<Row<ContentIdea>>, r: seq<string>)
    requires r == Distinct(SetCategories(ideas))
    ensures forall i :: 0 <= i < |r| ==> r[i] != "" && UsesCategory(ideas, r[i])
    ensures forall i, j :: 0 <= i < j < |r| ==> FirstUse(ideas, r[i]) < FirstUse(ideas, r[j])
  {
    var named := SetCategories(ideas);
    forall i | 0 <= i < |r|
      ensures r[i] != "" && UsesCategory(ideas, r[i])
    {
      NamedIsUsed(ideas, r[i]);
    }
    DistinctFirstOrder(named);
    forall i, j | 0 <= i < j < |r|
      ensures FirstUse(ideas, r[i]) < FirstUse(ideas, r[j])
    {
      FirstUseOrder(ideas, r[i], r[j]);
    }
  }

  /** Categories first met earlier in the named list were first used by an earlier idea. */
  lemma {:induction false} FirstUseOrder(ideas: seq<Row<ContentIdea>>, c: string, d: string)
    requires c in SetCategories(ideas) && d in SetCategories(ideas)
    requires FirstIndex(SetCategories(ideas), c) < FirstIndex(SetCategories(ideas), d)
    ensures UsesCategory(ideas, c) && UsesCategory(ideas, d)
    ensures FirstUse(ideas, c) < FirstUse(ideas, d)
  {
    NamedIsUsed(ideas, c);
    NamedIsUsed(ideas, d);
    if ideas[0].doc.category != Some(c) {
      TailOrder(ideas, c, d);
      FirstUseStep(ideas, c);
      FirstUseStep(ideas, d);
      FirstUseOrder(ideas[1..], c, d);
    }
  }

  /** When the first idea uses neither category, their order in the named list is their order
      in the named list of the other ideas. */
  lemma TailOrder(ideas: seq<Row<ContentIdea>>, c: string, d: string)
    requires ideas != [] && ideas[0].doc.category != Some(c)
    requires c in SetCategories(ideas) && d in SetCategories(ideas)
    requires FirstIndex(SetCategories(ideas), c) < FirstIndex(SetCategories(ideas), d)
    ensures ideas[0].doc.category != Some(d)
    ensures c in SetCategories(ideas[1..]) && d in SetCategories(ideas[1..])
    ensures FirstIndex(SetCategories(ideas[1..]), c) < FirstIndex(SetCategories(ideas[1..]), d)
  {
    var cat := ideas[0].doc.category;
    if cat.Some? && cat.value != "" {
      NamedHeadOrder(ideas, c, d);
    } else {
      UnnamedHeadOrder(ideas, c, d);
    }
  }

  lemma NamedHeadOrder(ideas: seq<Row<ContentIdea>>, c: string, d: string)
    requires ideas != [] && ideas[0].doc.category.Some? && ideas[0].doc.category.value != ""
    requires ideas[0].doc.category != Some(c)
    requires c in SetCategories(ideas) && d in SetCategories(ideas)
    requires FirstIndex(SetCategories(ideas), c) < FirstIndex(SetCategories(ideas), d)
    ensures ideas[0].doc.category != Some(d)
    ensures c in SetCategories(ideas[1..]) && d in SetCategories(ideas[1..])
    ensures FirstIndex(SetCategories(ideas[1..]), c) < FirstIndex(SetCategories(ideas[1..]), d)
  {
    SetCategoriesStep(ideas);
    ConsOrder(ideas[0].doc.category.value, SetCategories(ideas[1..]), c, d);
  }

  lemma UnnamedHeadOrder(ideas: seq<Row<ContentIdea>>, c: string, d: string)
    requires ideas != [] && (ideas[0].doc.category.None? || ideas[0].doc.category.value == "")
    requires c in SetCategories(ideas) && d in SetCategories(ideas)
    requires FirstIndex(SetCategories(ideas), c) < FirstIndex(SetCategories(ideas), d)
    ensures ideas[0].doc.category != Some(d)
    ensures c in SetCategories(ideas[1..]) && d in SetCategories(ideas[1..])
    ensures FirstIndex(SetCategories(ideas[1..]), c) < FirstIndex(SetCategories(ideas[1..]), d)
  {
    NamedIsUsed(ideas, d);
    UnnamedStep(ideas);
  }

  lemma UnnamedStep(ideas: seq<Row<ContentIdea>>)
    requires ideas != [] && (ideas[0].doc.category.None? || ideas[0].doc.category.value == "")
    ensures SetCategories(ideas) == SetCategories(ideas[1..])
  {
    SetCategoriesStep(ideas);
  }

  /** Dropping a head that is neither of two listed values keeps their first-occurrence order. */
  lemma ConsOrder(e: string, rest: seq<string>, c: string, d: string)
    requires c != e && c in [e] + rest && d in [e] + rest
    requires FirstIndex([e] + rest, c) < FirstIndex([e] + rest, d)
    ensures d != e && c in rest && d in rest
    ensures FirstIndex(rest, c) < FirstIndex(rest, d)
  {
    assert ([e] + rest)[0] == e;
    FirstIndexCons(e, rest, c);
    FirstIndexCons(e, rest, d);
  }

  /** A named category is a non-empty category some idea uses. */
  lemma NamedIsUsed(ideas: seq<Row<ContentIdea>>, c: string)
    requires c in SetCategories(ideas)
    ensures c != "" && UsesCategory(ideas, c)
  {
    var named := SetCategories(ideas);
    var i :| 0 <= i < |named| && named[i] == c;
  }

  /** The named list of `ideas` is the first idea's non-empty category, if any, before the
      named list of the rest. */
  lemma SetCategoriesStep(ideas: seq<Row<ContentIdea>>)
    requires ideas != []
    ensures var c := ideas[0].doc.category;
            SetCategories(ideas) ==
              (if c.Some? && c.value != "" then [c.value] else []) + SetCategories(ideas[1..])
  {
  }

  lemma FirstIndexCons(e: string, rest: seq<string>, x: string)
    requires x in [e] + rest && x != e
    ensures x in rest && FirstIndex([e] + rest, x) == 1 + FirstIndex(rest, x)
  {
    assert ([e] + rest)[1..] == rest;
  }

  lemma FirstUseStep(ideas: seq<Row<ContentIdea>>, c: string)
    requires ideas != [] && ideas[0].doc.category != Some(c)
    ensures FirstUse(ideas, c) == 1 + FirstUse(ideas[1..], c)
  {
  }

  /** `ideas.map(idea => idea.category).filter(Boolean)`: the categories that are set and not
      empty, in list order. */
  function SetCategories(ideas: seq<Row<ContentIdea>>): (r: seq<string>)
    ensures forall i :: 0 <= i < |r| ==> r[i] != "" && exists j :: 0 <= j < |ideas| && ideas[j].doc.category == Some(r[i])
    ensures forall j :: 0 <= j < |ideas| && ideas[j].doc.category.Some? && ideas[j].doc.category.value != "" ==>
              ideas[j].doc.category.value in r
  {
    if ideas == [] then []
    else
      var rest := SetCategories(ideas[1..]);
      assert forall i :: 0 <= i < |rest| ==> exists j :: 0 <= j < |ideas| && ideas[j].doc.category == Some(rest[i]) by {
        forall i | 0 <= i < |rest|
          ensures exists j :: 0 <= j < |ideas| && ideas[j].doc.category == Some(rest[i])
        {
          var j :| 0 <= j < |ideas[1..]| && ideas[1..][j].doc.category == Some(rest[i]);
          assert ideas[j + 1] == ideas[1..][j];
        }
      }
      assert forall j :: 1 <= j < |ideas| ==> ideas[j] == ideas[1..][j - 1];
      match ideas[0].doc.category
      case Some(c) => if c != "" then [c] + rest else rest
      case None => rest
  }

  /** What the Generate button asks the backend for. */
  datatype GenerateCall = GenerateCall(userId: string, channelId: string, count: real)

  /** `handleGenerateIdeas`: nothing unless signed in with a user and at least one channel;
      then ten ideas for the first listed channel. */
  function HandleGenerateIdeas(isSignedIn: bool, user: Option<string>, channels: seq<Row<Channel>>)
    : (r: Option<GenerateCall>)
    ensures r.None? <==> !isSignedIn || user.None? || channels == []
    ensures r.Some? ==> r.value.userId == user.value && r.value.count == 10.0
                        && channels != [] && r.value.channelId == channels[0].doc.channelId
  {
    if !isSignedIn || user.None? || |channels| == 0 then None
    else Some(GenerateCall(user.value, channels[0].doc.channelId, 10.0))
  }

  /** When the page lists the user's own channels, a call the button makes never meets the
      backend's "Channel not found". */
  lemma GenerateFindsChannel(db: Db, userId: string, now: int, rng: nat -> nat)
    requires ValidDb(db)
    requires HandleGenerateIdeas(true, Some(userId), YouTube.GetUserChannels(db, userId)).Some?
    ensures var call := HandleGenerateIdeas(true, Some(userId), YouTube.GetUserChannels(db, userId)).value;
            ContentIdeas.GenerateContentIdeas(db, call.userId, call.channelId, call.count, now, rng).Ok?
  {
    var channels := YouTube.GetUserChannels(db, userId);
    var first := channels[0];
    assert first in db.channels.rows && first.doc.userId == userId;
    var k :| 0 <= k < |db.channels.rows| && db.channels.rows[k] == first;
    assert db.channels.rows[k].doc.userId == userId && db.channels.rows[k].doc.channelId == first.doc.channelId;
  }
}

=== FILE: dashboard.dfy ===
/** The business dashboard: the rule-based insight generator, the insight listing and the
    three overview queries over a user's projects, customers and marketing campaigns. */
module Dashboard {
  import opened Common
  import opened Seqs
  import opened Strings
  import opened Tables
  import opened Schema

  /** The window, in milliseconds, within which a customer counts as recent: thirty days. */
  const RecentWindow: int := 30 * 24 * 60 * 60 * 1000

  /** How many insights the listing returns at most. */
  const InsightsShown: nat := 10

  function InsightOwnerIs(userId: string): Insight -> bool {
    (i: Insight) => i.userId == userId
  }

  function ProjectOwnerIs(userId: string): Project -> bool {
    (p: Project) => p.userId == userId
  }

  function CustomerOwnerIs(userId: string): Customer -> bool {
    (c: Customer) => c.userId == userId
  }

  function CampaignOwnerIs(userId: string): Campaign -> bool {
    (c: Campaign) => c.userId == userId
  }

  function CustomerStatusIs(status: string): Customer -> bool {
    (c: Customer) => c.status == status
  }

  /** `Math.round`: the nearest integer, halves rounded up. */
  function Round(x: real): (r: int)
    ensures r as real - 0.5 <= x < r as real + 0.5
  {
    (x + 0.5).Floor
  }

  /** `p.progress || 0`. */
  function ProgressOf(p: Project): real {
    p.progress.GetOr(0.0)
  }

  /** A project whose progress is set and above 0.8. */
  predicate NearlyDone(p: Project) {
    p.progress.Some? && p.progress.value > 0.8
  }

  /** A project whose progress is set and at least 1. */
  predicate Completed(p: Project) {
    p.progress.Some? && p.progress.value >= 1.0
  }

  /** The mean progress of some projects, missing progress counted as 0; 0 for no projects. */
  function AverageProgress(projects: seq<Project>): real {
    if |projects| == 0 then 0.0 else SumReal(projects, ProgressOf) / (|projects| as real)
  }

  /** Progresses all within [0, 1] average within [0, 1]. */
  lemma AverageProgressBounds(projects: seq<Project>)
    requires forall i :: 0 <= i < |projects| ==> 0.0 <= ProgressOf(projects[i]) <= 1.0
    ensures 0.0 <= AverageProgress(projects) <= 1.0
  {
    if |projects| > 0 {
      var n := |projects| as real;
      var sum := SumReal(projects, ProgressOf);
      SumRealBounds(projects, ProgressOf, 0.0, 1.0);
      QuotientBounds(sum, n);
    }
  }

  /** A share of a positive whole that is at most the whole lies within [0, 1]. */
  lemma QuotientBounds(part: real, whole: real)
    requires 0.0 < whole && 0.0 <= part <= whole
    ensures 0.0 <= part / whole <= 1.0
  {
    var q := part / whole;
    assert q * whole == part;
    assert (1.0 - q) * whole == whole - part;
  }

  /** The user's documents of each collection, in creation order. */
  function UserProjects(db: Db, userId: string): seq<Project> {
    Docs(Select(db.projects, ProjectOwnerIs(userId)))
  }

  function UserCustomers(db: Db, userId: string): seq<Customer> {
    Docs(Select(db.customers, CustomerOwnerIs(userId)))
  }

  function UserCampaigns(db: Db, userId: string): seq<Campaign> {
    Docs(Select(db.campaigns, CampaignOwnerIs(userId)))
  }

  /** The figures the insight rules look at. */
  datatype Stats = Stats(
    projects: nat,
    avgProgress: real,
    nearlyDone: nat,
    customers: nat,
    leads: nat,
    opportunities: nat,
    paying: nat,
    recent: nat,
    campaigns: nat)

  function StatsOf(projects: seq<Project>, customers: seq<Customer>, campaigns: seq<Campaign>, now: int): Stats {
    Stats(
      |projects|,
      AverageProgress(projects),
      Count(projects, NearlyDone),
      |customers|,
      Count(customers, CustomerStatusIs("lead")),
      Count(customers, CustomerStatusIs("opportunity")),
      Count(customers, CustomerStatusIs("customer")),
      Count(customers, (c: Customer) => c.createdAt > now - RecentWindow),
      |campaigns|)
  }

  /** What the generator reads for `userId` at time `now`. */
  function UserStats(db: Db, userId: string, now: int): Stats {
    StatsOf(UserProjects(db, userId), UserCustomers(db, userId), UserCampaigns(db, userId), now)
  }

  /** The insights the generator can produce, in the order it considers them. */
  datatype Kind =
    | StrongProgress | ProgressNeedsAttention
    | LeadConversion | LeadGeneration
    | CampaignSuggestion | CompletionFocus
    | BalancedGrowth | CustomerGrowth
    | GettingStarted

  /** The position of a rule in the generator. */
  function Rank(k: Kind): nat {
    match k
    case StrongProgress => 0
    case ProgressNeedsAttention => 1
    case LeadConversion => 2
    case LeadGeneration => 3
    case CampaignSuggestion => 4
    case CompletionFocus => 5
    case BalancedGrowth => 6
    case CustomerGrowth => 7
    case GettingStarted => 8
  }

  /** More than 30% of the customers are recent. */
  predicate RecentShareAbove(s: Stats) {
    (s.recent as real) > (s.customers as real) * 0.3
  }

  /** The condition under which each insight is produced, rule by rule. */
  predicate Fires(k: Kind, s: Stats) {
    match k
    case StrongProgress => s.projects > 0 && s.avgProgress > 0.7
    case ProgressNeedsAttention => s.projects > 0 && s.avgProgress < 0.3
    case LeadConversion => s.customers > 0 && s.leads > s.opportunities * 2
    case LeadGeneration => s.customers > 0 && s.paying > 0 && s.leads == 0
    case CampaignSuggestion => s.campaigns == 0 && s.customers > 5
    case CompletionFocus => s.projects > 3 && s.nearlyDone == 0
    case BalancedGrowth => s.projects > 0 && s.campaigns > 0
    case CustomerGrowth => s.customers > 10 && RecentShareAbove(s)
    case GettingStarted => s.projects == 0 && s.customers == 0 && s.campaigns == 0
  }

  /** Kinds in strictly increasing rule order. */
  predicate Ordered(r: seq<Kind>) {
    forall i, j :: 0 <= i < j < |r| ==> Rank(r[i]) < Rank(r[j])
  }

  /** Kinds whose rules sit at positions `lo` to `hi - 1`. */
  predicate RanksIn(r: seq<Kind>, lo: nat, hi: nat) {
    forall i :: 0 <= i < |r| ==> lo <= Rank(r[i]) < hi
  }

  lemma OrderedConcat(a: seq<Kind>, b: seq<Kind>, lo: nat, mid: nat, hi: nat)
    requires lo <= mid <= hi
    requires Ordered(a) && RanksIn(a, lo, mid) && Ordered(b) && RanksIn(b, mid, hi)
    ensures Ordered(a + b) && RanksIn(a + b, lo, hi)
  {
    var ab := a + b;
    forall i | 0 <= i < |ab|
      ensures lo <= Rank(ab[i]) < hi
    {
      if i < |a| {
        assert ab[i] == a[i];
      } else {
        assert ab[i] == b[i - |a|];
      }
    }
    forall i, j | 0 <= i < j < |ab|
      ensures Rank(ab[i]) < Rank(ab[j])
    {
      if j < |a| {
        assert ab[i] == a[i] && ab[j] == a[j];
      } else if i < |a| {
        assert ab[i] == a[i] && ab[j] == b[j - |a|];
      } else {
        assert ab[i] == b[i - |a|] && ab[j] == b[j - |a|];
      }
    }
  }

  /** The insights among rules `lo` to `hi - 1` that fire, in rule order. */
  predicate Decides(r: seq<Kind>, s: Stats, lo: nat, hi: nat) {
    && Ordered(r) && RanksIn(r, lo, hi)
    && forall k :: k in r <==> lo <= Rank(k) < hi && Fires(k, s)
  }

  function When(c: bool, k: Kind): seq<Kind> {
    if c then [k] else []
  }

  /** Kinds are told apart by their rule's position. */
  lemma RankDetermines(k: Kind, j: Kind)
    ensures Rank(k) == Rank(j) ==> k == j
  {
  }

  /** Two adjacent rules, each pushing its insight when it fires, decide both. */
  lemma DecidesPair(s: Stats, a: Kind, b: Kind)
    requires Rank(b) == Rank(a) + 1
    ensures Decides(When(Fires(a, s), a) + When(Fires(b, s), b), s, Rank(a), Rank(a) + 2)
  {
    var r := When(Fires(a, s), a) + When(Fires(b, s), b);
    forall k
      ensures k in r <==> Rank(a) <= Rank(k) < Rank(a) + 2 && Fires(k, s)
    {
      RankDetermines(k, a);
      RankDetermines(k, b);
    }
  }

  /** The performance insights: one of the two progress insights when the user has projects. */
  function PerformanceKinds(s: Stats): (r: seq<Kind>)
    ensures Decides(r, s, 0, 2)
  {
    DecidesPair(s, StrongProgress, ProgressNeedsAttention);
    if s.projects > 0 then
      if s.avgProgress > 0.7 then [StrongProgress]
      else if s.avgProgress < 0.3 then [ProgressNeedsAttention]
      else []
    else []
  }

  /** The opportunity insights, looked at only when the user has customers. */
  function OpportunityKinds(s: Stats): (r: seq<Kind>)
    ensures Decides(r, s, 2, 4)
  {
    DecidesPair(s, LeadConversion, LeadGeneration);
    if s.customers > 0 then
      When(s.leads > s.opportunities * 2, LeadConversion)
      + When(s.paying > 0 && s.leads == 0, LeadGeneration)
    else []
  }

  function SuggestionKinds(s: Stats): (r: seq<Kind>)
    ensures Decides(r, s, 4, 6)
  {
    DecidesPair(s, CampaignSuggestion, CompletionFocus);
    When(s.campaigns == 0 && s.customers > 5, CampaignSuggestion)
    + When(s.projects > 3 && s.nearlyDone == 0, CompletionFocus)
  }

  function TrendKinds(s: Stats): (r: seq<Kind>)
    ensures Decides(r, s, 6, 8)
  {
    DecidesPair(s, BalancedGrowth, CustomerGrowth);
    When(s.projects > 0 && s.campaigns > 0, BalancedGrowth)
    + When(s.customers > 10 && RecentShareAbove(s), CustomerGrowth)
  }

  function StarterKinds(s: Stats): (r: seq<Kind>)
    ensures Decides(r, s, 8, 9)
  {
    When(s.projects == 0 && s.customers == 0 && s.campaigns == 0, GettingStarted)
  }

  /** Two adjacent groups of decisions decide the rules of both. */
  lemma DecidesConcat(a: seq<Kind>, b: seq<Kind>, s: Stats, lo: nat, mid: nat, hi: nat)
    requires lo <= mid <= hi
    requires Decides(a, s, lo, mid) && Decides(b, s, mid, hi)
    ensures Decides(a + b, s, lo, hi)
  {
    OrderedConcat(a, b, lo, mid, hi);
  }

  /** The generator's decisions, group by group as its branches push them: exactly the insights
      whose rule fires, each once, in rule order. */
  function Kinds(s: Stats): (r: seq<Kind>)
    ensures forall k :: k in r <==> Fires(k, s)
    ensures Ordered(r)
  {
    var p, o, g, t, st := PerformanceKinds(s), OpportunityKinds(s), SuggestionKinds(s), TrendKinds(s), StarterKinds(s);
    DecidesConcat(p, o, s, 0, 2, 4);
    DecidesConcat(p + o, g, s, 0, 4, 6);
    DecidesConcat(p + o + g, t, s, 0, 6, 8);
    DecidesConcat(p + o + g + t, st, s, 0, 8, 9);
    p + o + g + t + st
  }

  function CategoryOf(k: Kind): Category {
    match k
    case StrongProgress | ProgressNeedsAttention => Performance
    case LeadConversion | LeadGeneration => Opportunity
    case CampaignSuggestion | CompletionFocus | GettingStarted => Suggestion
    case BalancedGrowth | CustomerGrowth => Trend
  }

  function PriorityOf(k: Kind): int {
    match k
    case StrongProgress => 8
    case ProgressNeedsAttention => 7
    case LeadConversion => 7
    case LeadGeneration => 6
    case CampaignSuggestion => 6
    case CompletionFocus => 5
    case BalancedGrowth => 5
    case CustomerGrowth => 6
    case GettingStarted => 9
  }

  const StrongProgressTitle: string := "Strong Development Progress"
  const ProgressNeedsAttentionTitle: string := "Development Progress Needs Attention"
  const LeadConversionTitle: string := "Lead Conversion Opportunity"
  const LeadGenerationTitle: string := "Lead Generation Opportunity"
  const CampaignSuggestionTitle: string := "Marketing Campaign Suggestion"
  const CompletionFocusTitle: string := "Project Completion Focus"
  const BalancedGrowthTitle: string := "Balanced Growth Trend"
  const CustomerGrowthTitle: string := "Strong Customer Growth Trend"
  const GettingStartedTitle: string := "Getting Started"

  function Title(k: Kind): string {
    match k
    case StrongProgress => StrongProgressTitle
    case ProgressNeedsAttention => ProgressNeedsAttentionTitle
    case LeadConversion => LeadConversionTitle
    case LeadGeneration => LeadGenerationTitle
    case CampaignSuggestion => CampaignSuggestionTitle
    case CompletionFocus => CompletionFocusTitle
    case BalancedGrowth => BalancedGrowthTitle
    case CustomerGrowth => CustomerGrowthTitle
    case GettingStarted => GettingStartedTitle
  }

  const ProgressHead: string := "Your projects are "
  const CountHead: string := "You have "
  const LeadConversionMiddle: string := " leads but only "
  const CustomerGrowthHead: string := "You've acquired "
  const StrongProgressTail: string := "% complete on average. Keep up the excellent momentum!"
  const ProgressNeedsAttentionTail: string :=
    "% complete on average. Consider reviewing project timelines and resources."
  const LeadConversionTail: string :=
    " opportunities. Consider nurturing more leads into the sales pipeline."
  const LeadGenerationTail: string :=
    " customers but no active leads. Consider implementing lead generation strategies to maintain growth."
  const CampaignSuggestionText: string :=
    "With your growing customer base, consider launching a marketing campaign to accelerate growth and engagement."
  const CompletionFocusText: string :=
    "You have multiple projects in progress. Consider focusing on completing existing projects before starting new ones."
  const BalancedGrowthText: string :=
    "You're maintaining a good balance between product development and marketing efforts. This integrated approach often leads to sustainable growth."
  const CustomerGrowthMiddle: string := " new customers in the last 30 days, representing "
  const CustomerGrowthTail: string := "% of your total customer base."
  const GettingStartedText: string :=
    "Welcome to SaaSGuide! Start by adding your first project or customer to begin tracking your business metrics."

  /** The rounded percentage of customers that are recent; 0 when there are none. */
  function RecentPercent(s: Stats): int {
    if s.customers == 0 then 0 else Round((s.recent as real) / (s.customers as real) * 100.0)
  }

  /** The description of an insight, with the figures it quotes. The share of recent customers
      is only quoted when there are more than ten customers. */
  function Description(k: Kind, s: Stats): string {
    match k
    case StrongProgress =>
      ProgressHead + IntToString(Round(s.avgProgress * 100.0)) + StrongProgressTail
    case ProgressNeedsAttention =>
      ProgressHead + IntToString(Round(s.avgProgress * 100.0)) + ProgressNeedsAttentionTail
    case LeadConversion =>
      CountHead + NatToString(s.leads) + LeadConversionMiddle + NatToString(s.opportunities) + LeadConversionTail
    case LeadGeneration =>
      CountHead + NatToString(s.paying) + LeadGenerationTail
    case CampaignSuggestion => CampaignSuggestionText
    case CompletionFocus => CompletionFocusText
    case BalancedGrowth => BalancedGrowthText
    case CustomerGrowth =>
      CustomerGrowthHead + NatToString(s.recent) + CustomerGrowthMiddle
      + IntToString(RecentPercent(s)) + CustomerGrowthTail
    case GettingStarted => GettingStartedText
  }

  /** The insight document the generator inserts for a produced insight. */
  function Render(k: Kind, s: Stats, userId: string, now: int): (r: Insight)
    ensures r.title == Title(k) && r.category == CategoryOf(k) && r.priority == PriorityOf(k)
    ensures r.userId == userId && r.createdAt == now && r.updatedAt == now
  {
    Insight(Title(k), Description(k, s), CategoryOf(k), PriorityOf(k), userId, now, now)
  }

  function RenderWith(s: Stats, userId: string, now: int): Kind -> Insight {
    k => Render(k, s, userId, now)
  }

  /** The insight documents for the decisions `ks`, in order. */
  function RenderAll(ks: seq<Kind>, s: Stats, userId: string, now: int): (r: seq<Insight>)
    ensures |r| == |ks|
    ensures forall i :: 0 <= i < |r| ==>
              && r[i].userId == userId && r[i].createdAt == now && r[i].updatedAt == now
              && r[i].category == CategoryOf(ks[i]) && r[i].priority == PriorityOf(ks[i])
  {
    MapAt(ks, RenderWith(s, userId, now));
    Map(ks, RenderWith(s, userId, now))
  }

  /** The insights generated for figures `s`, in order. */
  function InsightsFor(s: Stats, userId: string, now: int): (r: seq<Insight>)
    ensures |r| == |Kinds(s)|
    ensures forall i :: 0 <= i < |r| ==>
              && r[i].userId == userId && r[i].createdAt == now && r[i].updatedAt == now
              && r[i].category == CategoryOf(Kinds(s)[i]) && r[i].priority == PriorityOf(Kinds(s)[i])
  {
    RenderAll(Kinds(s), s, userId, now)
  }

  /** The generated insights all belong to the user. */
  lemma InsightsOwned(s: Stats, userId: string, now: int)
    ensures forall i :: 0 <= i < |InsightsFor(s, userId, now)| ==> InsightOwnerIs(userId)(InsightsFor(s, userId, now)[i])
  {
  }

  /** The generated insights are the rendered decisions, in order. */
  lemma InsightsRendered(s: Stats, userId: string, now: int)
    ensures forall i :: 0 <= i < |Kinds(s)| ==> InsightsFor(s, userId, now)[i] == Render(Kinds(s)[i], s, userId, now)
  {
    MapAt(Kinds(s), RenderWith(s, userId, now));
  }

  /** `getAIInsights`: the user's newest insights, newest first, at most ten of them. */
  function GetAIInsights(db: Db, userId: string): (r: seq<Row<Insight>>)
    requires ValidDb(db)
    ensures |r| <= InsightsShown
    ensures forall i :: 0 <= i < |r| ==> r[i] in db.insights.rows && r[i].doc.userId == userId
    ensures forall i, j :: 0 <= i < j < |r| ==> r[i].id > r[j].id
    ensures forall k :: 0 <= k < |db.insights.rows| && db.insights.rows[k].doc.userId == userId
                        && db.insights.rows[k] !in r ==>
              |r| == InsightsShown && forall j :: 0 <= j < |r| ==> r[j].id > db.insights.rows[k].id
  {
    SelectNewest(db.insights, InsightOwnerIs(userId), InsightsShown)
  }

  /** `generateAIInsights`: replaces the user's insights by those the rules produce from the
      user's projects, customers and campaigns, and returns how many it produced. Other users'
      insights are left as they were. */
  function GenerateAIInsights(db: Db, userId: string, now: int): (r: Outcome<nat>)
    requires ValidDb(db)
    ensures ValidDb(r.db) && r.db == db.(insights := r.db.insights)
    ensures Docs(Select(r.db.insights, InsightOwnerIs(userId))) == InsightsFor(UserStats(db, userId, now), userId, now)
    ensures r.value == |Kinds(UserStats(db, userId, now))|
    ensures Unmatched(db.insights, r.db.insights, InsightOwnerIs(userId))
  {
    ReplaceInsights(db, userId, InsightsFor(UserStats(db, userId, now), userId, now))
  }

  /** Deletes the user's insights, inserts `docs` in their place and counts them. */
  function ReplaceInsights(db: Db, userId: string, docs: seq<Insight>): (r: Outcome<nat>)
    requires ValidDb(db)
    requires forall i :: 0 <= i < |docs| ==> docs[i].userId == userId
    ensures ValidDb(r.db) && r.db == db.(insights := r.db.insights)
    ensures Docs(Select(r.db.insights, InsightOwnerIs(userId))) == docs
    ensures r.value == |docs|
    ensures Unmatched(db.insights, r.db.insights, InsightOwnerIs(userId))
  {
    var t := ReplaceWhere(db.insights, InsightOwnerIs(userId), docs);
    var n: nat := |docs|;
    Outcome(n, db.(insights := t))
  }

  /** The generator produces at most five insights; Getting Started comes alone, exactly when
      the user has no project, customer or campaign. */
  lemma {:induction false} KindsShape(s: Stats)
    ensures |Kinds(s)| <= 5
    ensures GettingStarted in Kinds(s) <==> s.projects == 0 && s.customers == 0 && s.campaigns == 0
    ensures GettingStarted in Kinds(s) ==> Kinds(s) == [GettingStarted]
  {
    var ks := Kinds(s);
    if s.projects == 0 && s.customers == 0 && s.campaigns == 0 {
      assert ks == [GettingStarted];
    }
  }

  /** The two lead insights exclude each other, and so do the campaign suggestion and the
      balanced-growth trend, and the two progress insights. */
  lemma ExclusiveInsights(s: Stats)
    ensures !(LeadConversion in Kinds(s) && LeadGeneration in Kinds(s))
    ensures !(CampaignSuggestion in Kinds(s) && BalancedGrowth in Kinds(s))
    ensures !(StrongProgress in Kinds(s) && ProgressNeedsAttention in Kinds(s))
  {
  }

  /** A user with no project, customer or campaign gets exactly the Getting Started insight,
      with the top priority. */
  lemma NewUserGetsStarted(db: Db, userId: string, now: int)
    requires ValidDb(db)
    requires forall row :: row in db.projects.rows ==> row.doc.userId != userId
    requires forall row :: row in db.customers.rows ==> row.doc.userId != userId
    requires forall row :: row in db.campaigns.rows ==> row.doc.userId != userId
    ensures var o := GenerateAIInsights(db, userId, now);
            && o.value == 1
            && Docs(Select(o.db.insights, InsightOwnerIs(userId)))
                 == [Insight(GettingStartedTitle, GettingStartedText, Suggestion, 9, userId, now, now)]
  {
    FilterKeepsNone(db.projects.rows, DocHolds(ProjectOwnerIs(userId)));
    FilterKeepsNone(db.customers.rows, DocHolds(CustomerOwnerIs(userId)));
    FilterKeepsNone(db.campaigns.rows, DocHolds(CampaignOwnerIs(userId)));
    NoDataGetsStarted(UserStats(db, userId, now), userId, now);
  }

  /** With no project, customer or campaign the generator renders the Getting Started insight alone. */
  lemma NoDataGetsStarted(s: Stats, userId: string, now: int)
    requires s.projects == 0 && s.customers == 0 && s.campaigns == 0
    ensures InsightsFor(s, userId, now) == [Insight(GettingStartedTitle, GettingStartedText, Suggestion, 9, userId, now, now)]
  {
    KindsShape(s);
    InsightsRendered(s, userId, now);
  }

  /** Generating again at the same time produces the same insights: the second run replaces
      the first run's insights by equal ones. */
  lemma RegenerateIsStable(db: Db, userId: string, now: int)
    requires ValidDb(db)
    ensures var d := GenerateAIInsights(db, userId, now).db;
            var o := GenerateAIInsights(d, userId, now);
            && o.value == GenerateAIInsights(db, userId, now).value
            && Docs(Select(o.db.insights, InsightOwnerIs(userId))) == Docs(Select(d.insights, InsightOwnerIs(userId)))
  {
    var d := GenerateAIInsights(db, userId, now).db;
    SameDataSameStats(db, d, userId, now);
  }

  /** The generator's figures depend only on the projects, customers and campaigns. */
  lemma SameDataSameStats(db: Db, d: Db, userId: string, now: int)
    requires d.projects == db.projects && d.customers == db.customers && d.campaigns == db.campaigns
    ensures UserStats(d, userId, now) == UserStats(db, userId, now)
  {
  }

  /** A user with a completed project is never told to focus on completing projects. */
  lemma CompletedProjectBlocksFocus(db: Db, userId: string, now: int)
    requires GetProjectsOverview(db, userId).completed > 0
    ensures CompletionFocus !in Kinds(UserStats(db, userId, now))
  {
    var ps := UserProjects(db, userId);
    CountImplies(ps, Completed, NearlyDone);
    NearlyDoneBlocksFocus(UserStats(db, userId, now));
  }

  /** The completion-focus rule needs every project to be at most 80% done. */
  lemma NearlyDoneBlocksFocus(s: Stats)
    requires s.nearlyDone > 0
    ensures CompletionFocus !in Kinds(s)
  {
  }

  datatype ProjectsOverview = ProjectsOverview(total: nat, avgProgress: real, completed: nat)

  /** `getProjectsOverview`: how many projects the user has, their mean progress (0 when there
      are none, missing progress counted as 0) and how many are complete. */
  function GetProjectsOverview(db: Db, userId: string): (r: ProjectsOverview)
    ensures r.total == |Select(db.projects, ProjectOwnerIs(userId))|
    ensures r.completed == Count(UserProjects(db, userId), Completed) <= r.total
    ensures r.total == 0 ==> r.avgProgress == 0.0
    ensures IsMeanProgress(r.avgProgress, UserProjects(db, userId))
    ensures (forall row :: row in db.projects.rows ==> 0.0 <= ProgressOf(row.doc) <= 1.0) ==>
              0.0 <= r.avgProgress <= 1.0
  {
    var ps := UserProjects(db, userId);
    MeanTimesCount(ps);
    UserAverageBounds(db, userId);
    ProjectsOverview(|ps|, AverageProgress(ps), Count(ps, Completed))
  }

  /** `m` is the mean progress of `projects`: times their number it gives their total progress. */
  predicate IsMeanProgress(m: real, projects: seq<Project>) {
    m * (|projects| as real) == SumReal(projects, ProgressOf)
  }

  /** `AverageProgress` is the mean. */
  lemma MeanTimesCount(projects: seq<Project>)
    ensures IsMeanProgress(AverageProgress(projects), projects)
  {
  }

  /** When every stored progress lies in [0, 1], so does the mean of a user's projects. */
  lemma UserAverageBounds(db: Db, userId: string)
    ensures (forall row :: row in db.projects.rows ==> 0.0 <= ProgressOf(row.doc) <= 1.0) ==>
              0.0 <= AverageProgress(UserProjects(db, userId)) <= 1.0
  {
    var ps := UserProjects(db, userId);
    var sel := Select(db.projects, ProjectOwnerIs(userId));
    if forall row :: row in db.projects.rows ==> 0.0 <= ProgressOf(row.doc) <= 1.0 {
      forall i | 0 <= i < |ps|
        ensures 0.0 <= ProgressOf(ps[i]) <= 1.0
      {
        assert ps[i] == sel[i].doc && sel[i] in db.projects.rows;
      }
      AverageProgressBounds(ps);
    }
  }

  datatype CustomersOverview = CustomersOverview(total: nat, leads: nat, opportunities: nat, customers: nat)

  /** `getCustomersOverview`: how many customers the user has, and how many in each of the
      three pipeline statuses; a customer is in at most one of them. */
  function GetCustomersOverview(db: Db, userId: string): (r: CustomersOverview)
    ensures r.total == |Select(db.customers, CustomerOwnerIs(userId))|
    ensures r.leads == Count(UserCustomers(db, userId), CustomerStatusIs("lead"))
    ensures r.opportunities == Count(UserCustomers(db, userId), CustomerStatusIs("opportunity"))
    ensures r.customers == Count(UserCustomers(db, userId), CustomerStatusIs("customer"))
    ensures r.leads + r.opportunities + r.customers <= r.total
  {
    var cs := UserCustomers(db, userId);
    var lead := CustomerStatusIs("lead");
    var opportunity := CustomerStatusIs("opportunity");
    var customer := CustomerStatusIs("customer");
    CountDisjoint(cs, lead, opportunity);
    CountDisjoint(cs, Either(lead, opportunity), customer);
    CustomersOverview(|cs|, Count(cs, lead), Count(cs, opportunity), Count(cs, customer))
  }

  /** A missing budget or amount spent counts as 0. */
  function BudgetOf(c: Campaign): real {
    c.budget.GetOr(0.0)
  }

  function SpentOf(c: Campaign): real {
    c.spent.GetOr(0.0)
  }

  predicate IsActive(c: Campaign) {
    c.status == "active"
  }

  datatype CampaignsOverview = CampaignsOverview(total: nat, active: nat, totalBudget: real, totalSpent: real)

  /** `getCampaignsOverview`: how many campaigns the user has, how many are active, and the sums
      of their budgets and spending; when no campaign has spent more than its budget, neither
      has the total. */
  function GetCampaignsOverview(db: Db, userId: string): (r: CampaignsOverview)
    ensures r.total == |Select(db.campaigns, CampaignOwnerIs(userId))|
    ensures r.active == Count(UserCampaigns(db, userId), IsActive) <= r.total
    ensures r.totalBudget == SumReal(UserCampaigns(db, userId), BudgetOf)
    ensures r.totalSpent == SumReal(UserCampaigns(db, userId), SpentOf)
    ensures (forall row :: row in db.campaigns.rows ==> SpentOf(row.doc) <= BudgetOf(row.doc)) ==>
              r.totalSpent <= r.totalBudget
  {
    var cs := UserCampaigns(db, userId);
    var sel := Select(db.campaigns, CampaignOwnerIs(userId));
    if forall row :: row in db.campaigns.rows ==> SpentOf(row.doc) <= BudgetOf(row.doc) then
      forall i | 0 <= i < |cs|
        ensures SpentOf(cs[i]) <= BudgetOf(cs[i])
      {
        assert cs[i] == sel[i].doc && sel[i] in db.campaigns.rows;
      }
      SumMonotone(cs, SpentOf, BudgetOf);
      CampaignsOverview(|cs|, Count(cs, IsActive), SumReal(cs, BudgetOf), SumReal(cs, SpentOf))
    else
      CampaignsOverview(|cs|, Count(cs, IsActive), SumReal(cs, BudgetOf), SumReal(cs, SpentOf))
  }
}

=== FILE: environment.dfy ===
/** What the browser-side helpers read from their surroundings: whether a `window` exists
    (false while rendering on the server), whether the window is its own parent (false inside
    an iframe), and the environment variables the build inlines. */
module Environment {

  datatype Env = Env(hasWindow: bool, parentIsSelf: bool, vars: map<string, string>)

  const MicroAppFlag: string := "NEXT_PUBLIC_MICRO_APP"
  const MicroAppBaseUrl: string := "NEXT_PUBLIC_MICRO_APP_BASE_URL"
  const DemoModeFlag: string := "NEXT_PUBLIC_DEMO_MODE"
  const ClerkPublishableKey: string := "NEXT_PUBLIC_CLERK_PUBLISHABLE_KEY"
  const ClerkSecretKey: string := "CLERK_SECRET_KEY"
  const MockAuthFlag: string := "NEXT_PUBLIC_MOCK_AUTH"

  /** `process.env[name] === value`: the variable is set, to exactly that text. */
  predicate VarIs(env: Env, name: string, value: string) {
    name in env.vars && env.vars[name] == value
  }

  /** `process.env[name]` is truthy: set, and not the empty string. */
  predicate VarSet(env: Env, name: string) {
    name in env.vars && env.vars[name] != ""
  }

  /** `process.env[name] === "true"`. */
  predicate FlagOn(env: Env, name: string) {
    VarIs(env, name, "true")
  }
}

=== FILE: iframeDetection.dfy ===
/** Whether the app runs inside an iframe, and whether it should fall back to mock
    authentication. */
module IframeDetection {
  import opened Environment

  /** `isInIframe`: false on the server; in a browser, whether the window has another parent. */
  function IsInIframe(env: Env): (r: bool)
    ensures !env.hasWindow ==> !r
    ensures env.hasWindow ==> (r <==> !env.parentIsSelf)
  {
    env.hasWindow && !env.parentIsSelf
  }

  /** `shouldUseMockMode`: false on the server whatever the flag; in a browser, true when mock
      authentication is switched on, and otherwise exactly when embedded in an iframe. */
  function ShouldUseMockMode(env: Env): (r: bool)
    ensures !env.hasWindow ==> !r
    ensures env.hasWindow && FlagOn(env, MockAuthFlag) ==> r
    ensures !FlagOn(env, MockAuthFlag) ==> (r <==> IsInIframe(env))
  {
    if !env.hasWindow then false
    else if FlagOn(env, MockAuthFlag) then true
    else IsInIframe(env)
  }

  /** Being framed is enough for mock mode, and mock mode needs a browser. */
  lemma MockModeFromIframe(env: Env)
    ensures IsInIframe(env) ==> ShouldUseMockMode(env)
    ensures ShouldUseMockMode(env) ==> env.hasWindow && (IsInIframe(env) || FlagOn(env, MockAuthFlag))
  {
  }
}

=== FILE: insightsPanel.dfy ===
/** The dashboard's AI insights panel: a loading view until the query answers, then the
    insights ordered highest priority first and, within a priority, newest first. */
module InsightsPanel {
  import opened Tables
  import opened Schema

  /** The panel's comparator: by priority, higher first; on equal priority by creation time,
      newer first. Negative means `a` goes before `b`. */
  function Compare(a: Row<Insight>, b: Row<Insight>): (r: int)
    ensures r < 0 <==> a.doc.priority > b.doc.priority
                       || (a.doc.priority == b.doc.priority && a.doc.createdAt > b.doc.createdAt)
    ensures r == 0 <==> a.doc.priority == b.doc.priority && a.doc.createdAt == b.doc.createdAt
  {
    if a.doc.priority != b.doc.priority then b.doc.priority - a.doc.priority
    else b.doc.createdAt - a.doc.createdAt
  }

  /** The order the comparator describes, stated on the keys. */
  predicate Before(a: Row<Insight>, b: Row<Insight>) {
    a.doc.priority > b.doc.priority || (a.doc.priority == b.doc.priority && a.doc.createdAt >= b.doc.createdAt)
  }

  /** The comparator puts `a` no later than `b` exactly when `a` is `Before` `b`; any two
      insights compare one way or the other, and the order is transitive. */
  lemma CompareIsOrder(a: Row<Insight>, b: Row<Insight>, c: Row<Insight>)
    ensures Compare(a, b) <= 0 <==> Before(a, b)
    ensures Compare(a, b) == -Compare(b, a)
    ensures Before(a, b) || Before(b, a)
    ensures Before(a, b) && Before(b, c) ==> Before(a, c)
  {
  }

  /** Every earlier insight comes no later than every later one under the comparator. */
  ghost predicate Sorted(s: seq<Row<Insight>>) {
    forall i, j :: 0 <= i < j < |s| ==> Before(s[i], s[j])
  }

  /** Places `x` in the sorted list `t`, ahead of the first insight it comes no later than. */
  function Insert(x: Row<Insight>, t: seq<Row<Insight>>): (r: seq<Row<Insight>>)
    requires Sorted(t)
    ensures Sorted(r)
    ensures multiset(r) == multiset(t) + multiset{x}
  {
    if t == [] then [x]
    else if Compare(x, t[0]) <= 0 then
      assert Before(x, t[0]);
      [x] + t
    else
      var rest := Insert(x, t[1..]);
      assert t == [t[0]] + t[1..];
      assert forall k :: 0 <= k < |rest| ==> Before(t[0], rest[k]) by {
        forall k | 0 <= k < |rest|
          ensures Before(t[0], rest[k])
        {
          assert rest[k] in multiset(rest);
          if rest[k] != x {
            assert rest[k] in multiset(t[1..]);
            var j :| 0 <= j < |t[1..]| && t[1..][j] == rest[k];
            assert t[j + 1] == rest[k];
          }
        }
      }
      [t[0]] + rest
  }

  /** The comparator's sort, stable like `Array.prototype.sort`: each insight goes in ahead of
      the equal ones that followed it. */
  function SortInsights(s: seq<Row<Insight>>): (r: seq<Row<Insight>>)
    ensures Sorted(r)
    ensures multiset(r) == multiset(s)
    ensures |r| == |s|
  {
    if s == [] then []
    else
      assert s == [s[0]] + s[1..];
      Insert(s[0], SortInsights(s[1..]))
  }

  /** What the insights query has answered: nothing yet, null, or the user's insights. */
  datatype Fetch = Pending | Null | Fetched(rows: seq<Row<Insight>>)

  /** What the panel shows: placeholder cards, or the insights in order. */
  datatype Panel = Loading | Showing(rows: seq<Row<Insight>>)

  /** The panel: loading placeholders while the query is pending, no card for a null answer
      (`insights?.sort(...) || []`), otherwise every fetched insight, sorted, and nothing else. */
  function View(fetch: Fetch): (r: Panel)
    ensures r.Loading? <==> fetch.Pending?
    ensures fetch.Null? ==> r == Showing([])
    ensures fetch.Fetched? ==> Sorted(r.rows) && multiset(r.rows) == multiset(fetch.rows)
  {
    match fetch
    case Pending => Loading
    case Null => Showing([])
    case Fetched(rows) => Showing(SortInsights(rows))
  }

  /** The panel's first card has the highest priority of all fetched insights and, among those
      of that priority, the latest creation time. */
  lemma FirstIsMostUrgent(rows: seq<Row<Insight>>)
    requires rows != []
    ensures var shown := View(Fetched(rows)).rows;
            shown != [] &&
            forall k :: 0 <= k < |rows| ==>
              && rows[k].doc.priority <= shown[0].doc.priority
              && (rows[k].doc.priority == shown[0].doc.priority ==> rows[k].doc.createdAt <= shown[0].doc.createdAt)
  {
    var shown := View(Fetched(rows)).rows;
    assert rows[0] in multiset(rows);
    assert shown != [];
    forall k | 0 <= k < |rows|
      ensures Before(shown[0], rows[k])
    {
      assert rows[k] in multiset(shown);
      var j :| 0 <= j < |shown| && shown[j] == rows[k];
      if j > 0 {
        assert Before(shown[0], shown[j]);
      } else {
        CompareIsOrder(shown[0], shown[0], shown[0]);
      }
    }
  }
}

=== FILE: microApp.dfy ===
/** Helpers for running the app embedded in a host app: detecting the embedding, building
    links and breadcrumbs to other apps, and classifying errors. */
module MicroApp {
  import opened Environment
  import opened Strings
  import IframeDetection

  /** `isMicroAppContext`: false on the server; in a browser, true when framed or when the
      micro-app flag is on. */
  function IsMicroAppContext(env: Env): (r: bool)
    ensures !env.hasWindow ==> !r
    ensures r <==> IframeDetection.IsInIframe(env) || (env.hasWindow && FlagOn(env, MicroAppFlag))
  {
    if !env.hasWindow then false
    else !env.parentIsSelf || FlagOn(env, MicroAppFlag)
  }

  const DefaultBaseUrl: string := "/apps"

  /** The base of app links: the configured one when set and not empty, otherwise "/apps". */
  function BaseUrl(env: Env): (r: string)
    ensures VarSet(env, MicroAppBaseUrl) ==> r == env.vars[MicroAppBaseUrl]
    ensures !VarSet(env, MicroAppBaseUrl) ==> r == DefaultBaseUrl
  {
    if VarSet(env, MicroAppBaseUrl) then env.vars[MicroAppBaseUrl] else DefaultBaseUrl
  }

  /** `getMicroAppUrl(appName, route)`: the base, a slash, the app's name, then the route. */
  function GetMicroAppUrl(env: Env, appName: string, route: string): string {
    BaseUrl(env) + "/" + appName + route
  }

  /** A link under an app is the app's own link followed by the route, and extending the route
      extends the link. */
  lemma UrlExtends(env: Env, appName: string, route: string, more: string)
    ensures GetMicroAppUrl(env, appName, route) == GetMicroAppUrl(env, appName, "") + route
    ensures GetMicroAppUrl(env, appName, route + more) == GetMicroAppUrl(env, appName, route) + more
  {
    var app := BaseUrl(env) + "/" + appName;
    assert app + "" == app;
    assert app + (route + more) == (app + route) + more;
  }

  /** A breadcrumb: its `label` (here `text`, `label` being a keyword) and its link. */
  datatype Crumb = Crumb(text: string, href: string)

  /** The path of the first `k` segments, each after a slash: "/a/b" for ["a", "b"]. */
  function PathTo(path: seq<string>, k: nat): string
    requires k <= |path|
  {
    if k == 0 then "" else PathTo(path, k - 1) + "/" + path[k - 1]
  }

  /** The crumb of segment `k`: its capitalised name, linking to the path up to and including it. */
  function SegmentCrumb(env: Env, appName: string, path: seq<string>, k: nat): Crumb
    requires k < |path|
  {
    Crumb(Capitalize(path[k]), GetMicroAppUrl(env, appName, PathTo(path, k + 1)))
  }

  /** Home, the app, then the crumbs of the first `n` segments. */
  function CrumbsUpTo(env: Env, appName: string, path: seq<string>, n: nat): (r: seq<Crumb>)
    requires n <= |path|
    ensures |r| == n + 2
  {
    if n == 0 then [Crumb("Home", "/"), Crumb(Capitalize(appName), GetMicroAppUrl(env, appName, ""))]
    else CrumbsUpTo(env, appName, path, n - 1) + [SegmentCrumb(env, appName, path, n - 1)]
  }

  /** The breadcrumbs of a page: Home, the app, then a crumb for each segment but the last. */
  function Breadcrumbs(env: Env, appName: string, path: seq<string>): (r: seq<Crumb>)
    ensures |r| == if |path| == 0 then 2 else |path| + 1
  {
    CrumbsUpTo(env, appName, path, if |path| == 0 then 0 else |path| - 1)
  }

  /** `createBreadcrumbs`: walks the path, extending the current path by each segment and
      adding a crumb for every segment but the last. */
  method CreateBreadcrumbs(env: Env, appName: string, path: seq<string>) returns (crumbs: seq<Crumb>)
    ensures crumbs == Breadcrumbs(env, appName, path)
  {
    crumbs := [Crumb("Home", "/"), Crumb(Capitalize(appName), GetMicroAppUrl(env, appName, ""))];
    var currentPath := "";
    var index := 0;
    while index < |path|
      invariant 0 <= index <= |path|
      invariant currentPath == PathTo(path, index)
      invariant crumbs == CrumbsUpTo(env, appName, path, if index == |path| && index > 0 then index - 1 else index)
    {
      currentPath := currentPath + "/" + path[index];
      if index < |path| - 1 {
        crumbs := crumbs + [Crumb(Capitalize(path[index]), GetMicroAppUrl(env, appName, currentPath))];
      }
      index := index + 1;
    }
  }

  /** The crumbs are Home, the app, then each segment's crumb in path order. */
  lemma {:induction false} CrumbsAt(env: Env, appName: string, path: seq<string>, n: nat)
    requires n <= |path|
    ensures var r := CrumbsUpTo(env, appName, path, n);
            && r[0] == Crumb("Home", "/")
            && r[1] == Crumb(Capitalize(appName), GetMicroAppUrl(env, appName, ""))
            && forall k :: 0 <= k < n ==> r[k + 2] == SegmentCrumb(env, appName, path, k)
  {
    if n > 0 {
      var prev := CrumbsUpTo(env, appName, path, n - 1);
      CrumbsAt(env, appName, path, n - 1);
      var r := CrumbsUpTo(env, appName, path, n);
      assert r == prev + [SegmentCrumb(env, appName, path, n - 1)];
      assert r[0] == prev[0] && r[1] == prev[1];
      forall k | 0 <= k < n
        ensures r[k + 2] == SegmentCrumb(env, appName, path, k)
      {
        if k < n - 1 {
          assert r[k + 2] == prev[k + 2];
        }
      }
    }
  }

  /** Each segment crumb links one segment deeper than the crumb before it, the first one one
      segment below the app. */
  lemma CrumbsDescend(env: Env, appName: string, path: seq<string>)
    ensures var r := Breadcrumbs(env, appName, path);
            forall k :: 2 <= k < |r| ==> r[k].href == r[k - 1].href + "/" + path[k - 2]
  {
    var n := if |path| == 0 then 0 else |path| - 1;
    var r := CrumbsUpTo(env, appName, path, n);
    assert r == Breadcrumbs(env, appName, path);
    CrumbsAt(env, appName, path, n);
    forall k | 2 <= k < |r|
      ensures r[k].href == r[k - 1].href + "/" + path[k - 2]
    {
      var before, seg := PathTo(path, k - 2), path[k - 2];
      assert r[k] == SegmentCrumb(env, appName, path, k - 2);
      assert r[k - 1].href == GetMicroAppUrl(env, appName, before) by {
        if k > 2 {
          assert r[k - 1] == SegmentCrumb(env, appName, path, k - 3);
        }
      }
      assert PathTo(path, k - 1) == before + ("/" + seg);
      UrlExtends(env, appName, before, "/" + seg);
      assert GetMicroAppUrl(env, appName, before) + ("/" + seg) == GetMicroAppUrl(env, appName, before) + "/" + seg;
    }
  }

  /** The last segment of a path of more than one segment never becomes a crumb: the deepest
      crumb links to the path without it. */
  lemma LastSegmentHasNoCrumb(env: Env, appName: string, path: seq<string>)
    requires |path| > 1
    ensures Breadcrumbs(env, appName, path)[|path|].href == GetMicroAppUrl(env, appName, PathTo(path, |path| - 1))
  {
    CrumbsAt(env, appName, path, |path| - 1);
  }

  datatype ErrorType = Auth | Data | Unknown

  /** What `handleMicroAppError` returns. */
  datatype ErrorReport = ErrorReport(kind: ErrorType, message: string, shouldRedirect: bool)

  const AuthMessage: string := "You need to be signed in to access this app"
  const NotFoundMessage: string := "The resource you requested was not found"

  /** The lower-cased message names an authentication problem. */
  predicate IsAuthProblem(lower: string) {
    Contains(lower, "unauthorized") || Contains(lower, "not authenticated") || Contains(lower, "forbidden")
  }

  /** The lower-cased message names a missing resource. */
  predicate IsMissingResource(lower: string) {
    Contains(lower, "not found") || Contains(lower, "does not exist")
  }

  /** `handleMicroAppError`: an authentication problem asks for sign-in and a redirect; else a
      missing resource gets a fixed data message; else the error's own message, as it was
      written, is passed on. Keywords match whatever their case. */
  function HandleMicroAppError(message: string): (r: ErrorReport)
    ensures r.shouldRedirect <==> r.kind == Auth
    ensures r.kind == Auth <==> IsAuthProblem(Lower(message))
    ensures r.kind == Data <==> !IsAuthProblem(Lower(message)) && IsMissingResource(Lower(message))
    ensures r.kind == Auth ==> r.message == AuthMessage
    ensures r.kind == Data ==> r.message == NotFoundMessage
    ensures r.kind == Unknown ==> r.message == message
  {
    var lower := Lower(message);
    if IsAuthProblem(lower) then ErrorReport(Auth, AuthMessage, true)
    else if IsMissingResource(lower) then ErrorReport(Data, NotFoundMessage, false)
    else ErrorReport(Unknown, message, false)
  }

  /** The classification ignores case: lower-casing the message first changes nothing but the
      passed-on text of an unknown error. */
  lemma ClassificationIgnoresCase(message: string)
    ensures HandleMicroAppError(Lower(message)).kind == HandleMicroAppError(message).kind
    ensures HandleMicroAppError(Lower(message)).shouldRedirect == HandleMicroAppError(message).shouldRedirect
  {
    LowerIdempotent(message);
  }

  /** A message with "forbidden" anywhere in it, in any case, is an auth error, whatever else
      it says: a not-found phrase next to it does not make it a data error. */
  lemma AuthWins(message: string, before: string, after: string)
    requires Lower(message) == before + "forbidden" + after
    ensures HandleMicroAppError(message).kind == Auth
  {
    ContainsIsOccurrence(Lower(message), "forbidden");
    assert OccursAt(Lower(message), "forbidden", |before|);
  }
}

=== FILE: schema.dfy ===
/** The documents of each table, as the handlers write them, and the whole
    database state the handlers transform. Optional fields are `Option`.
    Fractional quantities are exact `real`s: a project's `progress`, a customer's
    `value` and a campaign's `budget` and `spent`. The other numbers (view, like,
    comment, subscriber and video counts, `publishedAt`, `relevanceScore`,
    `priority` and the timestamps) are integers, as is every value the handlers
    compute for them. */
module Schema {
  import opened Common
  import opened Tables

  datatype User = User(
    userId: string,
    name: Option<string>,
    email: Option<string>,
    isPremium: bool,
    createdAt: int,
    lastLoginAt: int)

  datatype Channel = Channel(
    userId: string,
    channelId: string,
    channelName: string,
    channelUrl: string,
    subscriberCount: int,
    videoCount: int,
    viewCount: int,
    thumbnailUrl: string,
    lastSyncedAt: int,
    isAnalyzed: bool)

  /** A video row; its `channelId` is the channel's external id, not the channel row's id. */
  datatype Video = Video(
    channelId: string,
    videoId: string,
    title: string,
    description: string,
    publishedAt: int,
    viewCount: int,
    likeCount: int,
    commentCount: int,
    thumbnailUrl: string,
    tags: seq<string>)

  datatype ContentIdea = ContentIdea(
    userId: string,
    title: string,
    description: string,
    tags: Option<seq<string>>,
    createdAt: int,
    isGenerated: bool,
    inspirationSources: Option<seq<string>>,
    isPremium: bool,
    category: Option<string>,
    potentialKeywords: Option<seq<string>>,
    estimatedViewership: Option<string>)

  datatype TrendingTopic = TrendingTopic(
    userId: string,
    topic: string,
    description: Option<string>,
    relevanceScore: Option<int>,
    createdAt: int,
    isPremium: bool,
    sources: Option<seq<string>>)

  datatype Competitor = Competitor(
    userId: string,
    competitorChannelId: string,
    competitorName: string,
    competitorUrl: string,
    subscriberCount: int,
    videoCount: int,
    viewCount: int,
    lastSyncedAt: int,
    notes: string,
    isPremium: bool)

  /** The four insight categories the insights table accepts. */
  datatype Category = Performance | Opportunity | Suggestion | Trend

  datatype Insight = Insight(
    title: string,
    description: string,
    category: Category,
    priority: int,
    userId: string,
    createdAt: int,
    updatedAt: int)

  datatype Project = Project(
    name: string,
    description: Option<string>,
    progress: Option<real>,
    status: Option<string>,
    userId: string,
    createdAt: int,
    updatedAt: int)

  /** `status` is "lead", "opportunity", "customer" or another free-form word. */
  datatype Customer = Customer(
    name: string,
    email: Option<string>,
    status: string,
    value: Option<real>,
    userId: string,
    createdAt: int,
    updatedAt: int)

  /** `status` is "active", "paused", "completed" or another free-form word. */
  datatype Campaign = Campaign(
    name: string,
    description: Option<string>,
    status: string,
    budget: Option<real>,
    spent: Option<real>,
    userId: string,
    createdAt: int,
    updatedAt: int)

  /** The whole backend state: one table per collection. */
  datatype Db = Db(
    users: Table<User>,
    channels: Table<Channel>,
    videos: Table<Video>,
    ideas: Table<ContentIdea>,
    topics: Table<TrendingTopic>,
    competitors: Table<Competitor>,
    insights: Table<Insight>,
    projects: Table<Project>,
    customers: Table<Customer>,
    campaigns: Table<Campaign>)

  function EmptyDb(): Db {
    Db(EmptyTable(), EmptyTable(), EmptyTable(), EmptyTable(), EmptyTable(),
       EmptyTable(), EmptyTable(), EmptyTable(), EmptyTable(), EmptyTable())
  }

  /** Every table allocates ids in creation order. */
  predicate ValidDb(db: Db) {
    && Valid(db.users) && Valid(db.channels) && Valid(db.videos) && Valid(db.ideas)
    && Valid(db.topics) && Valid(db.competitors) && Valid(db.insights)
    && Valid(db.projects) && Valid(db.customers) && Valid(db.campaigns)
  }

  /** What a handler that ran to completion returns, with the state it leaves. */
  datatype Outcome<+V> = Outcome(value: V, db: Db)

  /** What an action leaves: the mutations it ran before failing stay committed,
      so the state is returned whether or not it succeeded. */
  datatype ActionRun<+V> = ActionRun(result: Result<V>, db: Db)
}

=== FILE: seed.dfy ===
/** Demo data: seeding a user's projects, customers and campaigns with a fixed sample, and
    clearing everything the dashboard reads for a user. */
module Seed {
  import opened Common
  import opened Seqs
  import opened Tables
  import opened Schema
  import opened Dashboard

  /** One day in milliseconds; seeded rows are dated a whole number of days before now. */
  const Day: int := 24 * 60 * 60 * 1000

  /** What is fixed about a seeded project. */
  datatype ProjectSeed = ProjectSeed(name: string, description: string, progress: real, daysAgo: nat)

  /** What is fixed about a seeded customer. */
  datatype CustomerSeed = CustomerSeed(name: string, email: string, status: string, value: real, daysAgo: nat)

  /** What is fixed about a seeded campaign. */
  datatype CampaignSeed = CampaignSeed(
    name: string, description: string, status: string, budget: real, spent: real, daysAgo: nat)

  const ProjectSeeds: seq<ProjectSeed> := [
    ProjectSeed("SaaS Platform MVP", "Building the core features for our SaaS platform", 0.75, 30),
    ProjectSeed("Mobile App Development", "Native mobile app for iOS and Android", 0.45, 20),
    ProjectSeed("API Documentation", "Comprehensive API documentation for developers", 0.9, 15),
    ProjectSeed("User Analytics Dashboard", "Internal dashboard for tracking user metrics", 0.25, 10)
  ]

  const CustomerSeeds: seq<CustomerSeed> := [
    CustomerSeed("TechCorp Inc.", "contact@techcorp.com", "customer", 5000.0, 45),
    CustomerSeed("StartupXYZ", "hello@startupxyz.com", "customer", 2500.0, 35),
    CustomerSeed("Enterprise Solutions Ltd", "sales@enterprise.com", "opportunity", 15000.0, 25),
    CustomerSeed("Digital Agency Pro", "info@digitalagency.com", "opportunity", 8000.0, 20),
    CustomerSeed("Growth Startup", "team@growthstartup.com", "lead", 3000.0, 15),
    CustomerSeed("Innovation Labs", "contact@innovationlabs.com", "lead", 4500.0, 10),
    CustomerSeed("Future Tech Co", "hello@futuretech.com", "lead", 6000.0, 5)
  ]

  const CampaignSeeds: seq<CampaignSeed> := [
    CampaignSeed("Q4 Growth Campaign", "Focused on acquiring enterprise customers", "active", 10000.0, 6500.0, 30),
    CampaignSeed("Content Marketing Initiative", "Blog posts and educational content", "active", 5000.0, 3200.0, 20),
    CampaignSeed("Social Media Ads", "LinkedIn and Twitter advertising", "paused", 3000.0, 2800.0, 40)
  ]

  /** A seeded project, owned by `userId`, dated `daysAgo` days before `now`. */
  function ProjectOf(p: ProjectSeed, userId: string, now: int): Project {
    Project(p.name, Some(p.description), Some(p.progress), Some("in-progress"), userId, now - p.daysAgo * Day, now)
  }

  function CustomerOf(c: CustomerSeed, userId: string, now: int): Customer {
    Customer(c.name, Some(c.email), c.status, Some(c.value), userId, now - c.daysAgo * Day, now)
  }

  function CampaignOf(c: CampaignSeed, userId: string, now: int): Campaign {
    Campaign(c.name, Some(c.description), c.status, Some(c.budget), Some(c.spent), userId, now - c.daysAgo * Day, now)
  }

  /** The sample projects as inserted for `userId`: all owned by the user, updated `now`. */
  function SeedProjects(userId: string, now: int): (r: seq<Project>)
    ensures |r| == 4
    ensures forall i :: 0 <= i < |r| ==> r[i].userId == userId && r[i].updatedAt == now
  {
    seq(|ProjectSeeds|, i requires 0 <= i < |ProjectSeeds| => ProjectOf(ProjectSeeds[i], userId, now))
  }

  function SeedCustomers(userId: string, now: int): (r: seq<Customer>)
    ensures |r| == 7
    ensures forall i :: 0 <= i < |r| ==> r[i].userId == userId && r[i].updatedAt == now
  {
    seq(|CustomerSeeds|, i requires 0 <= i < |CustomerSeeds| => CustomerOf(CustomerSeeds[i], userId, now))
  }

  function SeedCampaigns(userId: string, now: int): (r: seq<Campaign>)
    ensures |r| == 3
    ensures forall i :: 0 <= i < |r| ==> r[i].userId == userId && r[i].updatedAt == now
  {
    seq(|CampaignSeeds|, i requires 0 <= i < |CampaignSeeds| => CampaignOf(CampaignSeeds[i], userId, now))
  }

  /** How many rows of each collection `seedUserData` reports it inserted. */
  datatype Seeded = Seeded(projects: nat, customers: nat, campaigns: nat)

  /** `seedUserData`: deletes the user's projects, customers and campaigns, inserts the sample
      ones in their place and reports how many. Other users' rows and every other collection,
      the user's insights included, are left as they were. */
  function SeedUserData(db: Db, userId: string, now: int): (r: Outcome<Seeded>)
    requires ValidDb(db)
    ensures ValidDb(r.db)
    ensures r.db == db.(projects := r.db.projects, customers := r.db.customers, campaigns := r.db.campaigns)
    ensures UserProjects(r.db, userId) == SeedProjects(userId, now)
    ensures UserCustomers(r.db, userId) == SeedCustomers(userId, now)
    ensures UserCampaigns(r.db, userId) == SeedCampaigns(userId, now)
    ensures Unmatched(db.projects, r.db.projects, ProjectOwnerIs(userId))
    ensures Unmatched(db.customers, r.db.customers, CustomerOwnerIs(userId))
    ensures Unmatched(db.campaigns, r.db.campaigns, CampaignOwnerIs(userId))
    ensures r.value == Seeded(4, 7, 3)
    ensures r.value.projects == |Select(r.db.projects, ProjectOwnerIs(userId))|
    ensures r.value.customers == |Select(r.db.customers, CustomerOwnerIs(userId))|
    ensures r.value.campaigns == |Select(r.db.campaigns, CampaignOwnerIs(userId))|
  {
    var ps := SeedProjects(userId, now);
    var cs := SeedCustomers(userId, now);
    var ms := SeedCampaigns(userId, now);
    var projects := ReplaceWhere(db.projects, ProjectOwnerIs(userId), ps);
    var customers := ReplaceWhere(db.customers, CustomerOwnerIs(userId), cs);
    var campaigns := ReplaceWhere(db.campaigns, CampaignOwnerIs(userId), ms);
    Outcome(Seeded(|ps|, |cs|, |ms|), db.(projects := projects, customers := customers, campaigns := campaigns))
  }

  /** How many rows of each collection `clearUserData` reports it deleted. */
  datatype Deleted = Deleted(projects: nat, customers: nat, campaigns: nat, insights: nat)

  /** `r` is `t` without its rows matching `p`, and the other rows kept. */
  predicate Cleared<T(==)>(t: Table<T>, r: Table<T>, p: T -> bool) {
    && Select(r, p) == []
    && Unmatched(t, r, p)
  }

  /** `clearUserData`: deletes the user's projects, customers, campaigns and insights and
      reports how many of each it found. */
  function ClearUserData(db: Db, userId: string): (r: Outcome<Deleted>)
    requires ValidDb(db)
    ensures ValidDb(r.db)
    ensures r.db == db.(projects := r.db.projects, customers := r.db.customers,
                        campaigns := r.db.campaigns, insights := r.db.insights)
    ensures Cleared(db.projects, r.db.projects, ProjectOwnerIs(userId))
    ensures Cleared(db.customers, r.db.customers, CustomerOwnerIs(userId))
    ensures Cleared(db.campaigns, r.db.campaigns, CampaignOwnerIs(userId))
    ensures Cleared(db.insights, r.db.insights, InsightOwnerIs(userId))
    ensures r.value == Deleted(|Select(db.projects, ProjectOwnerIs(userId))|,
                               |Select(db.customers, CustomerOwnerIs(userId))|,
                               |Select(db.campaigns, CampaignOwnerIs(userId))|,
                               |Select(db.insights, InsightOwnerIs(userId))|)
  {
    var counts := Deleted(|Select(db.projects, ProjectOwnerIs(userId))|,
                          |Select(db.customers, CustomerOwnerIs(userId))|,
                          |Select(db.campaigns, CampaignOwnerIs(userId))|,
                          |Select(db.insights, InsightOwnerIs(userId))|);
    var projects := ClearWhere(db.projects, ProjectOwnerIs(userId));
    var customers := ClearWhere(db.customers, CustomerOwnerIs(userId));
    var campaigns := ClearWhere(db.campaigns, CampaignOwnerIs(userId));
    var insights := ClearWhere(db.insights, InsightOwnerIs(userId));
    Outcome(counts, db.(projects := projects, customers := customers, campaigns := campaigns, insights := insights))
  }

  /** One collection's deletion loop: removes exactly the rows matching `p`. */
  function ClearWhere<T(==)>(t: Table<T>, p: T -> bool): (r: Table<T>)
    requires Valid(t)
    ensures Valid(r) && Cleared(t, r, p)
  {
    SelectAfterDeleteWhere(t, p);
    DeleteWhere(t, p)
  }

  /** The sample projects' figures: one is past 80%, and the progresses add up to 2.35. */
  lemma {:induction false} SampleProjectFigures(userId: string, now: int)
    ensures Count(SeedProjects(userId, now), NearlyDone) == 1
    ensures SumReal(SeedProjects(userId, now), ProgressOf) == 2.35
  {
    var ps := SeedProjects(userId, now);
    assert ps[0].progress == Some(0.75) && ps[1].progress == Some(0.45);
    assert ps[2].progress == Some(0.9) && ps[3].progress == Some(0.25);
    assert ps[3..][1..] == [];
    assert ps[2..][1..] == ps[3..] && ps[1..][1..] == ps[2..] && ps[0..] == ps;
    assert Count(ps[3..], NearlyDone) == 0 && SumReal(ps[3..], ProgressOf) == 0.25;
    assert Count(ps[2..], NearlyDone) == 1 && SumReal(ps[2..], ProgressOf) == 1.15;
    assert Count(ps[1..], NearlyDone) == 1 && SumReal(ps[1..], ProgressOf) == 1.6;
  }

  /** The statuses of the sample customers, in order. */
  lemma SampleStatuses(userId: string, now: int)
    ensures var cs := SeedCustomers(userId, now);
            && cs[0].status == "customer" && cs[1].status == "customer"
            && cs[2].status == "opportunity" && cs[3].status == "opportunity"
            && cs[4].status == "lead" && cs[5].status == "lead" && cs[6].status == "lead"
  {
  }

  /** The sample has three leads. */
  lemma {:induction false} SampleLeads(userId: string, now: int)
    ensures Count(SeedCustomers(userId, now), CustomerStatusIs("lead")) == 3
  {
    var cs, p := SeedCustomers(userId, now), CustomerStatusIs("lead");
    SampleStatuses(userId, now);
    assert cs[6..][1..] == [];
    assert Count(cs[6..], p) == 1;
    assert Count(cs[5..], p) == 2 by { assert cs[5..][1..] == cs[6..]; }
    assert Count(cs[4..], p) == 3 by { assert cs[4..][1..] == cs[5..]; }
    assert Count(cs[3..], p) == 3 by { assert cs[3..][1..] == cs[4..]; }
    assert Count(cs[2..], p) == 3 by { assert cs[2..][1..] == cs[3..]; }
    assert Count(cs[1..], p) == 3 by { assert cs[1..][1..] == cs[2..]; }
    assert cs[1..] == cs[0..][1..] && cs[0..] == cs;
  }

  /** The sample has two opportunities. */
  lemma {:induction false} SampleOpportunities(userId: string, now: int)
    ensures Count(SeedCustomers(userId, now), CustomerStatusIs("opportunity")) == 2
  {
    var cs, p := SeedCustomers(userId, now), CustomerStatusIs("opportunity");
    SampleStatuses(userId, now);
    assert cs[6..][1..] == [];
    assert Count(cs[6..], p) == 0;
    assert Count(cs[5..], p) == 0 by { assert cs[5..][1..] == cs[6..]; }
    assert Count(cs[4..], p) == 0 by { assert cs[4..][1..] == cs[5..]; }
    assert Count(cs[3..], p) == 1 by { assert cs[3..][1..] == cs[4..]; }
    assert Count(cs[2..], p) == 2 by { assert cs[2..][1..] == cs[3..]; }
    assert Count(cs[1..], p) == 2 by { assert cs[1..][1..] == cs[2..]; }
    assert cs[1..] == cs[0..][1..] && cs[0..] == cs;
  }

  /** The sample has two paying customers. */
  lemma {:induction false} SamplePaying(userId: string, now: int)
    ensures Count(SeedCustomers(userId, now), CustomerStatusIs("customer")) == 2
  {
    var cs, p := SeedCustomers(userId, now), CustomerStatusIs("customer");
    SampleStatuses(userId, now);
    assert cs[6..][1..] == [];
    assert Count(cs[6..], p) == 0;
    assert Count(cs[5..], p) == 0 by { assert cs[5..][1..] == cs[6..]; }
    assert Count(cs[4..], p) == 0 by { assert cs[4..][1..] == cs[5..]; }
    assert Count(cs[3..], p) == 0 by { assert cs[3..][1..] == cs[4..]; }
    assert Count(cs[2..], p) == 0 by { assert cs[2..][1..] == cs[3..]; }
    assert Count(cs[1..], p) == 1 by { assert cs[1..][1..] == cs[2..]; }
    assert cs[1..] == cs[0..][1..] && cs[0..] == cs;
  }

  /** The dashboard figures of the sample data, `now` being the time it was seeded. */
  lemma SampleStats(userId: string, now: int)
    ensures var s := StatsOf(SeedProjects(userId, now), SeedCustomers(userId, now), SeedCampaigns(userId, now), now);
            && s.projects == 4 && s.nearlyDone == 1 && s.avgProgress == 0.5875
            && s.customers == 7 && s.leads == 3 && s.opportunities == 2 && s.paying == 2
            && s.campaigns == 3
  {
    SampleProjectFigures(userId, now);
    SampleLeads(userId, now);
    SampleOpportunities(userId, now);
    SamplePaying(userId, now);
  }

  /** Right after seeding, generating insights yields Balanced Growth alone: progress averages
      about 59%, leads do not outnumber twice the opportunities, one project is past 80% and
      there are only seven customers. */
  lemma SeededUserGetsBalancedGrowth(db: Db, userId: string, now: int)
    requires ValidDb(db)
    ensures Kinds(UserStats(SeedUserData(db, userId, now).db, userId, now)) == [BalancedGrowth]
  {
    var d := SeedUserData(db, userId, now).db;
    SampleStats(userId, now);
    SampleKinds(UserStats(d, userId, now));
  }

  /** The rules on figures like the sample's. */
  lemma SampleKinds(s: Stats)
    requires s.projects == 4 && s.nearlyDone == 1 && s.avgProgress == 0.5875
    requires s.customers == 7 && s.leads == 3 && s.opportunities == 2 && s.paying == 2
    requires s.campaigns == 3
    ensures Kinds(s) == [BalancedGrowth]
  {
    assert PerformanceKinds(s) == [] && OpportunityKinds(s) == [] && SuggestionKinds(s) == [];
    assert TrendKinds(s) == [BalancedGrowth] && StarterKinds(s) == [];
  }

  /** After clearing a user's data the generator greets them with Getting Started alone. */
  lemma ClearedUserGetsStarted(db: Db, userId: string, now: int)
    requires ValidDb(db)
    ensures var d := ClearUserData(db, userId).db;
            var o := GenerateAIInsights(d, userId, now);
            && o.value == 1
            && Docs(Select(o.db.insights, InsightOwnerIs(userId)))
                 == [Insight(GettingStartedTitle, GettingStartedText, Suggestion, 9, userId, now, now)]
  {
    var d := ClearUserData(db, userId).db;
    NoOwnedRows(d.projects, ProjectOwnerIs(userId), (p: Project) => p.userId, userId);
    NoOwnedRows(d.customers, CustomerOwnerIs(userId), (c: Customer) => c.userId, userId);
    NoOwnedRows(d.campaigns, CampaignOwnerIs(userId), (c: Campaign) => c.userId, userId);
    NewUserGetsStarted(d, userId, now);
  }

  /** A table whose scan for the owner is empty holds no row of that owner. */
  lemma {:induction false} NoOwnedRows<T>(t: Table<T>, p: T -> bool, owner: T -> string, userId: string)
    requires forall x :: p(x) <==> owner(x) == userId
    requires Select(t, p) == []
    ensures forall row :: row in t.rows ==> owner(row.doc) != userId
  {
    forall row | row in t.rows
      ensures owner(row.doc) != userId
    {
      var i :| 0 <= i < |t.rows| && t.rows[i] == row;
      assert !DocHolds(p)(t.rows[i]);
    }
  }

  /** Clearing right after seeding deletes the sample rows and whatever insights the user had:
      seeding leaves insights alone. */
  lemma ClearAfterSeed(db: Db, userId: string, now: int)
    requires ValidDb(db)
    ensures ClearUserData(SeedUserData(db, userId, now).db, userId).value
              == Deleted(4, 7, 3, |Select(db.insights, InsightOwnerIs(userId))|)
  {
  }
}

=== FILE: seqs.dfy ===
/** Sequence helpers shared by the backend handlers and the page logic: the
    JavaScript array operations `filter`, `find`, `slice`, `reverse` and
    `Array.from(new Set(..))`, each with the facts the rest of the model needs. */
module Seqs {
  import opened Common

  /** `a` is an order-preserving subsequence of `b`: `a` is `b` with some elements dropped. */
  ghost predicate IsSubsequence<T>(a: seq<T>, b: seq<T>)
    decreases |b|
  {
    || a == []
    || (b != [] && ((a[0] == b[0] && IsSubsequence(a[1..], b[1..])) || IsSubsequence(a, b[1..])))
  }

  /** No element occurs twice. */
  ghost predicate NoDuplicates<T>(s: seq<T>) {
    forall i, j :: 0 <= i < j < |s| ==> s[i] != s[j]
  }

  /** `Array.prototype.filter`: the elements of `s` that satisfy `p`, in their order. */
  function Filter<T>(s: seq<T>, p: T -> bool): (r: seq<T>)
    ensures |r| <= |s|
    ensures forall i :: 0 <= i < |r| ==> r[i] in s && p(r[i])
    ensures forall i :: 0 <= i < |s| && p(s[i]) ==> s[i] in r
  {
    if s == [] then []
    else if p(s[0]) then [s[0]] + Filter(s[1..], p)
    else Filter(s[1..], p)
  }

  /** `Array.prototype.map`: `f` applied to each element of `s`, in place. */
  function Map<A, B>(s: seq<A>, f: A -> B): (r: seq<B>)
    ensures |r| == |s|
  {
    if s == [] then [] else [f(s[0])] + Map(s[1..], f)
  }

  /** Each element of a mapped sequence is `f` of the element in its place. */
  lemma {:induction false} MapAt<A, B>(s: seq<A>, f: A -> B)
    ensures forall i :: 0 <= i < |s| ==> Map(s, f)[i] == f(s[i])
  {
    if s != [] {
      MapAt(s[1..], f);
      assert forall i :: 1 <= i < |s| ==> s[1..][i - 1] == s[i];
    }
  }

  /** The number of elements of `s` that satisfy `p`. */
  function Count<T>(s: seq<T>, p: T -> bool): nat {
    |Filter(s, p)|
  }

  /** Elements satisfying `p` or `q`. */
  function Either<T>(p: T -> bool, q: T -> bool): T -> bool {
    (x: T) => p(x) || q(x)
  }

  /** Counting by a weaker predicate counts at least as many. */
  lemma {:induction false} CountImplies<T>(s: seq<T>, p: T -> bool, q: T -> bool)
    requires forall i :: 0 <= i < |s| ==> p(s[i]) ==> q(s[i])
    ensures Count(s, p) <= Count(s, q)
  {
    if s != [] {
      CountImplies(s[1..], p, q);
    }
  }

  /** Two predicates no element satisfies both of count, together, the elements satisfying either. */
  lemma {:induction false} CountDisjoint<T>(s: seq<T>, p: T -> bool, q: T -> bool)
    requires forall i :: 0 <= i < |s| ==> !(p(s[i]) && q(s[i]))
    ensures Count(s, p) + Count(s, q) == Count(s, Either(p, q))
  {
    if s != [] {
      CountDisjoint(s[1..], p, q);
    }
  }

  /** `reduce((acc, x) => acc + f(x), 0)` over JavaScript numbers, taken as exact fractions. */
  function SumReal<T>(s: seq<T>, f: T -> real): real {
    if s == [] then 0.0 else f(s[0]) + SumReal(s[1..], f)
  }

  /** Summing a pointwise smaller term gives a smaller sum. */
  lemma {:induction false} SumMonotone<T>(s: seq<T>, f: T -> real, g: T -> real)
    requires forall i :: 0 <= i < |s| ==> f(s[i]) <= g(s[i])
    ensures SumReal(s, f) <= SumReal(s, g)
  {
    if s != [] {
      SumMonotone(s[1..], f, g);
    }
  }

  /** A sum of terms between `lo` and `hi` lies between `|s| * lo` and `|s| * hi`. */
  lemma {:induction false} SumRealBounds<T>(s: seq<T>, f: T -> real, lo: real, hi: real)
    requires forall i :: 0 <= i < |s| ==> lo <= f(s[i]) <= hi
    ensures (|s| as real) * lo <= SumReal(s, f) <= (|s| as real) * hi
  {
    if s != [] {
      SumRealBounds(s[1..], f, lo, hi);
      assert (|s| as real) * lo == lo + (|s[1..]| as real) * lo;
      assert (|s| as real) * hi == hi + (|s[1..]| as real) * hi;
    }
  }

  lemma {:induction false} FilterIsSubsequence<T>(s: seq<T>, p: T -> bool)
    ensures IsSubsequence(Filter(s, p), s)
  {
    if s != [] {
      FilterIsSubsequence(s[1..], p);
      if p(s[0]) {
        assert Filter(s, p)[1..] == Filter(s[1..], p);
      } else {
        var r := Filter(s, p);
        if r != [] {
          assert IsSubsequence(r, s[1..]);
        }
      }
    }
  }

  lemma {:induction false} FilterAppend<T>(a: seq<T>, b: seq<T>, p: T -> bool)
    ensures Filter(a + b, p) == Filter(a, p) + Filter(b, p)
  {
    if a == [] {
      assert a + b == b;
    } else {
      assert (a + b)[0] == a[0];
      assert (a + b)[1..] == a[1..] + b;
      FilterAppend(a[1..], b, p);
    }
  }

  /** Filtering keeps everything when every element passes. */
  lemma {:induction false} FilterKeepsAll<T>(s: seq<T>, p: T -> bool)
    requires forall i :: 0 <= i < |s| ==> p(s[i])
    ensures Filter(s, p) == s
  {
    if s != [] {
      FilterKeepsAll(s[1..], p);
    }
  }

  /** Filtering keeps nothing when no element passes. */
  lemma {:induction false} FilterKeepsNone<T>(s: seq<T>, p: T -> bool)
    requires forall i :: 0 <= i < |s| ==> !p(s[i])
    ensures Filter(s, p) == []
  {
    if s != [] {
      FilterKeepsNone(s[1..], p);
    }
  }

  /** Filtering twice is filtering once by the conjunction. */
  lemma {:induction false} FilterFilter<T>(s: seq<T>, p: T -> bool, q: T -> bool)
    ensures Filter(Filter(s, q), p) == Filter(s, x => q(x) && p(x))
  {
    if s != [] {
      FilterFilter(s[1..], p, q);
    }
  }

  /** Filtering by a predicate that agrees with another on the elements gives the same result. */
  lemma {:induction false} FilterCongruent<T>(s: seq<T>, p: T -> bool, q: T -> bool)
    requires forall i :: 0 <= i < |s| ==> p(s[i]) == q(s[i])
    ensures Filter(s, p) == Filter(s, q)
  {
    if s != [] {
      FilterCongruent(s[1..], p, q);
    }
  }

  /** `Array.prototype.find`: the first element satisfying `p`. */
  function Find<T>(s: seq<T>, p: T -> bool): (r: Option<T>)
    ensures r.None? <==> forall i :: 0 <= i < |s| ==> !p(s[i])
    ensures r.Some? ==> exists i :: 0 <= i < |s| && s[i] == r.value && p(s[i])
                          && forall j :: 0 <= j < i ==> !p(s[j])
  {
    if s == [] then None
    else if p(s[0]) then Some(s[0])
    else
      var r := Find(s[1..], p);
      assert r.Some? ==> exists i :: 1 <= i < |s| && s[i] == r.value && p(s[i])
                           && forall j :: 1 <= j < i ==> !p(s[j]);
      r
  }

  /** `Find` returns the element at the first position that satisfies `p`. */
  lemma FindAt<T>(s: seq<T>, p: T -> bool, k: int)
    requires 0 <= k < |s| && p(s[k])
    requires forall j :: 0 <= j < k ==> !p(s[j])
    ensures Find(s, p) == Some(s[k])
  {
    var r := Find(s, p);
    var i :| 0 <= i < |s| && s[i] == r.value && p(s[i]) && forall j :: 0 <= j < i ==> !p(s[j]);
    assert i == k;
  }

  /** `Array.prototype.reverse` on a copy. */
  function Reverse<T>(s: seq<T>): (r: seq<T>)
    ensures |r| == |s|
    ensures forall i :: 0 <= i < |s| ==> r[i] == s[|s| - 1 - i]
  {
    if s == [] then [] else Reverse(s[1..]) + [s[0]]
  }

  /** Reversing keeps the elements: each element of `s` is in its reverse and back. */
  lemma ReverseMembers<T>(s: seq<T>)
    ensures forall i :: 0 <= i < |s| ==> s[i] in Reverse(s)
    ensures forall i :: 0 <= i < |s| ==> Reverse(s)[i] in s
  {
    var r := Reverse(s);
    forall i | 0 <= i < |s|
      ensures s[i] in r
    {
      assert r[|s| - 1 - i] == s[i];
    }
  }

  /** `slice(0, n)` for `n >= 0`, and the query builder's `take(n)`. */
  function Take<T>(s: seq<T>, n: nat): (r: seq<T>)
    ensures |r| == if n < |s| then n else |s|
    ensures r == s[..|r|]
  {
    if n < |s| then s[..n] else s
  }

  /** `Array.from(new Set(s))`: the distinct elements of `s` in order of first occurrence. */
  function Distinct<T(==)>(s: seq<T>): (r: seq<T>)
    ensures forall i :: 0 <= i < |r| ==> r[i] in s
    ensures forall i :: 0 <= i < |s| ==> s[i] in r
    ensures NoDuplicates(r)
    ensures |r| <= |s|
  {
    if s == [] then []
    else
      var rest := Distinct(s[..|s| - 1]);
      assert s == s[..|s| - 1] + [s[|s| - 1]];
      if s[|s| - 1] in rest then rest else rest + [s[|s| - 1]]
  }

  /** The position of the first occurrence of `x` in `s`. */
  function FirstIndex<T(==)>(s: seq<T>, x: T): (r: nat)
    requires x in s
    ensures r < |s| && s[r] == x
    ensures forall j :: 0 <= j < r ==> s[j] != x
  {
    if s[0] == x then 0
    else
      assert forall j :: 1 <= j < |s| ==> s[j] == s[1..][j - 1];
      1 + FirstIndex(s[1..], x)
  }

  /** An element already in `s` is first met where it was before `s` was extended. */
  lemma FirstIndexExtend<T>(s: seq<T>, y: T, x: T)
    requires x in s
    ensures FirstIndex(s + [y], x) == FirstIndex(s, x)
  {
    var k := FirstIndex(s, x);
    assert (s + [y])[k] == x;
  }

  /** `Distinct` lists the elements in the order of their first occurrence in `s`. */
  lemma {:induction false} DistinctFirstOrder<T>(s: seq<T>)
    ensures forall i, j :: 0 <= i < j < |Distinct(s)| ==>
              FirstIndex(s, Distinct(s)[i]) < FirstIndex(s, Distinct(s)[j])
  {
    if s != [] {
      var init, last := s[..|s| - 1], s[|s| - 1];
      assert s == init + [last];
      var rest := Distinct(init);
      var r := Distinct(s);
      DistinctFirstOrder(init);
      forall i | 0 <= i < |rest|
        ensures FirstIndex(s, rest[i]) == FirstIndex(init, rest[i])
      {
        FirstIndexExtend(init, last, rest[i]);
      }
      if last !in rest {
        assert last !in init;
        assert FirstIndex(s, last) == |s| - 1;
        assert r == rest + [last];
        forall i, j | 0 <= i < j < |r|
          ensures FirstIndex(s, r[i]) < FirstIndex(s, r[j])
        {
          if j < |rest| {
            assert r[i] == rest[i] && r[j] == rest[j];
          } else {
            assert r[i] == rest[i] && r[j] == last;
          }
        }
      }
    }
  }

  /** `Distinct` keeps the first occurrence of each element, so the order of first appearance is kept. */
  lemma {:induction false} DistinctIsSubsequence<T>(s: seq<T>)
    ensures IsSubsequence(Distinct(s), s)
  {
    if s != [] {
      var init := s[..|s| - 1];
      DistinctIsSubsequence(init);
      if s[|s| - 1] !in Distinct(init) {
        SubsequenceAppend(Distinct(init), init, s[|s| - 1]);
        assert init + [s[|s| - 1]] == s;
      } else {
        SubsequenceExtend(Distinct(init), init, s[|s| - 1]);
        assert init + [s[|s| - 1]] == s;
      }
    }
  }

  lemma {:induction false} SubsequenceAppend<T>(a: seq<T>, b: seq<T>, x: T)
    requires IsSubsequence(a, b)
    ensures IsSubsequence(a + [x], b + [x])
    decreases |b|
  {
    if a == [] {
      if b == [] {
        assert IsSubsequence(([] + [x])[1..], ([] + [x])[1..]);
      } else {
        SubsequenceAppend(a, b[1..], x);
        assert (b + [x])[1..] == b[1..] + [x];
      }
    } else {
      assert (a + [x])[1..] == a[1..] + [x];
      assert (b + [x])[1..] == b[1..] + [x];
      if a[0] == b[0] && IsSubsequence(a[1..], b[1..]) {
        SubsequenceAppend(a[1..], b[1..], x);
      } else {
        SubsequenceAppend(a, b[1..], x);
      }
    }
  }

  lemma {:induction false} SubsequenceExtend<T>(a: seq<T>, b: seq<T>, x: T)
    requires IsSubsequence(a, b)
    ensures IsSubsequence(a, b + [x])
    decreases |b|
  {
    if a != [] {
      assert (b + [x])[1..] == b[1..] + [x];
      if a[0] == b[0] && IsSubsequence(a[1..], b[1..]) {
        SubsequenceExtend(a[1..], b[1..], x);
      } else {
        SubsequenceExtend(a, b[1..], x);
      }
    }
  }
}

=== FILE: strings.dfy ===
/** String helpers: the JavaScript string operations the handlers use
    (`split("/").pop()`, `toLowerCase`, `toUpperCase`, `includes`) and
    decimal rendering of numbers inside template literals. Case conversion
    covers the ASCII letters only. */
module Strings {

  /** `s.split("/").pop()`: the text after the last '/', or all of `s` when it has none. */
  function LastSegment(s: string): (r: string)
    ensures |r| <= |s| && s[|s| - |r|..] == r
    ensures '/' !in r
    ensures |r| < |s| ==> s[|s| - |r| - 1] == '/'
  {
    if s == [] then []
    else if s[|s| - 1] == '/' then []
    else
      var r := LastSegment(s[..|s| - 1]);
      assert s[..|s| - 1][|s| - 1 - |r|..] == s[|s| - 1 - |r|..|s| - 1];
      r + [s[|s| - 1]]
  }

  /** `url.split("/").pop() || fallback`: the last path segment, or the fallback when it is empty. */
  function SegmentOr(url: string, fallback: string): (r: string)
    ensures r == fallback || (r != [] && '/' !in r && |r| <= |url| && url[|url| - |r|..] == r)
    ensures r == fallback <==> LastSegment(url) == [] || LastSegment(url) == fallback
  {
    var seg := LastSegment(url);
    if seg == [] then fallback else seg
  }

  /** Appending "/" and a segment without '/' makes that segment the last one. */
  lemma SegmentAfterSlash(prefix: string, seg: string)
    requires '/' !in seg
    ensures LastSegment(prefix + "/" + seg) == seg
  {
    var s := prefix + "/" + seg;
    var r := LastSegment(s);
    assert s[|s| - |seg|..] == seg;
    assert s[|s| - |seg| - 1] == '/';
    if |r| > |seg| {
      assert false;
    } else if |r| < |seg| {
      assert false;
    }
  }

  /** The ASCII distance between a capital letter and its small letter. */
  const CaseShift: int := 'a' as int - 'A' as int

  /** A capital ASCII letter becomes its small letter; every other character stays. */
  function LowerChar(c: char): (r: char)
    ensures 'A' <= c <= 'Z' ==> 'a' <= r <= 'z' && r as int == c as int + CaseShift
    ensures !('A' <= c <= 'Z') ==> r == c
  {
    if 'A' <= c <= 'Z' then (c as int - 'A' as int + 'a' as int) as char else c
  }

  /** A small ASCII letter becomes its capital letter; every other character stays. */
  function UpperChar(c: char): (r: char)
    ensures 'a' <= c <= 'z' ==> 'A' <= r <= 'Z' && r as int == c as int - CaseShift
    ensures !('a' <= c <= 'z') ==> r == c
  {
    if 'a' <= c <= 'z' then (c as int - 'a' as int + 'A' as int) as char else c
  }

  /** Lower-casing a letter and upper-casing it again gives the letter back, and the other way
      round. */
  lemma CaseRoundTrip(c: char)
    ensures 'A' <= c <= 'Z' ==> UpperChar(LowerChar(c)) == c
    ensures 'a' <= c <= 'z' ==> LowerChar(UpperChar(c)) == c
  {
  }

  /** `s.toLowerCase()` on ASCII letters. */
  function Lower(s: string): (r: string)
    ensures |r| == |s|
    ensures forall i :: 0 <= i < |s| ==> r[i] == LowerChar(s[i])
  {
    if s == [] then [] else [LowerChar(s[0])] + Lower(s[1..])
  }

  /** Lower-casing is idempotent: a lower-cased text has no upper-case letter left. */
  lemma LowerIdempotent(s: string)
    ensures Lower(Lower(s)) == Lower(s)
  {
    var l := Lower(s);
    assert forall i :: 0 <= i < |l| ==> !('A' <= l[i] <= 'Z');
  }

  /** `s.charAt(0).toUpperCase() + s.slice(1)`. */
  function Capitalize(s: string): (r: string)
    ensures |r| == |s|
    ensures s != [] ==> r[0] == UpperChar(s[0]) && r[1..] == s[1..]
  {
    if s == [] then "" else [UpperChar(s[0])] + s[1..]
  }

  /** `s.includes(t)`, computed by scanning. */
  predicate Contains(s: string, t: string)
    decreases |s|
  {
    (|t| <= |s| && s[..|t|] == t) || (s != [] && Contains(s[1..], t))
  }

  /** `t` occurs in `s` starting at position `i`. */
  ghost predicate OccursAt(s: string, t: string, i: int) {
    0 <= i <= |s| - |t| && s[i..i + |t|] == t
  }

  /** `Contains` holds exactly when `t` occurs in `s` at some position. */
  lemma ContainsIsOccurrence(s: string, t: string)
    ensures Contains(s, t) <==> exists i :: OccursAt(s, t, i)
  {
    if Contains(s, t) {
      ContainsGivesOccurrence(s, t);
    }
    if exists i :: OccursAt(s, t, i) {
      var i :| OccursAt(s, t, i);
      OccurrenceGivesContains(s, t, i);
    }
  }

  lemma {:induction false} ContainsGivesOccurrence(s: string, t: string)
    requires Contains(s, t)
    ensures exists i :: OccursAt(s, t, i)
    decreases |s|
  {
    if |t| <= |s| && s[..|t|] == t {
      assert OccursAt(s, t, 0);
    } else {
      ContainsGivesOccurrence(s[1..], t);
      var i :| OccursAt(s[1..], t, i);
      assert s[1..][i..i + |t|] == s[i + 1..i + 1 + |t|];
      assert OccursAt(s, t, i + 1);
    }
  }

  lemma {:induction false} OccurrenceGivesContains(s: string, t: string, i: int)
    requires OccursAt(s, t, i)
    ensures Contains(s, t)
    decreases |s|
  {
    if i > 0 {
      assert s[1..][i - 1..i - 1 + |t|] == s[i..i + |t|];
      OccurrenceGivesContains(s[1..], t, i - 1);
    } else {
      assert s[..|t|] == s[0..|t|];
    }
  }

  /** Every text contains what it starts with. */
  lemma ContainsPrefix(s: string, t: string, rest: string)
    requires s == t + rest
    ensures Contains(s, t)
  {
    assert s[..|t|] == t;
  }

  predicate IsDigit(c: char) {
    '0' <= c <= '9'
  }

  function DigitChar(d: nat): (c: char)
    requires d < 10
    ensures IsDigit(c)
  {
    ('0' as int + d) as char
  }

  function DigitValue(c: char): nat
    requires IsDigit(c)
  {
    c as int - '0' as int
  }

  /** The decimal rendering of a natural number, as a template literal prints it. */
  function NatToString(n: nat): (r: string)
    ensures |r| >= 1
    ensures forall i :: 0 <= i < |r| ==> IsDigit(r[i])
    ensures |r| > 1 ==> r[0] != '0'
  {
    if n < 10 then [DigitChar(n)] else NatToString(n / 10) + [DigitChar(n % 10)]
  }

  /** Reads back a string of decimal digits. */
  function ParseDigits(s: string): nat
    requires forall i :: 0 <= i < |s| ==> IsDigit(s[i])
  {
    if s == [] then 0 else 10 * ParseDigits(s[..|s| - 1]) + DigitValue(s[|s| - 1])
  }

  /** Reading back the rendering of `n` gives `n`. */
  lemma {:induction false} ParseNatToString(n: nat)
    ensures ParseDigits(NatToString(n)) == n
  {
    if n >= 10 {
      ParseNatToString(n / 10);
      var r := NatToString(n);
      assert r[..|r| - 1] == NatToString(n / 10);
    }
  }

  /** Distinct numbers render differently. */
  lemma NatToStringInjective(a: nat, b: nat)
    requires NatToString(a) == NatToString(b)
    ensures a == b
  {
    ParseNatToString(a);
    ParseNatToString(b);
  }

  /** The decimal rendering of an integer, with a leading '-' when negative. */
  function IntToString(n: int): (r: string)
    ensures |r| >= 1 && (n < 0 <==> r[0] == '-')
    ensures n >= 0 ==> (forall i :: 0 <= i < |r| ==> IsDigit(r[i])) && ParseDigits(r) == n
    ensures n < 0 ==> (forall i :: 1 <= i < |r| ==> IsDigit(r[i])) && ParseDigits(r[1..]) == -n
  {
    if n < 0 then
      ParseNatToString(-n);
      assert ("-" + NatToString(-n))[1..] == NatToString(-n);
      "-" + NatToString(-n)
    else
      ParseNatToString(n);
      NatToString(n)
  }
}

=== FILE: tables.dfy ===
/** A document table of the backend: rows in creation order, each with an id
    drawn from a counter that only grows. The handlers see a table through
    `insert`, `patch`, `delete`, `get` and filtered or indexed scans; an index
    scan with an equality on one field returns the matching rows in creation
    order, which is why a scan is modelled as a filter over the row sequence. */
module Tables {
  import opened Common
  import opened Seqs

  datatype Row<T> = Row(id: nat, doc: T)

  datatype Table<T> = Table(rows: seq<Row<T>>, next: nat)

  function EmptyTable<T>(): Table<T> {
    Table([], 0)
  }

  /** Ids strictly increase along the rows and stay below the counter. */
  predicate Valid<T>(t: Table<T>) {
    && (forall i, j :: 0 <= i < j < |t.rows| ==> t.rows[i].id < t.rows[j].id)
    && (forall i :: 0 <= i < |t.rows| ==> t.rows[i].id < t.next)
  }

  predicate HasId<T>(t: Table<T>, id: nat) {
    exists i :: 0 <= i < |t.rows| && t.rows[i].id == id
  }

  function Docs<T>(rows: seq<Row<T>>): (r: seq<T>)
    ensures |r| == |rows|
    ensures forall i :: 0 <= i < |rows| ==> r[i] == rows[i].doc
  {
    if rows == [] then [] else [rows[0].doc] + Docs(rows[1..])
  }

  lemma DocsAppend<T>(a: seq<Row<T>>, b: seq<Row<T>>)
    ensures Docs(a + b) == Docs(a) + Docs(b)
  {
  }

  /** `db.get(id)`: the document with that id, or null. */
  function Get<T>(t: Table<T>, id: nat): (r: Option<T>)
    ensures r.None? <==> !HasId(t, id)
    ensures r.Some? ==> Row(id, r.value) in t.rows
  {
    match Find(t.rows, (row: Row<T>) => row.id == id)
    case None => None
    case Some(row) => Some(row.doc)
  }

  /** In a valid table an id names one row, so `Get` returns that row's document. */
  lemma GetRow<T>(t: Table<T>, k: int)
    requires Valid(t)
    requires 0 <= k < |t.rows|
    ensures Get(t, t.rows[k].id) == Some(t.rows[k].doc)
  {
  }

  /** `db.insert(doc)`: appends a row with a fresh id and returns the id. */
  function Insert<T>(t: Table<T>, doc: T): (r: (nat, Table<T>))
    ensures Valid(t) ==> Valid(r.1) && !HasId(t, r.0)
    ensures |r.1.rows| == |t.rows| + 1 && r.1.rows[..|t.rows|] == t.rows
    ensures r.1.rows[|t.rows|] == Row(r.0, doc)
    ensures r.1.next > r.0
  {
    (t.next, Table(t.rows + [Row(t.next, doc)], t.next + 1))
  }

  /** Inserting `docs` one after the other, collecting the ids in order. */
  function InsertAll<T>(t: Table<T>, docs: seq<T>): (r: (seq<nat>, Table<T>))
    ensures Valid(t) ==> Valid(r.1)
    ensures |r.0| == |docs|
    ensures |r.1.rows| == |t.rows| + |docs| && r.1.rows[..|t.rows|] == t.rows
    ensures forall i :: 0 <= i < |docs| ==> r.1.rows[|t.rows| + i] == Row(r.0[i], docs[i])
    ensures forall i :: 0 <= i < |docs| ==> t.next <= r.0[i]
    ensures forall i, j :: 0 <= i < j < |docs| ==> r.0[i] < r.0[j]
    decreases |docs|
  {
    if docs == [] then ([], t)
    else
      var (id, t1) := Insert(t, docs[0]);
      var (ids, t2) := InsertAll(t1, docs[1..]);
      assert t2.rows[..|t.rows|] == t1.rows[..|t.rows|];
      ([id] + ids, t2)
  }

  /** The documents a batch insert appends are exactly the batch. */
  lemma InsertAllDocs<T>(t: Table<T>, docs: seq<T>)
    ensures Docs(InsertAll(t, docs).1.rows) == Docs(t.rows) + docs
  {
    var t2 := InsertAll(t, docs).1;
    assert t2.rows == t.rows + t2.rows[|t.rows|..];
    DocsAppend(t.rows, t2.rows[|t.rows|..]);
  }

  /** `db.patch(id, ..)` / `db.replace(id, ..)`: the row keeps its id and place;
      an id with no document is the runtime's error. */
  function Replace<T>(t: Table<T>, id: nat, doc: T): (r: Result<Table<T>>)
    ensures r.Err? <==> !HasId(t, id)
    ensures r.Err? ==> r.error == MissingDocument
    ensures r.Ok? ==> |r.value.rows| == |t.rows| && r.value.next == t.next
    ensures r.Ok? ==> forall i :: 0 <= i < |t.rows| ==>
              r.value.rows[i] == if t.rows[i].id == id then Row(id, doc) else t.rows[i]
    ensures r.Ok? && Valid(t) ==> Valid(r.value)
  {
    if !HasId(t, id) then Err(MissingDocument)
    else Ok(Table(ReplaceRows(t.rows, id, doc), t.next))
  }

  function ReplaceRows<T>(rows: seq<Row<T>>, id: nat, doc: T): (r: seq<Row<T>>)
    ensures |r| == |rows|
    ensures forall i :: 0 <= i < |rows| ==> r[i] == if rows[i].id == id then Row(id, doc) else rows[i]
  {
    if rows == [] then []
    else [if rows[0].id == id then Row(id, doc) else rows[0]] + ReplaceRows(rows[1..], id, doc)
  }

  /** Rows whose id differs from `id`. */
  function OtherId<T>(id: nat): Row<T> -> bool {
    (row: Row<T>) => row.id != id
  }

  /** `db.delete(id)`: removes that row; an id with no document is the runtime's error. */
  function Delete<T>(t: Table<T>, id: nat): (r: Result<Table<T>>)
    ensures r.Err? <==> !HasId(t, id)
    ensures r.Err? ==> r.error == MissingDocument
    ensures r.Ok? ==> !HasId(r.value, id)
    ensures r.Ok? ==> forall row :: row in t.rows && row.id != id ==> row in r.value.rows
    ensures r.Ok? ==> forall row :: row in r.value.rows ==> row in t.rows
    ensures r.Ok? && Valid(t) ==> Valid(r.value) && |r.value.rows| == |t.rows| - 1
  {
    if !HasId(t, id) then Err(MissingDocument)
    else
      var kept := Filter(t.rows, OtherId(id));
      if Valid(t) then
        DeleteOneRow(t.rows, id);
        FilterIsSubsequence(t.rows, OtherId(id));
        SubsequenceOfIncreasing(kept, t.rows);
        Ok(Table(kept, t.next))
      else Ok(Table(kept, t.next))
  }

  /** Ids strictly increase along the rows. */
  predicate Increasing<T>(rows: seq<Row<T>>) {
    forall i, j :: 0 <= i < j < |rows| ==> rows[i].id < rows[j].id
  }

  lemma {:induction false} DeleteOneRow<T>(rows: seq<Row<T>>, id: nat)
    requires Increasing(rows)
    requires exists i :: 0 <= i < |rows| && rows[i].id == id
    ensures |Filter(rows, OtherId(id))| == |rows| - 1
  {
    if rows[0].id == id {
      assert forall i :: 0 <= i < |rows[1..]| ==> rows[1..][i].id != id;
      FilterKeepsAll(rows[1..], OtherId(id));
    } else {
      assert exists i :: 0 <= i < |rows[1..]| && rows[1..][i].id == id;
      DeleteOneRow(rows[1..], id);
    }
  }

  lemma {:induction false} SubsequenceOfIncreasing<T>(a: seq<Row<T>>, b: seq<Row<T>>)
    requires IsSubsequence(a, b) && Increasing(b)
    ensures Increasing(a)
    ensures forall i :: 0 <= i < |a| ==> a[i] in b
    decreases |b|
  {
    if a != [] {
      if a[0] == b[0] && IsSubsequence(a[1..], b[1..]) {
        SubsequenceOfIncreasing(a[1..], b[1..]);
        forall j | 0 < j < |a|
          ensures a[0].id < a[j].id
        {
          assert a[1..][j - 1] in b[1..];
        }
      } else {
        SubsequenceOfIncreasing(a, b[1..]);
      }
    }
  }

  /** `.order("desc").take(n)` over rows in creation order: the first `n` of the reverse are
      the newest rows, newest first, and every row left out is older than all of them. */
  lemma NewestFirst<T>(s: seq<Row<T>>, n: nat)
    requires Increasing(s)
    ensures var r := Take(Reverse(s), n);
            && (forall i :: 0 <= i < |r| ==> r[i] == s[|s| - 1 - i])
            && (forall i, j :: 0 <= i < j < |r| ==> r[i].id > r[j].id)
            && (forall x :: x in s && x !in r ==> |r| == n && forall j :: 0 <= j < |r| ==> r[j].id > x.id)
  {
    var rev := Reverse(s);
    var r := Take(rev, n);
    forall i | 0 <= i < |r|
      ensures r[i] == s[|s| - 1 - i]
    {
      assert r[i] == rev[i];
    }
    forall i, j | 0 <= i < j < |r|
      ensures r[i].id > r[j].id
    {
      assert r[i] == s[|s| - 1 - i] && r[j] == s[|s| - 1 - j];
    }
    forall m | 0 <= m < |s| && |s| - 1 - m < |r|
      ensures s[m] in r
    {
      assert r[|s| - 1 - m] == s[m];
    }
    forall x | x in s && x !in r
      ensures |r| == n && forall j :: 0 <= j < |r| ==> r[j].id > x.id
    {
      var m :| 0 <= m < |s| && s[m] == x;
      assert |s| - 1 - m >= |r|;
      forall j | 0 <= j < |r|
        ensures r[j].id > x.id
      {
        assert r[j] == s[|s| - 1 - j];
      }
    }
  }

  /** Rows whose document does not satisfy `p`. */
  function DocFails<T>(p: T -> bool): Row<T> -> bool {
    (row: Row<T>) => !p(row.doc)
  }

  /** Rows whose document satisfies `p`. */
  function DocHolds<T>(p: T -> bool): Row<T> -> bool {
    (row: Row<T>) => p(row.doc)
  }

  /** A filtered scan: the rows whose document satisfies `p`, in creation order. */
  function Select<T>(t: Table<T>, p: T -> bool): (r: seq<Row<T>>)
    ensures forall i :: 0 <= i < |r| ==> r[i] in t.rows && p(r[i].doc)
    ensures forall i :: 0 <= i < |t.rows| && p(t.rows[i].doc) ==> t.rows[i] in r
  {
    Filter(t.rows, DocHolds(p))
  }

  /** The first row (in creation order) whose document satisfies `p`: an index scan's `.first()`. */
  function First<T>(t: Table<T>, p: T -> bool): (r: Option<Row<T>>)
    ensures r.None? <==> forall i :: 0 <= i < |t.rows| ==> !p(t.rows[i].doc)
    ensures r.Some? ==> exists k :: 0 <= k < |t.rows| && t.rows[k] == r.value && p(r.value.doc)
                          && forall j :: 0 <= j < k ==> !p(t.rows[j].doc)
  {
    Find(t.rows, DocHolds(p))
  }

  /** `First` finds the row at the first position whose document satisfies `p`. */
  lemma FirstAt<T>(t: Table<T>, p: T -> bool, k: int)
    requires 0 <= k < |t.rows| && p(t.rows[k].doc)
    requires forall j :: 0 <= j < k ==> !p(t.rows[j].doc)
    ensures First(t, p) == Some(t.rows[k])
  {
    FindAt(t.rows, DocHolds(p), k);
  }

  /** Patching the row at position `k` leaves every other row of a valid table as it was. */
  lemma ReplaceAt<T>(t: Table<T>, k: int, doc: T)
    requires Valid(t) && 0 <= k < |t.rows|
    ensures var r := Replace(t, t.rows[k].id, doc);
            && r.Ok? && Valid(r.value)
            && |r.value.rows| == |t.rows|
            && r.value.rows[k] == Row(t.rows[k].id, doc)
            && forall i :: 0 <= i < |t.rows| && i != k ==> r.value.rows[i] == t.rows[i]
  {
    var t1 := Replace(t, t.rows[k].id, doc).value;
    forall i | 0 <= i < |t.rows| && i != k
      ensures t1.rows[i] == t.rows[i]
    {
      if i < k {
        assert t.rows[i].id < t.rows[k].id;
      } else {
        assert t.rows[k].id < t.rows[i].id;
      }
    }
  }

  /** Patching the first row matching `p` with a document that still matches `p`: the
      patched row stays the first match and every other row is unchanged. */
  lemma ReplaceFirst<T>(t: Table<T>, p: T -> bool, doc: T)
    requires Valid(t) && First(t, p).Some? && p(doc)
    ensures var row := First(t, p).value;
            var r := Replace(t, row.id, doc);
            && r.Ok? && Valid(r.value)
            && |r.value.rows| == |t.rows|
            && First(r.value, p) == Some(Row(row.id, doc))
            && forall i :: 0 <= i < |t.rows| && t.rows[i] != row ==> r.value.rows[i] == t.rows[i]
  {
    var row := First(t, p).value;
    var k :| 0 <= k < |t.rows| && t.rows[k] == row && forall j :: 0 <= j < k ==> !p(t.rows[j].doc);
    ReplaceAt(t, k, doc);
    var t1 := Replace(t, row.id, doc).value;
    assert forall j :: 0 <= j < k ==> t1.rows[j] == t.rows[j];
    FirstAt(t1, p, k);
    forall i | 0 <= i < |t.rows| && t.rows[i] != row
      ensures t1.rows[i] == t.rows[i]
    {
      assert i != k;
    }
  }

  /** A change that keeps every old row's verdict under `p`, leaves the matching rows as they
      were and appends only rows that do not match, leaves the first match where it was. */
  lemma FirstKept<T>(t: Table<T>, r: Table<T>, p: T -> bool)
    requires |t.rows| <= |r.rows|
    requires forall i :: 0 <= i < |t.rows| ==> p(r.rows[i].doc) == p(t.rows[i].doc)
    requires forall i :: 0 <= i < |t.rows| && p(t.rows[i].doc) ==> r.rows[i] == t.rows[i]
    requires forall i :: |t.rows| <= i < |r.rows| ==> !p(r.rows[i].doc)
    ensures First(r, p) == First(t, p)
  {
    match First(t, p)
    case None =>
    case Some(row) =>
      var k :| 0 <= k < |t.rows| && t.rows[k] == row && p(row.doc) && forall j :: 0 <= j < k ==> !p(t.rows[j].doc);
      FirstAt(r, p, k);
  }

  /** Deleting, one by one, every row a scan for `p` returned. */
  function DeleteWhere<T>(t: Table<T>, p: T -> bool): (r: Table<T>)
    ensures forall i :: 0 <= i < |r.rows| ==> r.rows[i] in t.rows && !p(r.rows[i].doc)
    ensures forall i :: 0 <= i < |t.rows| && !p(t.rows[i].doc) ==> t.rows[i] in r.rows
    ensures Valid(t) ==> Valid(r)
    ensures r.next == t.next
  {
    var kept := Filter(t.rows, DocFails(p));
    if Valid(t) then
      FilterIsSubsequence(t.rows, DocFails(p));
      SubsequenceOfIncreasing(kept, t.rows);
      Table(kept, t.next)
    else Table(kept, t.next)
  }

  /** `.filter(p).order("desc").take(n)`: at most `n` matching rows, newest first, and every
      matching row left out is older than all of them. */
  function SelectNewest<T>(t: Table<T>, p: T -> bool, n: nat): (r: seq<Row<T>>)
    requires Valid(t)
    ensures |r| <= n
    ensures forall i :: 0 <= i < |r| ==> r[i] in t.rows && p(r[i].doc)
    ensures forall i, j :: 0 <= i < j < |r| ==> r[i].id > r[j].id
    ensures forall k :: 0 <= k < |t.rows| && p(t.rows[k].doc) && t.rows[k] !in r ==>
              |r| == n && forall j :: 0 <= j < |r| ==> r[j].id > t.rows[k].id
  {
    NewestMatch(t, p, n);
    NewestLeaveOlderOut(t, p, n);
    Take(Reverse(Select(t, p)), n)
  }

  /** The newest `n` matches are matches of `t`, newest first. */
  lemma NewestMatch<T>(t: Table<T>, p: T -> bool, n: nat)
    requires Valid(t)
    ensures var r := Take(Reverse(Select(t, p)), n);
            && (forall i :: 0 <= i < |r| ==> r[i] in t.rows && p(r[i].doc))
            && (forall i, j :: 0 <= i < j < |r| ==> r[i].id > r[j].id)
  {
    var s := Select(t, p);
    FilterIsSubsequence(t.rows, DocHolds(p));
    SubsequenceOfIncreasing(s, t.rows);
    NewestFirst(s, n);
    var r := Take(Reverse(s), n);
    forall i | 0 <= i < |r|
      ensures r[i] in t.rows && p(r[i].doc)
    {
      var j := |s| - 1 - i;
      assert s[j] in t.rows && p(s[j].doc);
    }
  }

  /** A match left out of the newest `n` is older than every one of them, and only when there
      are `n` of them. */
  lemma NewestLeaveOlderOut<T>(t: Table<T>, p: T -> bool, n: nat)
    requires Valid(t)
    ensures var r := Take(Reverse(Select(t, p)), n);
            forall k :: 0 <= k < |t.rows| && p(t.rows[k].doc) && t.rows[k] !in r ==>
              |r| == n && forall j :: 0 <= j < |r| ==> r[j].id > t.rows[k].id
  {
    var s := Select(t, p);
    FilterIsSubsequence(t.rows, DocHolds(p));
    SubsequenceOfIncreasing(s, t.rows);
    NewestFirst(s, n);
    var r := Take(Reverse(s), n);
    forall k | 0 <= k < |t.rows| && p(t.rows[k].doc) && t.rows[k] !in r
      ensures |r| == n && forall j :: 0 <= j < |r| ==> r[j].id > t.rows[k].id
    {
      assert t.rows[k] in s;
    }
  }

  /** The rows of `t` not matching `p` are all in `r`, and the rows of `r` not matching `p`
      all come from `t`. */
  predicate Unmatched<T(==)>(t: Table<T>, r: Table<T>, p: T -> bool) {
    && (forall i :: 0 <= i < |t.rows| && !p(t.rows[i].doc) ==> t.rows[i] in r.rows)
    && (forall i :: 0 <= i < |r.rows| && !p(r.rows[i].doc) ==> r.rows[i] in t.rows)
  }

  /** Deleting every row matching `p`, then inserting `docs`, all matching `p`: the matching
      documents are then exactly `docs`, and the other rows are kept. */
  function ReplaceWhere<T(==)>(t: Table<T>, p: T -> bool, docs: seq<T>): (r: Table<T>)
    requires Valid(t)
    requires forall i :: 0 <= i < |docs| ==> p(docs[i])
    ensures Valid(r)
    ensures Docs(Select(r, p)) == docs
    ensures Unmatched(t, r, p)
  {
    var cleared := DeleteWhere(t, p);
    var (ids, r) := InsertAll(cleared, docs);
    AppendedMatching(cleared, r, ids, p, docs);
    ClearedThenAppended(t, cleared, r, ids, p, docs);
    r
  }

  /** Appending matching documents to a table with no match: the matches are the new rows. */
  lemma AppendedMatching<T>(c: Table<T>, r: Table<T>, ids: seq<nat>, p: T -> bool, docs: seq<T>)
    requires |ids| == |docs| && |r.rows| == |c.rows| + |docs| && r.rows[..|c.rows|] == c.rows
    requires forall i :: 0 <= i < |docs| ==> r.rows[|c.rows| + i] == Row(ids[i], docs[i])
    requires forall i :: 0 <= i < |docs| ==> p(docs[i])
    requires forall i :: 0 <= i < |c.rows| ==> !p(c.rows[i].doc)
    ensures Docs(Select(r, p)) == docs
  {
    var added := r.rows[|c.rows|..];
    assert r.rows == c.rows + added;
    forall i | 0 <= i < |added|
      ensures added[i] == Row(ids[i], docs[i])
    {
      assert added[i] == r.rows[|c.rows| + i];
    }
    FilterAppend(c.rows, added, DocHolds(p));
    FilterKeepsNone(c.rows, DocHolds(p));
    FilterKeepsAll(added, DocHolds(p));
    assert Docs(added) == docs;
  }

  /** Appending matching documents: every row that does not match is an old one at its place. */
  lemma AppendedKeepsPlaces<T>(c: Table<T>, r: Table<T>, ids: seq<nat>, p: T -> bool, docs: seq<T>)
    requires |ids| == |docs| && |r.rows| == |c.rows| + |docs| && r.rows[..|c.rows|] == c.rows
    requires forall i :: 0 <= i < |docs| ==> r.rows[|c.rows| + i] == Row(ids[i], docs[i])
    requires forall i :: 0 <= i < |docs| ==> p(docs[i])
    ensures forall i :: 0 <= i < |r.rows| && !p(r.rows[i].doc) ==> i < |c.rows| && r.rows[i] == c.rows[i]
    ensures forall x :: x in c.rows ==> x in r.rows
  {
    assert r.rows == c.rows + r.rows[|c.rows|..];
    forall i | |c.rows| <= i < |r.rows|
      ensures p(r.rows[i].doc)
    {
      assert r.rows[|c.rows| + (i - |c.rows|)] == Row(ids[i - |c.rows|], docs[i - |c.rows|]);
    }
    forall i | 0 <= i < |c.rows|
      ensures r.rows[i] == c.rows[i]
    {
      assert r.rows[i] == r.rows[..|c.rows|][i];
    }
  }

  /** Deleting the matching rows and appending matching rows keeps the other rows. */
  lemma ClearedThenAppended<T>(t: Table<T>, c: Table<T>, r: Table<T>, ids: seq<nat>, p: T -> bool, docs: seq<T>)
    requires c == DeleteWhere(t, p)
    requires |ids| == |docs| && |r.rows| == |c.rows| + |docs| && r.rows[..|c.rows|] == c.rows
    requires forall i :: 0 <= i < |docs| ==> r.rows[|c.rows| + i] == Row(ids[i], docs[i])
    requires forall i :: 0 <= i < |docs| ==> p(docs[i])
    ensures Unmatched(t, r, p)
  {
    AppendedKeepsPlaces(c, r, ids, p, docs);
    forall i | 0 <= i < |t.rows| && !p(t.rows[i].doc)
      ensures t.rows[i] in r.rows
    {
      assert t.rows[i] in c.rows;
    }
    forall i | 0 <= i < |r.rows| && !p(r.rows[i].doc)
      ensures r.rows[i] in t.rows
    {
      assert r.rows[i] == c.rows[i];
    }
  }

  /** A scan over the table after an insert sees the old matches, then the new row if it matches. */
  lemma SelectAfterInsert<T>(t: Table<T>, doc: T, p: T -> bool)
    ensures var (id, t1) := Insert(t, doc);
            Select(t1, p) == Select(t, p) + (if p(doc) then [Row(id, doc)] else [])
  {
    var (id, t1) := Insert(t, doc);
    FilterAppend(t.rows, [Row(id, doc)], DocHolds(p));
  }

  /** A scan over the table after a batch insert sees the old matches, then the matching new rows. */
  lemma SelectAfterInsertAll<T>(t: Table<T>, docs: seq<T>, p: T -> bool)
    ensures var (ids, t1) := InsertAll(t, docs);
            Select(t1, p) == Select(t, p) + Filter(t1.rows[|t.rows|..], DocHolds(p))
  {
    var (ids, t1) := InsertAll(t, docs);
    assert t1.rows == t.rows + t1.rows[|t.rows|..];
    FilterAppend(t.rows, t1.rows[|t.rows|..], DocHolds(p));
  }

  /** After deleting the rows matching `p`, a scan for `p` finds nothing. */
  lemma SelectAfterDeleteWhere<T>(t: Table<T>, p: T -> bool)
    ensures Select(DeleteWhere(t, p), p) == []
  {
    var r := DeleteWhere(t, p);
    FilterKeepsNone(r.rows, DocHolds(p));
  }

  /** Deleting the rows matching `p` leaves a scan for a disjoint `q` unchanged. */
  lemma {:induction false} SelectDisjointDeleteWhere<T>(rows: seq<Row<T>>, p: T -> bool, q: T -> bool)
    requires forall i :: 0 <= i < |rows| ==> !(p(rows[i].doc) && q(rows[i].doc))
    ensures Filter(Filter(rows, DocFails(p)), DocHolds(q)) == Filter(rows, DocHolds(q))
  {
    if rows != [] {
      SelectDisjointDeleteWhere(rows[1..], p, q);
    }
  }
}

=== FILE: trendingTopics.dfy ===
/** Trending topics: the generating action (a fixed list, longer for premium users), the
    store, and the premium-gated listing. */
module TrendingTopics {
  import opened Common
  import opened Seqs
  import opened Tables
  import opened Schema
  import opened Users

  /** A topic as `storeTrendingTopic` receives it, without its owner. */
  datatype TopicData = TopicData(
    topic: string,
    description: Option<string>,
    relevanceScore: Option<int>,
    createdAt: int,
    isPremium: bool,
    sources: Option<seq<string>>)

  /** A topic of the generator's fixed lists, before it is stamped with a time. */
  datatype TopicTemplate = TopicTemplate(
    topic: string, description: string, relevanceScore: int, sources: seq<string>, isPremium: bool)

  const ContentCreationTips: TopicTemplate := TopicTemplate(
    "Content Creation Tips", "Best practices for creating engaging YouTube content", 85,
    ["YouTube Trends", "Creator Insights"], false)
  const AlgorithmUpdates: TopicTemplate := TopicTemplate(
    "YouTube Algorithm Updates", "Recent changes to the YouTube recommendation algorithm", 90,
    ["YouTube Blog", "Creator Insider"], false)
  const EditingTechniques: TopicTemplate := TopicTemplate(
    "Video Editing Techniques", "Popular editing styles and techniques for YouTube", 75,
    ["Creator Forums", "Editing Communities"], false)
  const EmergingNiches: TopicTemplate := TopicTemplate(
    "Emerging Content Niches", "Undiscovered content categories with high growth potential", 95,
    ["Trend Analysis", "Market Research"], true)
  const Monetization: TopicTemplate := TopicTemplate(
    "Monetization Strategies", "Advanced techniques for maximizing revenue from your content", 88,
    ["Creator Economy Reports", "Platform Insights"], true)
  const AudienceRetention: TopicTemplate := TopicTemplate(
    "Audience Retention Tactics", "Proven methods to keep viewers watching longer", 92,
    ["Analytics Research", "Engagement Studies"], true)
  const CrossPlatform: TopicTemplate := TopicTemplate(
    "Cross-Platform Growth", "Strategies for leveraging multiple platforms to grow your audience", 87,
    ["Social Media Trends", "Creator Case Studies"], true)

  /** The three topics every user gets. */
  const BasicTopics: seq<TopicTemplate> := [ContentCreationTips, AlgorithmUpdates, EditingTechniques]

  /** The four topics only premium users get. */
  const PremiumTopics: seq<TopicTemplate> := [EmergingNiches, Monetization, AudienceRetention, CrossPlatform]

  /** The lists a user gets: the basic ones, then the premium ones for a premium user. Every
      template is premium exactly when it comes from the premium list, and scores 75 to 95. */
  function TopicsFor(isPremium: bool): (r: seq<TopicTemplate>)
    ensures |r| == if isPremium then 7 else 3
    ensures forall i :: 0 <= i < |r| ==> (r[i].isPremium <==> i >= 3)
    ensures forall i :: 0 <= i < |r| ==> 75 <= r[i].relevanceScore <= 95
    ensures r[..3] == BasicTopics
  {
    if isPremium then BasicTopics + PremiumTopics else BasicTopics
  }

  /** The argument the action passes to `storeTrendingTopic` for one template. */
  function Stamp(t: TopicTemplate, now: int): TopicData {
    TopicData(t.topic, Some(t.description), Some(t.relevanceScore), now, t.isPremium, Some(t.sources))
  }

  /** The document `storeTrendingTopic` inserts: the data as given, owned by `userId`. */
  function TopicDoc(userId: string, d: TopicData): TrendingTopic {
    TrendingTopic(userId, d.topic, d.description, d.relevanceScore, d.createdAt, d.isPremium, d.sources)
  }

  function TopicDocs(userId: string, ts: seq<TopicTemplate>, now: int): (r: seq<TrendingTopic>)
    ensures |r| == |ts|
    ensures forall i :: 0 <= i < |ts| ==> r[i] == TopicDoc(userId, Stamp(ts[i], now))
  {
    seq(|ts|, i requires 0 <= i < |ts| => TopicDoc(userId, Stamp(ts[i], now)))
  }

  /** `storeTrendingTopic`: inserts the topic for the user and returns its id. */
  function StoreTrendingTopic(db: Db, userId: string, data: TopicData): (r: Outcome<nat>)
    requires ValidDb(db)
    ensures ValidDb(r.db) && r.db == db.(topics := r.db.topics)
    ensures r.db.topics.rows == db.topics.rows + [Row(r.value, TopicDoc(userId, data))]
    ensures !HasId(db.topics, r.value) && Get(r.db.topics, r.value) == Some(TopicDoc(userId, data))
  {
    var (id, topics) := Insert(db.topics, TopicDoc(userId, data));
    GetRow(topics, |db.topics.rows|);
    Outcome(id, db.(topics := topics))
  }

  /** `r` is `t` with the templates `ts`, stamped `now` and owned by `userId`, appended under
      `ids`, in order. */
  predicate AppendedTopics(t: Table<TrendingTopic>, r: Table<TrendingTopic>, ids: seq<nat>, userId: string,
                           ts: seq<TopicTemplate>, now: int) {
    && |ids| == |ts|
    && |r.rows| == |t.rows| + |ids| && r.rows[..|t.rows|] == t.rows
    && (forall i :: |t.rows| <= i < |r.rows| ==>
          && r.rows[i].id == ids[i - |t.rows|]
          && r.rows[i].doc == TopicDoc(userId, Stamp(ts[i - |t.rows|], now)))
    && (forall i, j :: 0 <= i < j < |ids| ==> ids[i] < ids[j])
  }

  /** The action's storing loop: one `storeTrendingTopic` per template, in order. */
  function StoreTopics(t: Table<TrendingTopic>, userId: string, ts: seq<TopicTemplate>, now: int)
    : (r: (seq<nat>, Table<TrendingTopic>))
    requires Valid(t)
    ensures Valid(r.1) && AppendedTopics(t, r.1, r.0, userId, ts, now)
  {
    var docs := TopicDocs(userId, ts, now);
    var (ids, rows) := InsertAll(t, docs);
    forall i | |t.rows| <= i < |rows.rows|
      ensures rows.rows[i] == Row(ids[i - |t.rows|], docs[i - |t.rows|])
    {
      assert rows.rows[|t.rows| + (i - |t.rows|)] == Row(ids[i - |t.rows|], docs[i - |t.rows|]);
    }
    (ids, rows)
  }

  /** `generateTrendingTopics`: stores the basic topics, and for a premium user the premium ones
      after them, each owned by the user; returns the new ids. The niche is not used. */
  function GenerateTrendingTopics(db: Db, userId: string, niche: Option<string>, now: int): (r: Outcome<seq<nat>>)
    requires ValidDb(db)
    ensures ValidDb(r.db) && r.db == db.(topics := r.db.topics)
    ensures AppendedTopics(db.topics, r.db.topics, r.value, userId, TopicsFor(IsPremium(db, userId)), now)
    ensures |r.value| == if IsPremium(db, userId) then 7 else 3
  {
    var (ids, topics) := StoreTopics(db.topics, userId, TopicsFor(IsPremium(db, userId)), now);
    Outcome(ids, db.(topics := topics))
  }

  /** What the generator stores is free for a free user, owned by the caller, and scored 75 to 95. */
  lemma GeneratedTopicsShape(db: Db, userId: string, niche: Option<string>, now: int)
    requires ValidDb(db)
    ensures var d := GenerateTrendingTopics(db, userId, niche, now).db;
            forall i :: |db.topics.rows| <= i < |d.topics.rows| ==>
              && d.topics.rows[i].doc.userId == userId
              && d.topics.rows[i].doc.createdAt == now
              && (!IsPremium(db, userId) ==> !d.topics.rows[i].doc.isPremium)
              && d.topics.rows[i].doc.relevanceScore.Some?
              && 75 <= d.topics.rows[i].doc.relevanceScore.value <= 95
  {
    var o := GenerateTrendingTopics(db, userId, niche, now);
    var ts := TopicsFor(IsPremium(db, userId));
    forall i | |db.topics.rows| <= i < |o.db.topics.rows|
      ensures o.db.topics.rows[i].doc == TopicDoc(userId, Stamp(ts[i - |db.topics.rows|], now))
    {
    }
  }

  /** The topics of `userId` a listing shows: premium ones only when `withPremium`. */
  function TopicVisible(userId: string, withPremium: bool): TrendingTopic -> bool {
    (t: TrendingTopic) => t.userId == userId && (withPremium || !t.isPremium)
  }

  /** `getUserTrendingTopics`: the user's topics in creation order; premium topics only for a
      premium user who asks for them. */
  function GetUserTrendingTopics(db: Db, userId: string, includePremium: bool): (r: seq<Row<TrendingTopic>>)
    ensures forall i :: 0 <= i < |r| ==> r[i] in db.topics.rows && r[i].doc.userId == userId
    ensures !(IsPremium(db, userId) && includePremium) ==> forall i :: 0 <= i < |r| ==> !r[i].doc.isPremium
    ensures forall i :: 0 <= i < |db.topics.rows| ==>
              (db.topics.rows[i].doc.userId == userId
               && (!db.topics.rows[i].doc.isPremium || (IsPremium(db, userId) && includePremium)) ==>
               db.topics.rows[i] in r)
    ensures IsSubsequence(r, db.topics.rows)
  {
    var p := TopicVisible(userId, IsPremium(db, userId) && includePremium);
    FilterIsSubsequence(db.topics.rows, DocHolds(p));
    Select(db.topics, p)
  }

  /** A scan after templates were appended sees the earlier matches, then all the new rows when
      every stamped template matches. */
  lemma {:induction false} SelectAfterTopics(t: Table<TrendingTopic>, r: Table<TrendingTopic>, ids: seq<nat>,
                                             userId: string, ts: seq<TopicTemplate>, now: int,
                                             p: TrendingTopic -> bool)
    requires AppendedTopics(t, r, ids, userId, ts, now)
    requires forall i :: 0 <= i < |ts| ==> p(TopicDoc(userId, Stamp(ts[i], now)))
    ensures Select(r, p) == Select(t, p) + r.rows[|t.rows|..]
    ensures Docs(r.rows[|t.rows|..]) == TopicDocs(userId, ts, now)
  {
    var added := r.rows[|t.rows|..];
    assert r.rows == t.rows + added;
    FilterAppend(t.rows, added, DocHolds(p));
    forall i | 0 <= i < |added|
      ensures added[i].doc == TopicDoc(userId, Stamp(ts[i], now))
    {
      assert added[i] == r.rows[|t.rows| + i];
    }
    FilterKeepsAll(added, DocHolds(p));
  }

  /** After a free user generates, their listing gains exactly the three basic topics, in order. */
  lemma FreeUserGainsBasicTopics(db: Db, userId: string, niche: Option<string>, now: int, includePremium: bool)
    requires ValidDb(db)
    requires !IsPremium(db, userId)
    ensures var d := GenerateTrendingTopics(db, userId, niche, now).db;
            && GetUserTrendingTopics(d, userId, includePremium)
                 == GetUserTrendingTopics(db, userId, includePremium) + d.topics.rows[|db.topics.rows|..]
            && Docs(d.topics.rows[|db.topics.rows|..]) == TopicDocs(userId, BasicTopics, now)
  {
    var o := GenerateTrendingTopics(db, userId, niche, now);
    assert IsPremium(o.db, userId) == IsPremium(db, userId) by {
      assert o.db.users == db.users;
    }
    SelectAfterTopics(db.topics, o.db.topics, o.value, userId, BasicTopics, now, TopicVisible(userId, false));
  }
}

=== FILE: trendingTopicsPage.dfy ===
/** The trending topics page's logic: which fetched topics the list shows, and when the
    Generate button calls the backend. */
module TrendingTopicsPage {
  import opened Common
  import opened Seqs
  import opened Tables
  import opened Schema
  import Users
  import TrendingTopics

  /** The page's filter callback: premium-only hides free topics, and premium topics are hidden
      from a user who is not premium. */
  predicate Shown(showPremiumOnly: bool, userData: Option<User>, topic: TrendingTopic) {
    && !(showPremiumOnly && !topic.isPremium)
    && !(topic.isPremium && !Users.PremiumUser(userData))
  }

  function ShownRow(showPremiumOnly: bool, userData: Option<User>): Row<TrendingTopic> -> bool {
    (row: Row<TrendingTopic>) => Shown(showPremiumOnly, userData, row.doc)
  }

  /** `filteredTopics`: the fetched topics the toggle and the user's tier let through, in order. */
  function FilteredTopics(topics: seq<Row<TrendingTopic>>, showPremiumOnly: bool, userData: Option<User>)
    : (r: seq<Row<TrendingTopic>>)
    ensures forall i :: 0 <= i < |r| ==> r[i] in topics
    ensures forall i :: 0 <= i < |topics| ==> (topics[i] in r <==> Shown(showPremiumOnly, userData, topics[i].doc))
    ensures forall i :: 0 <= i < |r| ==>
              && (showPremiumOnly ==> r[i].doc.isPremium)
              && (!Users.PremiumUser(userData) ==> !r[i].doc.isPremium)
  {
    Filter(topics, ShownRow(showPremiumOnly, userData))
  }

  /** The filter keeps the list's order. */
  lemma FilteredTopicsInOrder(topics: seq<Row<TrendingTopic>>, showPremiumOnly: bool, userData: Option<User>)
    ensures IsSubsequence(FilteredTopics(topics, showPremiumOnly, userData), topics)
  {
    FilterIsSubsequence(topics, ShownRow(showPremiumOnly, userData));
  }

  /** A user who is not premium and asks for premium topics only sees nothing. */
  lemma PremiumOnlyHidesAllFromFreeUser(topics: seq<Row<TrendingTopic>>, userData: Option<User>)
    requires !Users.PremiumUser(userData)
    ensures FilteredTopics(topics, true, userData) == []
  {
    FilterKeepsNone(topics, ShownRow(true, userData));
  }

  /** The page fetches every topic the server will give (`includePremium: true`) and filters on
      the client. With the toggle off, the client filter removes nothing the server sent: the
      server already withholds premium topics from a user who is not premium. */
  lemma PageShowsWhatServerSends(db: Db, userId: string)
    ensures var fetched := TrendingTopics.GetUserTrendingTopics(db, userId, true);
            FilteredTopics(fetched, false, Users.GetUserById(db, userId)) == fetched
  {
    var fetched := TrendingTopics.GetUserTrendingTopics(db, userId, true);
    var userData := Users.GetUserById(db, userId);
    assert Users.PremiumUser(userData) == Users.IsPremium(db, userId);
    FilterKeepsAll(fetched, ShownRow(false, userData));
  }

  /** `handleGenerateTopics`: the user to generate for, or nothing unless signed in with a user. */
  function HandleGenerateTopics(isSignedIn: bool, user: Option<string>): (r: Option<string>)
    ensures r.None? <==> !isSignedIn || user.None?
    ensures r.Some? ==> r == user
  {
    if !isSignedIn || user.None? then None else user
  }
}

=== FILE: users.dfy ===
/** The users table: sign-in upsert, lookup by external id, and the premium flag. */
module Users {
  import opened Common
  import opened Tables
  import opened Schema

  /** Users whose external id is `userId`: the `by_user_id` index equality. */
  function UserIdIs(userId: string): User -> bool {
    (u: User) => u.userId == userId
  }

  /** The user row `getUserById` finds: the first one with that external id. */
  function FindUser(db: Db, userId: string): Option<Row<User>> {
    First(db.users, UserIdIs(userId))
  }

  /** `getUserById`: the first user with that external id, or null. */
  function GetUserById(db: Db, userId: string): (r: Option<User>)
    ensures r.None? <==> forall i :: 0 <= i < |db.users.rows| ==> db.users.rows[i].doc.userId != userId
    ensures r.Some? ==> exists k :: 0 <= k < |db.users.rows| && db.users.rows[k].doc == r.value
                          && r.value.userId == userId
                          && forall j :: 0 <= j < k ==> db.users.rows[j].doc.userId != userId
  {
    match FindUser(db, userId)
    case None => None
    case Some(row) => Some(row.doc)
  }

  /** `userData?.isPremium`: false while the user is loading or missing. */
  predicate PremiumUser(userData: Option<User>) {
    userData.Some? && userData.value.isPremium
  }

  /** `user?.isPremium || false`: a user that does not exist counts as not premium. */
  predicate IsPremium(db: Db, userId: string) {
    match GetUserById(db, userId)
    case None => false
    case Some(u) => u.isPremium
  }

  /** The document a patch of `u` by `createOrUpdateUser` leaves: omitted fields keep their value. */
  function SignInPatch(u: User, name: Option<string>, email: Option<string>, isPremium: Option<bool>, now: int): User {
    u.(name := name.Or(u.name), email := email.Or(u.email),
       isPremium := isPremium.GetOr(u.isPremium), lastLoginAt := now)
  }

  /** Patching the user row `getUserById` finds with a document of the same user: the table
      stays valid and as long, the lookup then finds the new document, and no other row moves. */
  lemma PatchedUser(db: Db, userId: string, doc: User)
    requires ValidDb(db) && FindUser(db, userId).Some? && doc.userId == userId
    ensures var row := FindUser(db, userId).value;
            var users := Replace(db.users, row.id, doc);
            && users.Ok?
            && ValidDb(db.(users := users.value))
            && |users.value.rows| == |db.users.rows|
            && GetUserById(db.(users := users.value), userId) == Some(doc)
            && forall i :: 0 <= i < |db.users.rows| && db.users.rows[i] != row ==>
                 users.value.rows[i] == db.users.rows[i]
  {
    ReplaceFirst(db.users, UserIdIs(userId), doc);
  }

  /** Inserting the first document of a user: the table stays valid and grows by that row
      alone, and the lookup then finds it. */
  lemma InsertedUser(db: Db, doc: User)
    requires ValidDb(db) && GetUserById(db, doc.userId).None?
    ensures var users := Insert(db.users, doc).1;
            && ValidDb(db.(users := users))
            && |users.rows| == |db.users.rows| + 1
            && users.rows[..|db.users.rows|] == db.users.rows
            && GetUserById(db.(users := users), doc.userId) == Some(doc)
  {
    var users := Insert(db.users, doc).1;
    assert forall j :: 0 <= j < |db.users.rows| ==> users.rows[j] == db.users.rows[j];
    FirstAt(users, UserIdIs(doc.userId), |db.users.rows|);
  }

  /** `createOrUpdateUser`: patches the existing user (returning nothing) or inserts a new one
      (returning its id). */
  function CreateOrUpdateUser(db: Db, userId: string, name: Option<string>, email: Option<string>,
                              isPremium: Option<bool>, now: int): (r: Outcome<Option<nat>>)
    requires ValidDb(db)
    ensures ValidDb(r.db) && r.db == db.(users := r.db.users)
    // a first sign-in adds exactly one row, not premium unless said so
    ensures GetUserById(db, userId).None? ==>
              && r.value.Some?
              && |r.db.users.rows| == |db.users.rows| + 1
              && r.db.users.rows[..|db.users.rows|] == db.users.rows
              && GetUserById(r.db, userId) == Some(User(userId, name, email, isPremium.GetOr(false), now, now))
    // a later sign-in adds no row and changes only that user's fields it was given
    ensures GetUserById(db, userId).Some? ==>
              var u := GetUserById(db, userId).value;
              var row := FindUser(db, userId).value;
              && r.value.None?
              && |r.db.users.rows| == |db.users.rows|
              && GetUserById(r.db, userId) == Some(SignInPatch(u, name, email, isPremium, now))
              && GetUserById(r.db, userId).value.createdAt == u.createdAt
              && forall i :: 0 <= i < |db.users.rows| && db.users.rows[i] != row ==>
                   r.db.users.rows[i] == db.users.rows[i]
  {
    match FindUser(db, userId)
    case Some(row) =>
      PatchedUser(db, userId, SignInPatch(row.doc, name, email, isPremium, now));
      var users := Replace(db.users, row.id, SignInPatch(row.doc, name, email, isPremium, now)).value;
      Outcome(None, db.(users := users))
    case None =>
      InsertedUser(db, User(userId, name, email, isPremium.GetOr(false), now, now));
      var (id, users) := Insert(db.users, User(userId, name, email, isPremium.GetOr(false), now, now));
      Outcome(Some(id), db.(users := users))
  }

  /** `updatePremiumStatus`: sets the flag of an existing user and returns true. */
  function UpdatePremiumStatus(db: Db, userId: string, isPremium: bool): (r: Result<Outcome<bool>>)
    requires ValidDb(db)
    ensures r.Err? <==> GetUserById(db, userId).None?
    ensures r.Err? ==> r.error == UserNotFound
    ensures r.Ok? ==>
              var u := GetUserById(db, userId).value;
              var row := FindUser(db, userId).value;
              && r.value.value
              && ValidDb(r.value.db) && r.value.db == db.(users := r.value.db.users)
              && |r.value.db.users.rows| == |db.users.rows|
              && GetUserById(r.value.db, userId) == Some(u.(isPremium := isPremium))
              && forall i :: 0 <= i < |db.users.rows| && db.users.rows[i] != row ==>
                   r.value.db.users.rows[i] == db.users.rows[i]
  {
    match FindUser(db, userId)
    case None => Err(UserNotFound)
    case Some(row) =>
      PatchedUser(db, userId, row.doc.(isPremium := isPremium));
      var users := Replace(db.users, row.id, row.doc.(isPremium := isPremium)).value;
      Ok(Outcome(true, db.(users := users)))
  }

  /** However often a user signs in, the table holds one row for them, and the first
      sign-in's `createdAt` survives. */
  lemma SignInTwiceKeepsOneRow(db: Db, userId: string, now1: int, now2: int,
                               name: Option<string>, email: Option<string>, isPremium: Option<bool>)
    requires ValidDb(db)
    requires GetUserById(db, userId).None?
    ensures var db1 := CreateOrUpdateUser(db, userId, name, email, isPremium, now1).db;
            var db2 := CreateOrUpdateUser(db1, userId, None, None, None, now2).db;
            && |db2.users.rows| == |db.users.rows| + 1
            && GetUserById(db2, userId) == Some(User(userId, name, email, isPremium.GetOr(false), now1, now2))
  {
  }

  /** A premium flag that was set is the one the premium gate reads back. */
  lemma PremiumGateReadsUpdate(db: Db, userId: string, isPremium: bool)
    requires ValidDb(db)
    requires UpdatePremiumStatus(db, userId, isPremium).Ok?
    ensures IsPremium(UpdatePremiumStatus(db, userId, isPremium).value.db, userId) == isPremium
  {
  }
}

=== FILE: youtube.dfy ===
/** Channels and videos: connecting a channel (with synthesised data), the channel and
    video upserts, the per-user channel list, a channel's videos, and the cascading
    channel delete. Channel and video upserts look their key up in an index over the
    whole table, not per user. */
module YouTube {
  import opened Common
  import opened Seqs
  import opened Strings
  import opened Tables
  import opened Schema

  /** What `storeChannelData` receives about a channel. */
  datatype ChannelData = ChannelData(
    channelId: string,
    channelName: string,
    channelUrl: string,
    subscriberCount: int,
    videoCount: int,
    viewCount: int,
    thumbnailUrl: string)

  /** What `storeVideos` receives about one video. */
  datatype VideoData = VideoData(
    videoId: string,
    title: string,
    description: string,
    publishedAt: int,
    viewCount: int,
    likeCount: int,
    commentCount: int,
    thumbnailUrl: string,
    tags: seq<string>)

  const DayMillis: int := 86400000

  function ChannelOwnerIs(userId: string): Channel -> bool {
    (c: Channel) => c.userId == userId
  }

  /** The `by_channel_id` index equality on channels. */
  function ChannelIdIs(channelId: string): Channel -> bool {
    (c: Channel) => c.channelId == channelId
  }

  /** The `by_channel_id` index equality on videos. */
  function VideoChannelIs(channelId: string): Video -> bool {
    (v: Video) => v.channelId == channelId
  }

  /** The `by_video_id` index equality on videos. */
  function VideoIdIs(videoId: string): Video -> bool {
    (v: Video) => v.videoId == videoId
  }

  predicate HasVideo(t: Table<Video>, videoId: string) {
    exists i :: 0 <= i < |t.rows| && t.rows[i].doc.videoId == videoId
  }

  function VideoIds(vs: seq<VideoData>): (r: seq<string>)
    ensures |r| == |vs|
    ensures forall k :: 0 <= k < |vs| ==> r[k] == vs[k].videoId
  {
    if vs == [] then [] else [vs[0].videoId] + VideoIds(vs[1..])
  }

  /** `b` is `a` with at most its view, like and comment counts changed. */
  predicate OnlyCountsChanged(a: Video, b: Video) {
    b == a.(viewCount := b.viewCount, likeCount := b.likeCount, commentCount := b.commentCount)
  }

  /** The channel id a URL names: its last path segment, or "demo-channel-id" when that is empty. */
  function ChannelIdFromUrl(url: string): (r: string)
    ensures r != []
    ensures LastSegment(url) != [] ==> r == LastSegment(url)
    ensures LastSegment(url) == [] ==> r == "demo-channel-id"
  {
    SegmentOr(url, "demo-channel-id")
  }

  /** The channel data `connectYouTubeChannel` synthesises; random draws 0, 1 and 2. */
  function SampleChannel(url: string, channelId: string, rng: nat -> nat): (r: ChannelData)
    ensures r.channelId == channelId && r.channelUrl == url
    ensures 0 <= r.subscriberCount < 100000 && 0 <= r.videoCount < 500 && 0 <= r.viewCount < 10000000
  {
    ChannelData(
      channelId, "Channel " + channelId, url,
      Draw(rng, 0, 100000), Draw(rng, 1, 500), Draw(rng, 2, 10000000),
      "https://picsum.photos/seed/" + channelId + "/200/200")
  }

  function SampleVideoId(i: nat, channelId: string): string {
    "video-" + NatToString(i) + "-" + channelId
  }

  /** Video `i` of the five `connectYouTubeChannel` synthesises; random draws 3i+3 .. 3i+5. */
  function SampleVideo(i: nat, channelId: string, now: int, rng: nat -> nat): VideoData {
    VideoData(
      SampleVideoId(i, channelId),
      "Sample Video " + NatToString(i),
      "This is a sample video description for video " + NatToString(i),
      now - i * DayMillis,
      Draw(rng, 3 * i + 3, 50000), Draw(rng, 3 * i + 4, 5000), Draw(rng, 3 * i + 5, 500),
      "https://picsum.photos/seed/video-" + NatToString(i) + "-" + channelId + "/320/180",
      ["sample", "video", "tag-" + NatToString(i)])
  }

  /** The five sample videos: ids `video-<i>-<channel>`, published one day apart, newest first. */
  function SampleVideos(channelId: string, now: int, rng: nat -> nat): (r: seq<VideoData>)
    ensures |r| == 5
    ensures forall i :: 0 <= i < 5 ==> r[i].videoId == SampleVideoId(i, channelId)
    ensures forall i :: 0 <= i < 5 ==> r[i].publishedAt == now - i * DayMillis
    ensures forall i :: 0 < i < 5 ==> r[i].publishedAt == r[i - 1].publishedAt - DayMillis
    ensures forall i, j :: 0 <= i < j < 5 ==> r[i].videoId != r[j].videoId
    ensures forall i :: 0 <= i < 5 ==> 0 <= r[i].viewCount < 50000 && 0 <= r[i].likeCount < 5000
                                        && 0 <= r[i].commentCount < 500
  {
    var r := seq(5, i requires 0 <= i => SampleVideo(i, channelId, now, rng));
    forall i, j | 0 <= i < j < 5
      ensures r[i].videoId != r[j].videoId
    {
      assert r[i].videoId[6] == DigitChar(i);
      assert r[j].videoId[6] == DigitChar(j);
    }
    r
  }

  /** The first channel row (of any user) with that external id. */
  function FindChannel(db: Db, channelId: string): Option<Row<Channel>> {
    First(db.channels, ChannelIdIs(channelId))
  }

  /** The fields a re-sync of a channel changes. */
  function ChannelResync(c: Channel, data: ChannelData, now: int): Channel {
    c.(subscriberCount := data.subscriberCount, videoCount := data.videoCount,
       viewCount := data.viewCount, lastSyncedAt := now)
  }

  function NewChannel(userId: string, data: ChannelData, now: int): Channel {
    Channel(userId, data.channelId, data.channelName, data.channelUrl, data.subscriberCount,
            data.videoCount, data.viewCount, data.thumbnailUrl, now, false)
  }

  /** `storeChannelData`: upserts on the external channel id over all users' channels.
      An existing row gets new counts and sync time (and nothing is returned); otherwise
      a row owned by `userId`, not yet analysed, is inserted and its id returned. */
  function StoreChannelData(db: Db, userId: string, data: ChannelData, now: int): (r: Outcome<Option<nat>>)
    requires ValidDb(db)
    ensures ValidDb(r.db) && r.db == db.(channels := r.db.channels)
    ensures FindChannel(db, data.channelId).Some? ==>
              var row := FindChannel(db, data.channelId).value;
              && r.value.None?
              && |r.db.channels.rows| == |db.channels.rows|
              && FindChannel(r.db, data.channelId) == Some(Row(row.id, ChannelResync(row.doc, data, now)))
              && forall i :: 0 <= i < |db.channels.rows| && db.channels.rows[i] != row ==>
                   r.db.channels.rows[i] == db.channels.rows[i]
    ensures FindChannel(db, data.channelId).None? ==>
              && r.value.Some?
              && r.db.channels.rows == db.channels.rows + [Row(r.value.value, NewChannel(userId, data, now))]
              && !HasId(db.channels, r.value.value)
              && FindChannel(r.db, data.channelId) == Some(Row(r.value.value, NewChannel(userId, data, now)))
  {
    match FindChannel(db, data.channelId)
    case Some(row) =>
      ReplaceFirst(db.channels, ChannelIdIs(data.channelId), ChannelResync(row.doc, data, now));
      Outcome(None, db.(channels := Replace(db.channels, row.id, ChannelResync(row.doc, data, now)).value))
    case None =>
      var (id, channels) := Insert(db.channels, NewChannel(userId, data, now));
      assert channels.rows == db.channels.rows + [Row(id, NewChannel(userId, data, now))];
      FirstAt(channels, ChannelIdIs(data.channelId), |db.channels.rows|);
      Outcome(Some(id), db.(channels := channels))
  }

  function NewVideo(channelId: string, v: VideoData): Video {
    Video(channelId, v.videoId, v.title, v.description, v.publishedAt, v.viewCount, v.likeCount,
          v.commentCount, v.thumbnailUrl, v.tags)
  }

  /** The document a re-stored video gets: new view, like and comment counts. */
  function VideoCounts(doc: Video, v: VideoData): Video {
    doc.(viewCount := v.viewCount, likeCount := v.likeCount, commentCount := v.commentCount)
  }

  /** `.withIndex("by_video_id", ...).first()`: the first row stored under that video id. */
  function FindVideo(t: Table<Video>, videoId: string): Option<Row<Video>> {
    First(t, VideoIdIs(videoId))
  }

  /** `doc` holds the view, like and comment counts of `v`. */
  predicate HasCountsOf(doc: Video, v: VideoData) {
    doc.viewCount == v.viewCount && doc.likeCount == v.likeCount && doc.commentCount == v.commentCount
  }

  /** Element `k` is the last of the batch with its video id, so its counts are the last written. */
  predicate LastOfId(vs: seq<VideoData>, k: int) {
    0 <= k < |vs| && forall j :: k < j < |vs| ==> vs[j].videoId != vs[k].videoId
  }

  /** Patching the counts of the video at position `k` keeps every id and every other field. */
  lemma PatchVideoAt(t: Table<Video>, k: int, v: VideoData)
    requires Valid(t) && 0 <= k < |t.rows| && t.rows[k].doc.videoId == v.videoId
    ensures var r := Replace(t, t.rows[k].id, VideoCounts(t.rows[k].doc, v));
            && r.Ok? && Valid(r.value) && HasVideo(r.value, v.videoId)
            && |r.value.rows| == |t.rows|
            && (forall i :: 0 <= i < |t.rows| ==>
                  r.value.rows[i].id == t.rows[i].id && OnlyCountsChanged(t.rows[i].doc, r.value.rows[i].doc))
            && (forall i :: 0 <= i < |t.rows| && t.rows[i].doc.videoId != v.videoId ==> r.value.rows[i] == t.rows[i])
  {
    ReplaceAt(t, k, VideoCounts(t.rows[k].doc, v));
    var r := Replace(t, t.rows[k].id, VideoCounts(t.rows[k].doc, v)).value;
    assert r.rows[k].doc.videoId == v.videoId;
  }

  /** One iteration of `storeVideos`' loop: the first row with the video id gets the new view,
      like and comment counts, or, when there is none, the video is appended. */
  function UpsertVideo(t: Table<Video>, channelId: string, v: VideoData): (r: Table<Video>)
    requires Valid(t)
    ensures Valid(r) && HasVideo(r, v.videoId)
    ensures |t.rows| <= |r.rows| <= |t.rows| + 1
    ensures forall i :: 0 <= i < |t.rows| ==>
              r.rows[i].id == t.rows[i].id && OnlyCountsChanged(t.rows[i].doc, r.rows[i].doc)
    ensures forall i :: 0 <= i < |t.rows| && t.rows[i].doc.videoId != v.videoId ==> r.rows[i] == t.rows[i]
    ensures forall i :: |t.rows| <= i < |r.rows| ==> r.rows[i].doc == NewVideo(channelId, v)
    ensures FindVideo(t, v.videoId).Some? ==>
              var row := FindVideo(t, v.videoId).value;
              && |r.rows| == |t.rows| && FindVideo(r, v.videoId) == Some(Row(row.id, VideoCounts(row.doc, v)))
              && forall i :: 0 <= i < |t.rows| && t.rows[i] != row ==> r.rows[i] == t.rows[i]
    ensures FindVideo(t, v.videoId).None? ==>
              |r.rows| == |t.rows| + 1 && FindVideo(r, v.videoId) == Some(r.rows[|t.rows|])
  {
    match First(t, VideoIdIs(v.videoId))
    case Some(row) =>
      var k :| 0 <= k < |t.rows| && t.rows[k] == row && VideoIdIs(v.videoId)(row.doc);
      PatchVideoAt(t, k, v);
      ReplaceFirst(t, VideoIdIs(v.videoId), VideoCounts(row.doc, v));
      Replace(t, row.id, VideoCounts(row.doc, v)).value
    case None =>
      var r := Insert(t, NewVideo(channelId, v)).1;
      assert r.rows[|t.rows|].doc.videoId == v.videoId;
      assert forall j :: 0 <= j < |t.rows| ==> r.rows[j] == t.rows[j];
      FirstAt(r, VideoIdIs(v.videoId), |t.rows|);
      r
  }

  /** Upserting one video leaves the lookup of every other video id where it was. */
  lemma UpsertVideoKeepsOthers(t: Table<Video>, channelId: string, v: VideoData, videoId: string)
    requires Valid(t) && videoId != v.videoId
    ensures FindVideo(UpsertVideo(t, channelId, v), videoId) == FindVideo(t, videoId)
  {
    var r := UpsertVideo(t, channelId, v);
    assert forall i :: 0 <= i < |t.rows| ==> r.rows[i].doc.videoId == t.rows[i].doc.videoId;
    FirstKept(t, r, VideoIdIs(videoId));
  }

  /** `storeVideos`' loop over the batch, in order. */
  function UpsertVideos(t: Table<Video>, channelId: string, vs: seq<VideoData>): (r: Table<Video>)
    requires Valid(t)
    ensures Valid(r)
    ensures |t.rows| <= |r.rows|
    ensures forall i :: 0 <= i < |t.rows| ==>
              r.rows[i].id == t.rows[i].id && OnlyCountsChanged(t.rows[i].doc, r.rows[i].doc)
    ensures forall i :: 0 <= i < |t.rows| && t.rows[i].doc.videoId !in VideoIds(vs) ==> r.rows[i] == t.rows[i]
    ensures forall i :: |t.rows| <= i < |r.rows| ==>
              exists j :: 0 <= j < |vs| && OnlyCountsChanged(NewVideo(channelId, vs[j]), r.rows[i].doc)
    ensures FreshAppends(t, r)
    decreases |vs|
  {
    if vs == [] then t
    else
      var t1 := UpsertVideo(t, channelId, vs[0]);
      var r := UpsertVideos(t1, channelId, vs[1..]);
      assert VideoIds(vs) == [vs[0].videoId] + VideoIds(vs[1..]);
      CountsOnlyChangedTrans(t, t1, r);
      NewRowsFromBatch(t, t1, r, channelId, vs);
      UpsertVideoFresh(t, channelId, vs[0]);
      FreshAppendsTrans(t, t1, r);
      r
  }

  /** The loop leaves the lookup of every video id outside the batch where it was. */
  lemma {:induction false} UpsertVideosKeepsOthers(t: Table<Video>, channelId: string, vs: seq<VideoData>,
                                                   videoId: string)
    requires Valid(t) && videoId !in VideoIds(vs)
    ensures FindVideo(UpsertVideos(t, channelId, vs), videoId) == FindVideo(t, videoId)
    decreases |vs|
  {
    if vs != [] {
      assert VideoIds(vs) == [vs[0].videoId] + VideoIds(vs[1..]);
      UpsertVideoKeepsOthers(t, channelId, vs[0], videoId);
      UpsertVideosKeepsOthers(UpsertVideo(t, channelId, vs[0]), channelId, vs[1..], videoId);
    }
  }

  /** After the loop every video of the batch has a row. */
  lemma {:induction false} UpsertVideosStores(t: Table<Video>, channelId: string, vs: seq<VideoData>)
    requires Valid(t)
    ensures forall k :: 0 <= k < |vs| ==> HasVideo(UpsertVideos(t, channelId, vs), vs[k].videoId)
    decreases |vs|
  {
    if vs != [] {
      var t1 := UpsertVideo(t, channelId, vs[0]);
      var r := UpsertVideos(t1, channelId, vs[1..]);
      UpsertVideosStores(t1, channelId, vs[1..]);
      forall k | 0 <= k < |vs|
        ensures HasVideo(r, vs[k].videoId)
      {
        if k == 0 {
          var i :| 0 <= i < |t1.rows| && t1.rows[i].doc.videoId == vs[0].videoId;
          assert OnlyCountsChanged(t1.rows[i].doc, r.rows[i].doc);
        } else {
          assert vs[1..][k - 1] == vs[k];
        }
      }
    }
  }

  /** After the loop the first row under each video id holds the counts of the last batch
      element with that id. */
  lemma {:induction false} UpsertVideosCounts(t: Table<Video>, channelId: string, vs: seq<VideoData>)
    requires Valid(t)
    ensures forall k :: LastOfId(vs, k) ==>
              var row := FindVideo(UpsertVideos(t, channelId, vs), vs[k].videoId);
              row.Some? && HasCountsOf(row.value.doc, vs[k])
    decreases |vs|
  {
    if vs != [] {
      var t1 := UpsertVideo(t, channelId, vs[0]);
      var r := UpsertVideos(t1, channelId, vs[1..]);
      UpsertVideosCounts(t1, channelId, vs[1..]);
      forall k | LastOfId(vs, k)
        ensures FindVideo(r, vs[k].videoId).Some? && HasCountsOf(FindVideo(r, vs[k].videoId).value.doc, vs[k])
      {
        if k == 0 {
          FirstNotInRest(vs);
          UpsertVideoCounts(t, channelId, vs[0]);
          UpsertVideosKeepsOthers(t1, channelId, vs[1..], vs[0].videoId);
        } else {
          LastOfIdTail(vs, k);
        }
      }
    }
  }

  /** After one loop step the first row under the video id holds that video's counts. */
  lemma UpsertVideoCounts(t: Table<Video>, channelId: string, v: VideoData)
    requires Valid(t)
    ensures var row := FindVideo(UpsertVideo(t, channelId, v), v.videoId);
            row.Some? && HasCountsOf(row.value.doc, v)
  {
  }

  lemma FirstNotInRest(vs: seq<VideoData>)
    requires LastOfId(vs, 0)
    ensures vs[0].videoId !in VideoIds(vs[1..])
  {
    forall j | 0 <= j < |vs[1..]|
      ensures VideoIds(vs[1..])[j] != vs[0].videoId
    {
      assert vs[1..][j] == vs[j + 1];
    }
  }

  lemma LastOfIdTail(vs: seq<VideoData>, k: int)
    requires LastOfId(vs, k) && k > 0
    ensures LastOfId(vs[1..], k - 1) && vs[1..][k - 1] == vs[k]
  {
    forall j | k - 1 < j < |vs[1..]|
      ensures vs[1..][j].videoId != vs[1..][k - 1].videoId
    {
      assert vs[1..][j] == vs[j + 1];
    }
  }

  lemma CountsChangedTrans(a: Video, b: Video, c: Video)
    requires OnlyCountsChanged(a, b) && OnlyCountsChanged(b, c)
    ensures OnlyCountsChanged(a, c)
  {
  }

  /** Two steps that each keep the ids of the rows before them and change only their counts
      make one such step. */
  lemma CountsOnlyChangedTrans(t: Table<Video>, t1: Table<Video>, r: Table<Video>)
    requires |t.rows| <= |t1.rows| <= |r.rows|
    requires forall i :: 0 <= i < |t.rows| ==>
               t1.rows[i].id == t.rows[i].id && OnlyCountsChanged(t.rows[i].doc, t1.rows[i].doc)
    requires forall i :: 0 <= i < |t1.rows| ==>
               r.rows[i].id == t1.rows[i].id && OnlyCountsChanged(t1.rows[i].doc, r.rows[i].doc)
    ensures forall i :: 0 <= i < |t.rows| ==>
              r.rows[i].id == t.rows[i].id && OnlyCountsChanged(t.rows[i].doc, r.rows[i].doc)
  {
    forall i | 0 <= i < |t.rows|
      ensures r.rows[i].id == t.rows[i].id && OnlyCountsChanged(t.rows[i].doc, r.rows[i].doc)
    {
      CountsChangedTrans(t.rows[i].doc, t1.rows[i].doc, r.rows[i].doc);
    }
  }

  /** The rows the loop appends come from the first batch element's step or from the rest. */
  lemma NewRowsFromBatch(t: Table<Video>, t1: Table<Video>, r: Table<Video>, channelId: string,
                         vs: seq<VideoData>)
    requires vs != [] && |t.rows| <= |t1.rows| <= |r.rows|
    requires forall i :: |t.rows| <= i < |t1.rows| ==> t1.rows[i].doc == NewVideo(channelId, vs[0])
    requires forall i :: 0 <= i < |t1.rows| ==> OnlyCountsChanged(t1.rows[i].doc, r.rows[i].doc)
    requires forall i :: |t1.rows| <= i < |r.rows| ==>
               exists j :: 0 <= j < |vs[1..]| && OnlyCountsChanged(NewVideo(channelId, vs[1..][j]), r.rows[i].doc)
    ensures forall i :: |t.rows| <= i < |r.rows| ==>
              exists j :: 0 <= j < |vs| && OnlyCountsChanged(NewVideo(channelId, vs[j]), r.rows[i].doc)
  {
    forall i | |t.rows| <= i < |r.rows|
      ensures exists j :: 0 <= j < |vs| && OnlyCountsChanged(NewVideo(channelId, vs[j]), r.rows[i].doc)
    {
      if i < |t1.rows| {
        CountsChangedTrans(NewVideo(channelId, vs[0]), t1.rows[i].doc, r.rows[i].doc);
      } else {
        var j :| 0 <= j < |vs[1..]| && OnlyCountsChanged(NewVideo(channelId, vs[1..][j]), r.rows[i].doc);
        assert vs[1..][j] == vs[j + 1];
      }
    }
  }

  /** Every row appended to `t` on the way to `r` has a video id no row before it has: an upsert
      on the video id inserts only an id that is not there yet. */
  ghost predicate FreshAppends(t: Table<Video>, r: Table<Video>) {
    forall i, j :: 0 <= j < i < |r.rows| && |t.rows| <= i ==> r.rows[j].doc.videoId != r.rows[i].doc.videoId
  }

  /** One loop step appends only a video id the table did not hold. */
  lemma UpsertVideoFresh(t: Table<Video>, channelId: string, v: VideoData)
    requires Valid(t)
    ensures FreshAppends(t, UpsertVideo(t, channelId, v))
  {
    var r := UpsertVideo(t, channelId, v);
    if FindVideo(t, v.videoId).None? {
      AppendedIdIsNew(t, r, v.videoId);
    }
  }

  /** Appending one row under an id no earlier row has, keeping the ids before it, is fresh. */
  lemma AppendedIdIsNew(t: Table<Video>, r: Table<Video>, videoId: string)
    requires |r.rows| == |t.rows| + 1 && r.rows[|t.rows|].doc.videoId == videoId
    requires forall j :: 0 <= j < |t.rows| ==> !VideoIdIs(videoId)(t.rows[j].doc)
    requires forall j :: 0 <= j < |t.rows| ==> OnlyCountsChanged(t.rows[j].doc, r.rows[j].doc)
    ensures FreshAppends(t, r)
  {
    forall i, j | 0 <= j < i < |r.rows| && |t.rows| <= i
      ensures r.rows[j].doc.videoId != r.rows[i].doc.videoId
    {
      assert OnlyCountsChanged(t.rows[j].doc, r.rows[j].doc);
      assert !VideoIdIs(videoId)(t.rows[j].doc);
    }
  }

  /** Fresh appends compose when the second step keeps the video ids of the rows before it. */
  lemma FreshAppendsTrans(t: Table<Video>, t1: Table<Video>, r: Table<Video>)
    requires |t.rows| <= |t1.rows| <= |r.rows|
    requires FreshAppends(t, t1) && FreshAppends(t1, r)
    requires forall i :: 0 <= i < |t1.rows| ==> OnlyCountsChanged(t1.rows[i].doc, r.rows[i].doc)
    ensures FreshAppends(t, r)
  {
    forall i, j | 0 <= j < i < |r.rows| && |t.rows| <= i
      ensures r.rows[j].doc.videoId != r.rows[i].doc.videoId
    {
      if i < |t1.rows| {
        assert OnlyCountsChanged(t1.rows[i].doc, r.rows[i].doc);
        assert OnlyCountsChanged(t1.rows[j].doc, r.rows[j].doc);
      }
    }
  }

  /** Fresh appends, on rows whose video ids are kept, are new to the table and pairwise distinct. */
  lemma FreshAppendsMeans(t: Table<Video>, r: Table<Video>)
    requires |t.rows| <= |r.rows| && FreshAppends(t, r)
    requires forall i :: 0 <= i < |t.rows| ==> OnlyCountsChanged(t.rows[i].doc, r.rows[i].doc)
    ensures forall i :: |t.rows| <= i < |r.rows| ==> !HasVideo(t, r.rows[i].doc.videoId)
    ensures forall i, j :: |t.rows| <= i < j < |r.rows| ==> r.rows[i].doc.videoId != r.rows[j].doc.videoId
  {
    forall i | |t.rows| <= i < |r.rows|
      ensures !HasVideo(t, r.rows[i].doc.videoId)
    {
      forall j | 0 <= j < |t.rows|
        ensures t.rows[j].doc.videoId != r.rows[i].doc.videoId
      {
        assert OnlyCountsChanged(t.rows[j].doc, r.rows[j].doc);
      }
    }
  }

  /** What storing the batch `vs` under the external channel id `channelId` promises of the
      videos table `r` made from `t`: every batch video has a row, and the first row under
      each id holds the counts of the last batch element with that id; the rows that were
      there keep their ids and change only in their counts, those outside the batch not at
      all; every appended row is a batch video stored under `channelId`, up to its counts, under
      a video id the table did not hold and no other appended row has. */
  ghost predicate BatchStored(t: Table<Video>, r: Table<Video>, channelId: string, vs: seq<VideoData>) {
    && Valid(r) && |t.rows| <= |r.rows|
    && (forall k :: 0 <= k < |vs| ==> HasVideo(r, vs[k].videoId))
    && (forall k :: LastOfId(vs, k) ==>
          FindVideo(r, vs[k].videoId).Some? && HasCountsOf(FindVideo(r, vs[k].videoId).value.doc, vs[k]))
    && (forall i :: 0 <= i < |t.rows| ==>
          r.rows[i].id == t.rows[i].id && OnlyCountsChanged(t.rows[i].doc, r.rows[i].doc))
    && (forall i :: 0 <= i < |t.rows| && t.rows[i].doc.videoId !in VideoIds(vs) ==> r.rows[i] == t.rows[i])
    && (forall i :: |t.rows| <= i < |r.rows| ==>
          exists j :: 0 <= j < |vs| && OnlyCountsChanged(NewVideo(channelId, vs[j]), r.rows[i].doc))
    && (forall i :: |t.rows| <= i < |r.rows| ==> !HasVideo(t, r.rows[i].doc.videoId))
    && (forall i, j :: |t.rows| <= i < j < |r.rows| ==> r.rows[i].doc.videoId != r.rows[j].doc.videoId)
  }

  /** The loop keeps every promise of `BatchStored`. */
  lemma UpsertVideosStoresBatch(t: Table<Video>, channelId: string, vs: seq<VideoData>)
    requires Valid(t)
    ensures BatchStored(t, UpsertVideos(t, channelId, vs), channelId, vs)
  {
    UpsertVideosStores(t, channelId, vs);
    UpsertVideosCounts(t, channelId, vs);
    FreshAppendsMeans(t, UpsertVideos(t, channelId, vs));
  }

  /** `storeVideos`: for an existing channel row, upserts each video on its video id (over all
      channels) under the channel's external id, and returns the batch length. */
  function StoreVideos(db: Db, channelRowId: nat, videos: seq<VideoData>): (r: Result<Outcome<int>>)
    requires ValidDb(db)
    ensures r.Err? <==> !HasId(db.channels, channelRowId)
    ensures r.Err? ==> r.error == ChannelNotFound
    ensures r.Ok? ==>
              && r.value.value == |videos|
              && ValidDb(r.value.db) && r.value.db == db.(videos := r.value.db.videos)
              && BatchStored(db.videos, r.value.db.videos, Get(db.channels, channelRowId).value.channelId, videos)
  {
    match Get(db.channels, channelRowId)
    case None => Err(ChannelNotFound)
    case Some(channel) =>
      UpsertVideosStoresBatch(db.videos, channel.channelId, videos);
      Ok(Outcome(|videos|, db.(videos := UpsertVideos(db.videos, channel.channelId, videos))))
  }

  /** `getUserChannels`: exactly the channel rows owned by `userId`, in creation order. */
  function GetUserChannels(db: Db, userId: string): (r: seq<Row<Channel>>)
    ensures forall i :: 0 <= i < |r| ==> r[i] in db.channels.rows && r[i].doc.userId == userId
    ensures forall i :: 0 <= i < |db.channels.rows| && db.channels.rows[i].doc.userId == userId ==>
              db.channels.rows[i] in r
  {
    Select(db.channels, ChannelOwnerIs(userId))
  }

  /** The user's channels come in creation order. */
  lemma UserChannelsInOrder(db: Db, userId: string)
    ensures IsSubsequence(GetUserChannels(db, userId), db.channels.rows)
  {
    FilterIsSubsequence(db.channels.rows, DocHolds(ChannelOwnerIs(userId)));
  }

  /** `getChannelVideos`: exactly the videos of that external channel id, newest first. */
  function GetChannelVideos(db: Db, channelId: string): (r: seq<Row<Video>>)
    ensures forall i :: 0 <= i < |r| ==> r[i] in db.videos.rows && r[i].doc.channelId == channelId
    ensures forall i :: 0 <= i < |db.videos.rows| && db.videos.rows[i].doc.channelId == channelId ==>
              db.videos.rows[i] in r
    ensures Valid(db.videos) ==> forall i, j :: 0 <= i < j < |r| ==> r[i].id > r[j].id
  {
    var s := Select(db.videos, VideoChannelIs(channelId));
    FilterIsSubsequence(db.videos.rows, DocHolds(VideoChannelIs(channelId)));
    ReverseMembers(s);
    if Valid(db.videos) then
      SubsequenceOfIncreasing(s, db.videos.rows);
      Reverse(s)
    else Reverse(s)
  }

  /** `deleteChannel`: removes the channel row and every video with its external id;
      other channels and videos stay. */
  function DeleteChannel(db: Db, channelRowId: nat): (r: Result<Outcome<bool>>)
    requires ValidDb(db)
    ensures r.Err? <==> !HasId(db.channels, channelRowId)
    ensures r.Err? ==> r.error == ChannelNotFound
    ensures r.Ok? ==>
              var ext := Get(db.channels, channelRowId).value.channelId;
              var d := r.value.db;
              && r.value.value
              && ValidDb(d) && d == db.(channels := d.channels, videos := d.videos)
              && !HasId(d.channels, channelRowId)
              && |d.channels.rows| == |db.channels.rows| - 1
              && (forall row :: row in db.channels.rows && row.id != channelRowId ==> row in d.channels.rows)
              && (forall i :: 0 <= i < |d.videos.rows| ==> d.videos.rows[i].doc.channelId != ext)
              && (forall i :: 0 <= i < |db.videos.rows| && db.videos.rows[i].doc.channelId != ext ==>
                    db.videos.rows[i] in d.videos.rows)
              && (forall row :: row in d.videos.rows ==> row in db.videos.rows)
  {
    match Get(db.channels, channelRowId)
    case None => Err(ChannelNotFound)
    case Some(channel) =>
      var videos := DeleteWhere(db.videos, VideoChannelIs(channel.channelId));
      var channels := Delete(db.channels, channelRowId).value;
      Ok(Outcome(true, db.(channels := channels, videos := videos)))
  }

  /** After a channel is deleted, asking for its videos returns nothing. */
  lemma DeletedChannelHasNoVideos(db: Db, channelRowId: nat)
    requires ValidDb(db)
    requires DeleteChannel(db, channelRowId).Ok?
    ensures GetChannelVideos(DeleteChannel(db, channelRowId).value.db,
                             Get(db.channels, channelRowId).value.channelId) == []
  {
    var ext := Get(db.channels, channelRowId).value.channelId;
    var d := DeleteChannel(db, channelRowId).value.db;
    FilterKeepsNone(d.videos.rows, DocHolds(VideoChannelIs(ext)));
  }

  /** `connectYouTubeChannel` as written: the result of `storeChannelData` is passed to
      `storeVideos` as the channel's row id. When the channel id is already stored, that
      result is the patch's empty value, which `storeVideos`' id validator rejects, after the
      channel patch has been committed. */
  function ConnectYouTubeChannelAsWritten(db: Db, channelUrl: string, userId: string, now: int,
                                          rng: nat -> nat): (r: ActionRun<nat>)
    requires ValidDb(db)
    ensures ValidDb(r.db)
    ensures FindChannel(db, ChannelIdFromUrl(channelUrl)).Some? ==>
              && r.result == Err(InvalidArgument)
              && r.db == db.(channels := r.db.channels)
              && r.db == StoreChannelData(db, userId, SampleChannel(channelUrl, ChannelIdFromUrl(channelUrl), rng), now).db
    ensures FindChannel(db, ChannelIdFromUrl(channelUrl)).None? ==> r.result.Ok?
  {
    var id := ChannelIdFromUrl(channelUrl);
    var stored := StoreChannelData(db, userId, SampleChannel(channelUrl, id, rng), now);
    match stored.value
    case None => ActionRun(Err(InvalidArgument), stored.db)
    case Some(rowId) =>
      match StoreVideos(stored.db, rowId, SampleVideos(id, now, rng))
      case Err(e) => ActionRun(Err(e), stored.db)
      case Ok(o) => ActionRun(Ok(rowId), o.db)
  }

  /** Reconnecting a channel that is already stored fails and refreshes none of its videos. */
  lemma ReconnectFailsAsWritten(db: Db, channelUrl: string, userId: string, now: int, rng: nat -> nat)
    requires ValidDb(db)
    requires FindChannel(db, ChannelIdFromUrl(channelUrl)).Some?
    ensures var r := ConnectYouTubeChannelAsWritten(db, channelUrl, userId, now, rng);
            r.result.Err? && r.db.videos == db.videos
  {
  }

  /** The channel row `rowId` of `channels` is what storing `data` into `db` leaves: the
      re-synced first row with that channel id, or else a new row of `userId` with a fresh id. */
  predicate ChannelConnected(db: Db, channels: Table<Channel>, rowId: nat, userId: string,
                             data: ChannelData, now: int) {
    match FindChannel(db, data.channelId)
    case Some(row) => rowId == row.id && Get(channels, rowId) == Some(ChannelResync(row.doc, data, now))
    case None => !HasId(db.channels, rowId) && Get(channels, rowId) == Some(NewChannel(userId, data, now))
  }

  /** After `storeChannelData` the lookup finds the row the upsert re-synced or inserted. */
  lemma StoredChannelRow(db: Db, userId: string, data: ChannelData, now: int)
    requires ValidDb(db)
    ensures var s := StoreChannelData(db, userId, data, now);
            && FindChannel(s.db, data.channelId).Some?
            && ChannelConnected(db, s.db.channels, FindChannel(s.db, data.channelId).value.id, userId, data, now)
  {
    var s := StoreChannelData(db, userId, data, now);
    var found := FindChannel(s.db, data.channelId).value;
    var k :| 0 <= k < |s.db.channels.rows| && s.db.channels.rows[k] == found;
    GetRow(s.db.channels, k);
  }

  /** Each of the five sample videos of `channelId` has a row, and the first row under its id
      holds that sample's view, like and comment counts. */
  predicate SamplesStored(t: Table<Video>, channelId: string, now: int, rng: nat -> nat) {
    forall i :: 0 <= i < 5 ==>
      && HasVideo(t, SampleVideoId(i, channelId))
      && FindVideo(t, SampleVideoId(i, channelId)).Some?
      && HasCountsOf(FindVideo(t, SampleVideoId(i, channelId)).value.doc, SampleVideos(channelId, now, rng)[i])
  }

  /** Storing the sample batch leaves every sample stored with its counts. */
  lemma SampleBatchStored(t: Table<Video>, r: Table<Video>, ext: string, channelId: string, now: int,
                          rng: nat -> nat)
    requires BatchStored(t, r, ext, SampleVideos(channelId, now, rng))
    ensures SamplesStored(r, channelId, now, rng)
  {
    var videos := SampleVideos(channelId, now, rng);
    assert forall i :: 0 <= i < 5 ==> LastOfId(videos, i);
  }

  /** `connectYouTubeChannel` as intended: store the channel, then upsert the five sample videos
      under the stored row, whether it was inserted now or found already there. */
  function ConnectYouTubeChannel(db: Db, channelUrl: string, userId: string, now: int,
                                 rng: nat -> nat): (r: Outcome<nat>)
    requires ValidDb(db)
    ensures ValidDb(r.db) && r.db == db.(channels := r.db.channels, videos := r.db.videos)
    ensures ChannelConnected(db, r.db.channels, r.value, userId,
                             SampleChannel(channelUrl, ChannelIdFromUrl(channelUrl), rng), now)
    ensures HasId(r.db.channels, r.value)
    ensures Get(r.db.channels, r.value).value.channelId == ChannelIdFromUrl(channelUrl)
    ensures SamplesStored(r.db.videos, ChannelIdFromUrl(channelUrl), now, rng)
  {
    var id := ChannelIdFromUrl(channelUrl);
    var stored := StoreChannelData(db, userId, SampleChannel(channelUrl, id, rng), now);
    var row := FindChannel(stored.db, id).value;
    var k :| 0 <= k < |stored.db.channels.rows| && stored.db.channels.rows[k] == row
             && row.doc.channelId == id;
    GetRow(stored.db.channels, k);
    StoredChannelRow(db, userId, SampleChannel(channelUrl, id, rng), now);
    var videos := SampleVideos(id, now, rng);
    var o := StoreVideos(stored.db, row.id, videos).value;
    SampleBatchStored(stored.db.videos, o.db.videos, id, id, now, rng);
    Outcome(row.id, o.db)
  }

  /** On a channel id not yet stored, the action as written does what the intended one does. */
  lemma FreshConnectAsIntended(db: Db, channelUrl: string, userId: string, now: int, rng: nat -> nat)
    requires ValidDb(db)
    requires FindChannel(db, ChannelIdFromUrl(channelUrl)).None?
    ensures var written := ConnectYouTubeChannelAsWritten(db, channelUrl, userId, now, rng);
            var intended := ConnectYouTubeChannel(db, channelUrl, userId, now, rng);
            written.result == Ok(intended.value) && written.db == intended.db
  {
    var id := ChannelIdFromUrl(channelUrl);
    var stored := StoreChannelData(db, userId, SampleChannel(channelUrl, id, rng), now);
    var rowId := stored.value.value;
    assert FindChannel(stored.db, id).value.id == rowId;
    assert stored.db.channels.rows[|db.channels.rows|].id == rowId;
    GetRow(stored.db.channels, |db.channels.rows|);
  }
}
